=== FILE: README.md ===
# chattycathy authentication, sessions and RBAC in Dafny

This project models the authentication core of the chattycathy API server:

- **Refresh-session store.** It lives in Redis. A token key maps to the session snapshot. A per-user set indexes that user's live tokens.
- **Token codec.** It issues RS256 access tokens, a JSON Web Token as in RFC 7519 section 4.1, signed as in RFC 7518 section 3.3. It also issues opaque refresh tokens: 32 random bytes in padded base64url, RFC 4648 section 5.
- **Bearer middleware and gates.** The `Bearer ` prefix follows RFC 6750 section 2.1 but is matched case-sensitively. The gates are role any-of, permission any-of and permission all-of.
- **Auth handlers.** They handle refresh rotation, logout, logout-everywhere and session listing.
- **Google sign-in callback.** It includes find-or-create of the user row.
- **Relational RBAC model.** Users, roles, permissions, `user_roles` and `role_permissions`, plus the seed.
- **Migration back-fill.**
- **Admin role handlers.**
- **Environment configuration.**

The model is functional throughout:

- Redis is a pair of maps and a `connected` flag.
- A database table is a sequence of rows in primary-key order, so a GORM `First` is the first match. A join table is a set of id pairs.
- Tokens are symbolic. A signed token carries its algorithm, its claims and the number of the key that signed it. It verifies under a public key exactly when that number matches.
- Randomness, the clock, Google's HTTP endpoints and the failures of single Redis commands are parameters.

Module by module:

| file | module | source |
|---|---|---|
| `wrappers.dfy` | `Wrappers` | `Option`, `Result` and sequence helpers |
| `decimal.dfy` | `Decimal` | Go's `strconv.Atoi`, `ParseUint` and `FormatUint`/`Itoa` as used by the server |
| `base64url.dfy` | `Base64Url` | padded URL-safe base64 (RFC 4648 section 5) |
| `config.dfy` | `Config` | `api/config/config.go` |
| `refresh_store.dfy` | `RefreshStore` | `api/pkg/auth/refresh_store.go` |
| `token_codec.dfy` | `TokenCodec` | `api/pkg/auth/jwt.go` |
| `access_gate.dfy` | `AccessGate` | `api/pkg/middleware/jwt.go` |
| `rbac.dfy` | `Rbac` | `api/db/models/rbac.go` |
| `migrate.dfy` | `Migrate` | `api/db/migrate.go` |
| `admin.dfy` | `Admin` | `api/internal/admin/admin_handler.go` |
| `auth_handler.dfy` | `AuthHandler` | `api/internal/auth/auth_handler.go` |
| `google_login.dfy` | `GoogleLogin` | `api/internal/auth/google_handler.go` |

Where the code and its documentation disagree, the model follows the code. In particular, `Refresh` answers every failure to read the presented token with 401 "invalid or expired refresh token" and clears the cookie. That includes an unavailable store, and a `GET` that fails while the record is live. It never answers that with a 500.

## Model

| member | source | states |
|---|---|---|
| Decimal.Format | api/internal/auth/google_handler.go:124 | the decimal rendering of a user id is canonical (no leading zeros) and denotes that id |
| Decimal.ParseUint | api/internal/admin/admin_handler.go:121-125 | `ParseUint(s, bits)` succeeds iff `s` is a non-empty digit string whose value fits in `bits` bits, and then yields that value |
| Decimal.ParseUintSpec | api/internal/admin/admin_handler.go:121 | the digit-by-digit scanner with overflow cut-off accepts exactly the in-range digit strings; on failure its value is 0 or the saturated maximum |
| Decimal.ScanSpec | api/config/config.go:104-111 | scanning digits onto a prefix accepts iff the rest are digits and the total stays within the bound, and then yields the value of the whole text |
| Decimal.AtoiRejectsNonDigits | api/config/config.go:63 | text starting with neither a sign nor a digit makes `Atoi` fail with value 0 |
| Decimal.AtoiSyntaxError | api/config/config.go:63 | `Atoi` fails with value 0 when no digit follows the optional sign, or when a non-digit comes while the digits before it are still within the `uint64` range |
| Decimal.CanonicalUnique | api/internal/auth/google_handler.go:124 | two canonical decimal texts with the same value are the same text |
| Decimal.ParseFormat | api/internal/auth/google_handler.go:124 | parsing the rendering of any id that fits in the width gives the id back |
| Decimal.FormatParse | api/internal/admin/admin_handler.go:121 | rendering the value of an accepted canonical text gives that text back |
| Decimal.AtoiFormatInt | api/config/config.go:104-111 | `Atoi` reads back every 64-bit integer written in decimal, negative ones included |
| Base64Url.Symbol | api/pkg/auth/jwt.go:176 | every 6-bit value maps to a character of the URL-safe alphabet |
| Base64Url.SymbolValue | api/pkg/auth/jwt.go:176 | a character has a value iff it is in the URL-safe alphabet, and that value maps back to the character |
| Base64Url.SymbolRoundTrip | api/pkg/auth/jwt.go:176 | decoding the symbol of a 6-bit value gives the value |
| Base64Url.Encode | api/pkg/auth/jwt.go:176 | padded encoding of `n` bytes is `4 * ceil(n / 3)` characters long |
| Base64Url.DecodeEncode | api/pkg/auth/jwt.go:176 | decoding the encoding of any byte string gives the byte string back |
| Base64Url.EncodeAlphabet | api/pkg/auth/jwt.go:176 | the encoding is URL-safe except for one `=` when `n mod 3 = 2` and two when `n mod 3 = 1` |
| Config.GetEnv | api/config/config.go:120-125 | a variable that is set, even to the empty string, gives its value; an unset one gives the default |
| Config.GetEnvInt | api/config/config.go:104-111 | a set variable that parses gives its integer; an unset or unparsable one gives the default |
| Config.EmptyEnvDefaults | api/config/config.go:59-102 | with nothing set, access expiry is 15, refresh expiry 7, issuer `chattycathy`, port `8080`, Redis database 0, pretty logging on and both key paths empty |
| Config.Load | api/config/config.go:59-102 | each of the 17 string settings is its variable when set, even when empty, and otherwise the source's default (`8080`, `localhost`, `5432`, `postgres`, `postgres`, `chattycathy`, `disable`, `localhost`, `6379`, empty, `info`, empty, empty, `chattycathy`, empty, empty, `http://localhost:3000`); `REDIS_DB` gives 0 when unset and otherwise whatever `Atoi` returns next to its discarded error; the token lifetimes use their integer when it parses and otherwise fall back to 15 minutes and 7 days, never to 0; pretty logging is on iff `LOG_PRETTY` is unset or exactly `true` |
| Config.NonNumericRedisDb | api/config/config.go:63 | a `REDIS_DB` with no digit after its optional sign, or with a non-digit before its digits exceed the `uint64` range, selects database 0, because the parse error is discarded; a longer digit prefix is a range error and keeps the clamped value |
| Config.GetEnvIntRoundTrip | api/config/config.go:104-111 | any 64-bit integer written into a variable is read back, whatever the default |
| Config.SplitJoin | api/config/config.go:113-118 | joining space-free fields with single spaces and splitting at spaces gives the fields back |
| Config.Dsn | api/config/config.go:113-118 | when no value contains a space, splitting the DSN at spaces gives exactly the six `key=value` fields host, port, user, password, dbname, sslmode in that order |
| RefreshStore.KeyspacesDisjoint | api/pkg/auth/refresh_store.go:12-15 | a token key and a user-index key never collide |
| RefreshStore.SetTtl | api/pkg/auth/refresh_store.go:41 | a positive expiry becomes the record's TTL; a non-positive one leaves the record without expiry |
| RefreshStore.AddMember | api/pkg/auth/refresh_store.go:47 | `SADD` adds the token to the user's set, creating it without a TTL if missing and keeping an existing TTL; other users' sets are untouched |
| RefreshStore.ExpireIndex | api/pkg/auth/refresh_store.go:51 | `EXPIRE` with a positive TTL sets it on an existing index; a non-positive one deletes the index; other users' indexes are untouched |
| RefreshStore.StoreRefreshToken | api/pkg/auth/refresh_store.go:29-54 | no client: error and no change; a failed `SET`: error and no change; a failed `SADD`: error with the record written but not indexed; otherwise no error, the record is written with the TTL (none if non-positive), and the owner's index gains the token and takes the TTL, or is deleted when the TTL is non-positive and the `EXPIRE` runs; other users' indexes are untouched |
| RefreshStore.GetRefreshTokenData | api/pkg/auth/refresh_store.go:57-74 | succeeds iff connected, the `GET` does not fail and the token is stored, giving its data; "not initialized" iff there is no client; a failed `GET` or a missing token gives "not found or expired", even for a live record |
| RefreshStore.RevokeRefreshToken | api/pkg/auth/refresh_store.go:77-91 | no client: error and no change; the error is exactly a failed `DEL`; the record is gone unless the `DEL` failed; a resolving token leaves its owner's index unless the `GET` or `SREM` failed, other users untouched; otherwise the indexes are unchanged |
| RefreshStore.RevokeAllUserTokens | api/pkg/auth/refresh_store.go:94-113 | no client or a failed `SMEMBERS`: error and no change; otherwise every token of the user's index is gone except those whose `DEL` failed, every other token and user index is untouched, and the user's index is gone unless its `DEL` failed, which is the error |
| RefreshStore.ExpireToken | api/pkg/auth/refresh_store.go:40-43 | a token's TTL running out removes only that token key and leaves the index behind; a record without expiry never runs out |
| RefreshStore.ListUserTokens | api/pkg/auth/refresh_store.go:116-139 | without a client fails with the store unchanged; otherwise lists the data of exactly the index members that are live and whose `GET` succeeds, each once, and prunes the rest from the index, live members whose `GET` failed included |
| RefreshStore.ListingBounded | api/pkg/auth/refresh_store.go:127-136 | the listing is never longer than the index was before the call, whichever `GET`s fail |
| RefreshStore.StoreTwice | api/pkg/auth/refresh_store.go:40-52 | storing a token again overwrites its data; with a positive TTL the index counts it once, with a non-positive one the owner has no index |
| RefreshStore.RevokeIdempotent | api/pkg/auth/refresh_store.go:77-91 | after a first revoke with no failed command, a second revoke of the same token changes nothing whichever of its commands fail, and reports no error unless its `DEL` fails |
| RefreshStore.RevokeForgets | api/pkg/auth/refresh_store.go:82-90 | after a revoke whose `DEL` succeeded the token no longer resolves; after one whose `SREM` succeeded it is out of its owner's index |
| RefreshStore.OperationsKeepValid | api/pkg/auth/refresh_store.go:29-139 | every operation, whichever of its commands fail, and every expiry keeps each index non-empty, as Redis deletes an emptied set |
| RefreshStore.StoreKeepsIndexed | api/pkg/auth/refresh_store.go:29-54 | storing keeps every live token in its owner's index when the `SET` fails, or the `SADD` succeeds and the TTL is positive or the `EXPIRE` failed |
| RefreshStore.StoreCanUnindex | api/pkg/auth/refresh_store.go:40-51 | after a failed `SADD` of a new token, or a successful `EXPIRE` with a non-positive TTL, the new record resolves but is in no index |
| RefreshStore.RevokeKeepsIndexed | api/pkg/auth/refresh_store.go:77-91 | revoking keeps every live token in its owner's index unless the `DEL` fails after the `SREM` |
| RefreshStore.RevokeCanUnindex | api/pkg/auth/refresh_store.go:83-90 | a `DEL` failing after a successful `SREM` leaves the token resolving but out of its owner's index |
| RefreshStore.RevokeAllKeepsIndexed | api/pkg/auth/refresh_store.go:94-113 | revoke-all keeps every live token in its owner's index unless the index is deleted while a live record's `DEL` failed |
| RefreshStore.ExpiryAndPruningKeepIndexed | api/pkg/auth/refresh_store.go:121-138 | expiry keeps every live token in its owner's index, and so does listing's pruning when no live member's `GET` fails |
| RefreshStore.ListingReadFailureUnindexes | api/pkg/auth/refresh_store.go:128-134 | a live member whose `GET` fails during a listing is removed from the index, still resolves afterwards, and survives revoking all of the user's tokens |
| RefreshStore.RevokeAllLeavesNoSession | api/pkg/auth/refresh_store.go:94-113 | for an indexed store and a successful `SMEMBERS`, no surviving session belongs to the user except those whose `DEL` failed |
| TokenCodec.GenerateAccessToken | api/pkg/auth/jwt.go:146-168 | fails iff no private key is loaded; otherwise RS256, signed by that key, subject = user id, issued-at = not-before = now, expiry = now + minutes*60, with the given identity, permissions and issuer |
| TokenCodec.GenerateRefreshToken | api/pkg/auth/jwt.go:171-177 | fails iff the random source fails; otherwise 44 characters that decode to exactly the 32 random bytes |
| TokenCodec.RefreshTokenShape | api/pkg/auth/jwt.go:171-177 | a refresh token is 43 URL-safe characters followed by one `=` |
| TokenCodec.RefreshTokenInjective | api/pkg/auth/jwt.go:171-177 | two refresh tokens are equal iff their random bytes are |
| TokenCodec.GenerateTokenPair | api/pkg/auth/jwt.go:180-198 | succeeds iff a private key is loaded and randomness works; access expires-in = minutes*60, refresh expires-in = days*86400, type `Bearer` |
| TokenCodec.ValidateToken | api/pkg/auth/jwt.go:201-222 | validation succeeds iff a public key is loaded, the method is RS256/384/512, the signature matches and not-before ≤ now < expiry; it returns the token's own claims |
| TokenCodec.IssueThenValidate | api/pkg/auth/jwt.go:146-222 | a token issued with a matching pair validates within its lifetime and carries the issued identity, role and permissions |
| TokenCodec.IssuedTokenExpires | api/pkg/auth/jwt.go:159-160 | from the expiry instant on, an issued token is rejected as expired |
| TokenCodec.ForeignKeyRejected | api/pkg/auth/jwt.go:212-215 | a token signed by another key fails signature verification |
| TokenCodec.NonRsaRejected | api/pkg/auth/jwt.go:206-211 | a token whose method is not PKCS#1 v1.5 RSA is refused, whatever its claims |
| TokenCodec.Init | api/pkg/auth/jwt.go:51-77 | loads only when both paths are set, generates iff loading was skipped or failed, saves only generated keys and only with both paths set, and fails iff generation fails, exactly when no private key remains |
| TokenCodec.InitGeneratedKeysWork | api/pkg/auth/jwt.go:62-76 | after generating keys, every access token issued with any claims is accepted from its issue until its expiry and yields those claims, whether or not saving succeeded |
| TokenCodec.InitFailureBlocksIssuing | api/pkg/auth/jwt.go:63-66 | after a failed start-up no access token can be issued, whatever its claims |
| AccessGate.JwtAuth | api/pkg/middleware/jwt.go:21-51 | an empty header or one without the exact `Bearer ` prefix gives 401 without validation; it continues iff the text after the 7-character prefix validates, and then stores exactly those claims; a token that does not validate gives 401 `invalid or expired token` |
| AccessGate.GetClaims | api/pkg/middleware/jwt.go:86-93 | claims are returned iff the context holds a value of the claims type |
| AccessGate.RequireRole | api/pkg/middleware/jwt.go:54-83 | no claims gives 401, a value of another type 500; passes iff the role is listed, otherwise 403, so an empty list always refuses |
| AccessGate.AnyHeldSpec | api/pkg/middleware/jwt.go:115-125 | the any-of loop finds a match iff some required permission is held |
| AccessGate.Missing | api/pkg/middleware/jwt.go:154-163 | the missing list holds exactly the required permissions not held, is no longer than the required list, and is empty iff all are held |
| AccessGate.MissingKeepsOrder | api/pkg/middleware/jwt.go:154-163 | the missing list of a concatenation is the concatenation of the missing lists, and one permission is listed iff not held, so the list follows the order of the required list |
| AccessGate.RequirePermission | api/pkg/middleware/jwt.go:96-132 | 401 without claims, 500 on a foreign value; passes iff some listed permission is held, otherwise 403 reporting the list unchanged |
| AccessGate.RequireAllPermissions | api/pkg/middleware/jwt.go:135-176 | 401 without claims, 500 on a foreign value; passes iff every listed permission is held, otherwise 403 "insufficient permissions" whose non-empty missing list is exactly the in-order list of the unheld ones |
| AccessGate.AllImpliesAny | api/pkg/middleware/jwt.go:115-174 | for a non-empty list, passing the all-of gate implies passing the any-of gate |
| AccessGate.SingleAgrees | api/pkg/middleware/jwt.go:115-174 | the two permission gates agree on a one-element list |
| AccessGate.GatesNeedAuthentication | api/pkg/middleware/jwt.go:56-62 | when authentication aborts, every gate answers 401, never 403 |
| AccessGate.RoleGateEndToEnd | api/pkg/middleware/jwt.go:21-83 | a request passes authentication and the role gate iff its bearer token validates and carries a listed role |
| Rbac.RoleNamed | api/db/models/rbac.go:175-178 | the name lookup finds a role of that name iff one exists |
| Rbac.GetUserPermissions | api/db/models/rbac.go:145-157 | duplicate-free, and contains exactly the names of permissions linked to some role the user holds |
| Rbac.PermissionsAreUnion | api/db/models/rbac.go:145-157 | a name is granted iff some held role links a permission of that name |
| Rbac.NoRolesNoPermissions | api/db/models/rbac.go:145-157 | a user with no roles gets the empty list |
| Rbac.HasPermissionIff | api/db/models/rbac.go:199-211 | `HasPermission` is true iff the name is among `GetUserPermissions` |
| Rbac.GetUserRoles | api/db/models/rbac.go:160-171 | exactly the role rows the user is assigned |
| Rbac.AssignRoleToUser | api/db/models/rbac.go:174-186 | an unknown role name fails and changes nothing; otherwise only the (user, role) pair is added |
| Rbac.RemoveRoleFromUser | api/db/models/rbac.go:189-196 | an unknown role name fails; otherwise only the (user, role) pair is removed |
| Rbac.AssignIdempotent | api/db/models/rbac.go:180-185 | assigning a held role again changes nothing |
| Rbac.AssignGrants | api/db/models/rbac.go:174-186 | after an assignment the user holds every permission of the role |
| Rbac.RemoveOnlyThatPair | api/db/models/rbac.go:189-196 | other users' and other roles' assignments survive a removal |
| Rbac.RemoveUndoesAssign | api/db/models/rbac.go:174-196 | removing a freshly assigned role restores the database |
| Rbac.CatalogNames | api/db/models/rbac.go:52-73 | every catalogue permission is named `resource:action` |
| Rbac.SeedPermissions | api/db/models/rbac.go:76-80 | permissions are matched by name: existing rows are kept, the missing names are added, and nothing else changes |
| Rbac.SeedPermissionsWf | api/db/models/rbac.go:76-80 | seeding keeps permission ids unique and below the next id |
| Rbac.CreateRoleIfMissing | api/db/models/rbac.go:130-139 | afterwards a role of that name exists; an existing name changes nothing; permissions, users, user links, existing role rows and existing roles' permission links are never modified; a new role takes the next id and is linked to exactly the permissions with the given ids |
| Rbac.Seed | api/db/models/rbac.go:50-142 | afterwards `admin`, `user` and `editor` exist and every catalogue permission name is present; existing permissions, roles, users and assignments are kept; a well-formed database stays well formed |
| Rbac.SeedWf | api/db/models/rbac.go:50-142 | seeding keeps the tables well formed |
| Rbac.SeedDefaultsPresent | api/db/models/rbac.go:95-127 | after seeding the roles `admin`, `user` and `editor` exist |
| Rbac.SeedKeeps | api/db/models/rbac.go:76-80 | seeding only adds: existing permissions, roles, users, assignments and links stay as they were |
| Rbac.SeedIdempotent | api/db/models/rbac.go:50-142 | seeding a seeded database changes nothing |
| Rbac.SeedFromEmpty | api/db/models/rbac.go:95-127 | on an empty database the roles are admin (system), user (system) and editor (not system), with ids 1 to 3 |
| Rbac.SeedFromEmptyLinks | api/db/models/rbac.go:83-126 | on an empty database admin gets every permission, user exactly its two, editor exactly its four |
| Rbac.CatalogCoversDefaults | api/db/models/rbac.go:52-92 | the catalogue holds every permission the user and editor roles name |
| Migrate.UsersWithoutRoles | api/db/migrate.go:44-48 | exactly the users with no `user_roles` row |
| Migrate.AssignEach | api/db/migrate.go:60-66 | without the role nothing changes; with it every listed user gets the role and nothing else changes |
| Migrate.Migrate | api/db/migrate.go:10-38 | fails iff the schema migration fails; seed and back-fill errors never surface |
| Migrate.Backfill | api/db/migrate.go:41-69 | only `user_roles` changes and only by added rows; with the `user` role present every user holds some role afterwards; without it nothing changes |
| Migrate.BackfillLeavesHolders | api/db/migrate.go:44-48 | a user who held any role keeps exactly their roles |
| Migrate.BackfillIdempotent | api/db/migrate.go:53-56 | a second back-fill changes nothing |
| Migrate.MigrateGivesEveryoneARole | api/db/migrate.go:13-37 | after a successful migration every user holds a role |
| Admin.ParseRoleId | api/internal/admin/admin_handler.go:121-125 | accepted iff a non-empty base-10 text below 2^32, and yields its value |
| Admin.ParseRoleIdFormat | api/internal/admin/admin_handler.go:121 | every 32-bit id written in decimal is accepted back |
| Admin.ParseRoleIdRejectsWide | api/internal/admin/admin_handler.go:121-125 | an id of 2^32 or more is rejected |
| Admin.View | api/internal/admin/admin_handler.go:140-155 | a role response carries the role's fields and exactly its linked permissions |
| Admin.GetRole | api/internal/admin/admin_handler.go:120-156 | a bad id gives 400 before any lookup, an unknown one 404; 200 iff the role exists, with its view |
| Admin.CreateRole | api/internal/admin/admin_handler.go:159-198 | an invalid body gives 400, an existing name 409, both with no change; otherwise 201 with one new role that is not a system role and has no permissions |
| Admin.UpdateRole | api/internal/admin/admin_handler.go:201-274 | checks in the source's order: 400 for a bad id, 400 for an invalid body, 404 for no such role, 403 for renaming a system role, 409 for a name held by another role, each with no change; 200 iff none of these applies, and then only that role's name and description change |
| Admin.DeleteRole | api/internal/admin/admin_handler.go:277-312 | a system role gives 403; 200 iff the role exists and is not a system role, and removes it, its permission links and its assignments only |
| Admin.SetRolePermissions | api/internal/admin/admin_handler.go:315-388 | 200 iff the id parses, the body is valid and the role exists; the role's links become exactly the requested ids that exist, other roles untouched |
| Admin.CreateKeepsSystemRoles | api/internal/admin/admin_handler.go:172-197 | creating a role keeps every system role, name included |
| Admin.UpdateKeepsSystemRoles | api/internal/admin/admin_handler.go:231-235 | no update renames or removes a system role |
| Admin.DeleteKeepsSystemRoles | api/internal/admin/admin_handler.go:295-299 | no delete removes a system role |
| Admin.SetPermissionsKeepsSystemRoles | api/internal/admin/admin_handler.go:344-359 | replacing permissions keeps every system role |
| Admin.CreateRoleKeepsWf | api/internal/admin/admin_handler.go:172-197 | creation keeps ids and role names unique |
| Admin.UpdateRoleKeepsWf | api/internal/admin/admin_handler.go:237-247 | updating keeps ids and role names unique |
| Admin.DeleteRoleKeepsWf | api/internal/admin/admin_handler.go:301-309 | deleting keeps ids and role names unique |
| Admin.SetPermissionsKeepsWf | api/internal/admin/admin_handler.go:344-359 | replacing permissions keeps the tables well formed |
| Admin.CreateTwiceConflicts | api/internal/admin/admin_handler.go:172-177 | repeating a successful creation gives 409 and changes nothing |
| Admin.CreateThenGet | api/internal/admin/admin_handler.go:165-198 | a created role is found under its new id with no permissions |
| Admin.SystemRoleDescriptionEditable | api/internal/admin/admin_handler.go:231-247 | a system role keeping its name may change its description |
| Admin.DeleteThenGet | api/internal/admin/admin_handler.go:277-312 | a deleted role is not found afterwards |
| Admin.SetThenGet | api/internal/admin/admin_handler.go:344-359 | after replacement the role shows exactly the existing permissions whose ids were requested |
| Admin.SetPermissionsIdempotent | api/internal/admin/admin_handler.go:344-359 | replacing with the same list again changes nothing |
| AuthHandler.FirstNonEmpty | api/internal/auth/auth_handler.go:245-263 | the first non-empty candidate, or empty iff all candidates are empty |
| AuthHandler.PresentedTokenPriority | api/internal/auth/auth_handler.go:245-263 | the presented token is the first non-empty of the cookie, the body field and the `X-Refresh-Token` header |
| AuthHandler.Rotated | api/internal/auth/auth_handler.go:159-167 | the new session keeps the identity, role and permissions and takes the request's time, user agent and address |
| AuthHandler.Refresh | api/internal/auth/auth_handler.go:121-179 | no token gives 401 and no change; an unresolvable one, or a live one whose `GET` fails, 401 with the cookie cleared and no change; 200 iff the token resolves, a pair is issued and the store's `SET` and `SADD` succeed; then the old token is gone unless its `DEL` failed, the new one is stored with the refresh lifetime as TTL (none if non-positive) and set as the cookie, and the access token carries the same user id, user name, role and permissions |
| AuthHandler.RefreshRotates | api/internal/auth/auth_handler.go:140-173 | after a successful refresh whose `DEL` went through the old token no longer resolves and the new one resolves to the rotated session |
| AuthHandler.RefreshSingleUse | api/internal/auth/auth_handler.go:131-142 | presenting the same token again fails with 401 |
| AuthHandler.RevokeFailureHarmless | api/internal/auth/auth_handler.go:140-142 | whichever revoke commands fail, the response is the same |
| AuthHandler.RefreshLifetimesAgree | api/internal/auth/auth_handler.go:159-178 | cookie max-age = days*86400 = the pair's refresh expires-in; the stored session's TTL is that value when positive and none otherwise |
| AuthHandler.RefreshKeepsIndexed | api/internal/auth/auth_handler.go:121-179 | a refresh keeps every live token in its owner's index unless the revoke's `DEL` fails after its `SREM`, the store's `SADD` fails after its `SET`, or a non-positive lifetime's `EXPIRE` deletes the index |
| AuthHandler.RefreshDelFailureOrphans | api/internal/auth/auth_handler.go:140-179 | when the revoke's `DEL` fails after its `SREM`, a 200 refresh leaves the old token resolving, out of its owner's index, and still resolving after logout-everywhere |
| AuthHandler.NonPositiveLifetimeUnlisted | api/internal/auth/auth_handler.go:159-173 | with a non-positive refresh lifetime a 200 refresh stores the new session without expiry, the owner has no index, and logout-everywhere leaves the session resolving |
| AuthHandler.Logout | api/internal/auth/auth_handler.go:182-193 | always 200 with the cookie cleared; with a presented token on a connected store the token is gone unless its `DEL` failed; otherwise nothing changes |
| AuthHandler.LogoutIdempotent | api/internal/auth/auth_handler.go:182-193 | after a first logout with no failed command, a second logout, with any failures, gives the same store and the same response |
| AuthHandler.LogoutEndsSession | api/internal/auth/auth_handler.go:182-193 | after a logout whose `DEL` went through, refreshing with that token is refused with 401; after a failed `DEL` the token resolves as before |
| AuthHandler.LogoutAll | api/internal/auth/auth_handler.go:196-212 | 401 without claims, 500 without a store; otherwise the store is revoke-all's result and the answer is 200 with the cookie cleared iff the `SMEMBERS` and the index `DEL` succeed, else 500 |
| AuthHandler.LogoutAllEndsEverySession | api/internal/auth/auth_handler.go:196-212 | after logout-everywhere with a successful `SMEMBERS`, a refresh with any token listed in the caller's index whose `DEL` succeeded is refused with 401 and changes nothing; in a store where every live token is indexed, that covers every token the caller holds |
| AuthHandler.Views | api/internal/auth/auth_handler.go:229-240 | one redacted entry per session, in order; no sessions gives a null list |
| AuthHandler.ListSessions | api/internal/auth/auth_handler.go:215-241 | 401 without claims, 500 without a store; otherwise one entry per live session whose `GET` succeeds, holding only creation time, user agent and address, with the other members pruned from the index (dead tokens, and live ones whose `GET` failed) |
| GoogleLogin.SelectGrant | api/internal/auth/google_handler.go:91-100 | a non-empty access token wins over a code; neither gives no grant |
| GoogleLogin.SaveUser | api/db/models/user.go:10-11 | a save fails iff it would duplicate another row's Google id or email; otherwise it replaces the row in place |
| GoogleLogin.FindOrCreateUser | api/internal/auth/google_handler.go:237-301 | on success the returned user is stored with Google's id, email, name and picture; a failure needs an existing row sharing the Google id or email |
| GoogleLogin.FoundByGoogleId | api/internal/auth/google_handler.go:241-256 | a match by Google id keeps the row's id and role and adds no row |
| GoogleLogin.LinkedByEmail | api/internal/auth/google_handler.go:259-274 | with no Google-id match, an email match links that row, keeping id, email and role, with no new row |
| GoogleLogin.CreatedWhenUnknown | api/internal/auth/google_handler.go:277-293 | with no match exactly one user with role `user` is appended, and the `user` role is assigned when it exists |
| GoogleLogin.FindOrCreateFailsOnlyOnEmailClash | api/internal/auth/google_handler.go:241-274 | on unique tables the lookup fails iff one row has the Google id and another has the email |
| GoogleLogin.FindOrCreateKeepsUnique | api/internal/auth/google_handler.go:237-301 | find-or-create never produces a duplicate Google id, email or user id |
| GoogleLogin.UpdateKeepsUnique | api/db/models/user.go:10-11 | an accepted in-place save keeps Google ids, emails and ids unique |
| GoogleLogin.SecondLoginCreatesNothing | api/internal/auth/google_handler.go:241-256 | signing in again with the same account returns the same user and adds no row |
| GoogleLogin.LoginPermissions | api/internal/auth/google_handler.go:117-121 | a failed lookup gives the empty list, otherwise the user's permission set without duplicates |
| GoogleLogin.LoginSession | api/internal/auth/google_handler.go:124-148 | the session's user id is the canonical decimal rendering of the numeric id, with email, role and permissions from the login |
| GoogleLogin.GoogleCallback | api/internal/auth/google_handler.go:81-179 | 400 on a bad body or no grant, 401 on rejected credentials; 200 iff the user is found or created, tokens are issued and the store's `SET` and `SADD` succeed; a 200 body holds exactly the access token issued for the user's id, email, role and permissions, the refresh token, the access lifetime in seconds, type `Bearer`, and the user's id, email, name, picture, role and permissions (no refresh lifetime); the session is stored under the new refresh token and the cookie set for the refresh lifetime; a non-200 never touches the index and changes the store only by a record whose `SADD` failed |
| GoogleLogin.LoginSnapshotAgrees | api/internal/auth/google_handler.go:117-162 | the access token, the stored session and the response agree on user id, username, role and permissions; the id parses back; a failed lookup gives empty permissions |
| GoogleLogin.LoginCookieLifetime | api/internal/auth/google_handler.go:303-315 | the cookie carries the response's refresh token with max-age = days*86400; the session's TTL is that value when positive and none otherwise |
| GoogleLogin.LoginThenRefresh | api/internal/auth/google_handler.go:140-157 | the cookie set at sign-in refreshes successfully, with the same user id and permissions |

## Left out

- Config.Load: the `env` map is the process environment after `godotenv.Load()` has merged the `.env` file into it. Reading that file is not modelled, and neither is its rule that a variable already set is not overridden.
- The demo password `Login` handler (`api/internal/auth/auth_handler.go:50-113`) and `GetGoogleConfig` are not modelled: neither touches the session store's invariants beyond what `Refresh` already covers.
- Google's HTTP endpoints (`verifyGoogleAccessToken`, `exchangeCodeForUserInfo`) are the parameter `google`. Network, JSON decoding and the OAuth exchange are outside the model.
- RSA key generation, PEM encoding and key files are not modelled. Signatures are symbolic. `Init` takes the outcomes of loading, generating and saving as parameters.
- Redis is not a network service here:
  - Failures of individual commands in the three writes (`StoreRefreshToken`, `RevokeRefreshToken`, `RevokeAllUserTokens`) are fault parameters. A failed command stops the write, but the commands before it keep their effect.
  - In `ListUserTokens`, a failed `SMEMBERS` (a 500 with no change) and failed unchecked `SREM`s (a pruned member stays listed in the index) are not modelled. Neither changes which sessions are live, and neither removes a live token from the index. A failed `GET` is modelled (`getFails`): it prunes a live token from the index (`ListingReadFailureUnindexes`).
  - A stored record that does not decode (the "failed to unmarshal" error) is not modelled: every record is written by `StoreRefreshToken` from a `Session`.
  - TTL expiry of a record is the explicit step `ExpireToken`.
  - The TTL rules follow go-redis v9 and Redis. A `SET` whose expiry is not positive writes the key without one. An `EXPIRE` with a non-positive TTL deletes the key.
  - The index's own TTL running out is not a step. With one fixed positive lifetime and every `EXPIRE` succeeding, each store resets it to the full lifetime, so it never runs out before a member. After a failed `EXPIRE` the index keeps an older TTL, or none, and that expiry is not modelled.
  - The lifetime `days * 24h` is an unbounded integer. Go's `time.Duration` overflow for lifetimes over about 106,000 days is not modelled.
- TokenCodec.GenerateAccessToken: the expiry is `now + minutes*60` over unbounded integers. Go computes `time.Duration(expiryMins) * time.Minute`, an `int64` count of nanoseconds that wraps above about 153,700,000 minutes (about 292 years). The model does not promise what Go issues beyond that, and neither do `IssueThenValidate` and `InitGeneratedKeysWork`, which build on it.
- Database errors are not modelled. These are the 500 answers "failed to fetch role", "failed to create role", "failed to update role", "failed to delete role", "failed to update permissions" and "failed to process user" for anything but a unique violation, and the logged failures in the seed and the back-fill. The only database failure modelled is the unique-index violation when saving a user.
- `ListPermissions` and `ListRoles` are not modelled: they are plain reads whose only logic is an SQL `ORDER BY` under the database's collation.
- Cookie attributes other than value and max-age are not modelled: path, `HttpOnly`, `Secure`, and `SameSite`, which is Strict for the auth handler and Lax for Google sign-in.
- JSON encoding is not modelled. `GoogleCallback` turns a nil permission list into `[]`, and the model does not distinguish the two.
- User timestamps (`LastLoginAt`, `CreatedAt`) are not modelled; the session's creation time is the `now` parameter.
- Concurrency is not modelled. Refresh rotation is not atomic in the source, and the model treats every handler as one sequential step.
- AuthHandler.RefreshRotates: assumes the newly generated refresh token differs from the presented one. The source relies on 32 random bytes never colliding.
- AuthHandler.RefreshSingleUse: has the same no-collision assumption as `RefreshRotates`, and needs the revoke's `DEL` to succeed. After a failed `DEL` the old token stays usable, as in the source.
- AuthHandler.RefreshKeepsIndexed: holds only when no partial write breaks the index. `RefreshDelFailureOrphans` and `NonPositiveLifetimeUnlisted` state what happens otherwise.
- AuthHandler.LogoutAllEndsEverySession: states the outcome for a live token listed in the caller's index, not for every token text, because a token not in the store is refused anyway. The source does not keep every live token indexed. A failed `DEL` after its `SREM`, a failed `SADD`, a non-positive lifetime, or a listing whose `GET` of a live token fails leaves a token unlisted (`RefreshDelFailureOrphans`, `NonPositiveLifetimeUnlisted`, `ListingReadFailureUnindexes`), and such a token survives. The lemma also needs that record's `DEL` to succeed: a record whose `DEL` fails survives a logout-everywhere that answers 200.
- GoogleLogin.FindOrCreateUser: its failure clause alone says only that some row shares the Google id or the email. The exact condition, under unique tables, is `FindOrCreateFailsOnlyOnEmailClash`.

=== FILE: access_gate.dfy ===
/**
 * The request middleware: bearer-token authentication, which puts the token's claims in
 * the request context, and the role and permission gates that read them back.
 */
module AccessGate {
  import opened Wrappers
  import TokenCodec

  const BearerPrefix: string := "Bearer "

  /** What the request context holds under the claims key. */
  datatype Slot = Empty | HoldsClaims(claims: TokenCodec.Claims) | HoldsOther

  /** The extra field of a 403 body. */
  datatype Detail = NoDetail | Required(permissions: seq<string>) | MissingPerms(permissions: seq<string>)

  /** A middleware's decision: run the next handler, or abort with a status and a JSON error body. */
  datatype Verdict = Next | Abort(status: int, error: string, detail: Detail)

  predicate HasPrefix(s: string, p: string)
  {
    |p| <= |s| && s[..|p|] == p
  }

  /**
   * `JWTAuth`: an empty header, a header not starting with `Bearer ` (case-sensitive, one
   * space) and a token that does not validate each give 401. On success the claims are
   * stored in the context. `read` is the JWS compact-serialisation parser.
   */
  function JwtAuth(keys: TokenCodec.KeyState, read: string -> TokenCodec.Token, header: string, now: int)
    : (r: (Verdict, Slot))
    ensures r.0.Next? <==> r.1.HoldsClaims?
    ensures r.0.Abort? ==> r.0.status == 401 && r.1 == Empty
    ensures header == "" ==> r.0 == Abort(401, "missing authorization header", NoDetail)
    ensures header != "" && !HasPrefix(header, BearerPrefix) ==>
      r.0 == Abort(401, "invalid authorization header format", NoDetail)
    ensures r.0.Next? ==>
      && HasPrefix(header, BearerPrefix)
      && TokenCodec.ValidateToken(keys, read(header[|BearerPrefix|..]), now) == Success(r.1.claims)
    ensures HasPrefix(header, BearerPrefix) && TokenCodec.ValidateToken(keys, read(header[|BearerPrefix|..]), now).Success? ==>
      r == (Next, HoldsClaims(TokenCodec.ValidateToken(keys, read(header[|BearerPrefix|..]), now).value))
    ensures HasPrefix(header, BearerPrefix) && TokenCodec.ValidateToken(keys, read(header[|BearerPrefix|..]), now).Failure? ==>
      r == (Abort(401, "invalid or expired token", NoDetail), Empty)
  {
    if header == "" then (Abort(401, "missing authorization header", NoDetail), Empty)
    else if !HasPrefix(header, BearerPrefix) then (Abort(401, "invalid authorization header format", NoDetail), Empty)
    else
      match TokenCodec.ValidateToken(keys, read(header[|BearerPrefix|..]), now)
      case Failure(_) => (Abort(401, "invalid or expired token", NoDetail), Empty)
      case Success(claims) => (Next, HoldsClaims(claims))
  }

  /** `GetClaims`: the claims, when the slot holds claims of the right type. */
  function GetClaims(slot: Slot): (r: Option<TokenCodec.Claims>)
    ensures r.Some? <==> slot.HoldsClaims?
    ensures r.Some? ==> r.value == slot.claims
  {
    match slot
    case HoldsClaims(c) => Some(c)
    case _ => None
  }

  /** The shared prologue of the gates: 401 without claims, 500 with a value of the wrong type. */
  function ClaimsGate(slot: Slot): (r: Verdict)
  {
    match slot
    case Empty => Abort(401, "not authenticated", NoDetail)
    case HoldsOther => Abort(500, "invalid claims", NoDetail)
    case HoldsClaims(_) => Next
  }

  /** The first of `candidates` that `role` equals, scanned in order. */
  function AnyEqual(role: string, candidates: seq<string>): (r: bool)
    ensures r <==> role in candidates
  {
    if |candidates| == 0 then false
    else if role == candidates[0] then true
    else AnyEqual(role, candidates[1..])
  }

  /** `RequireRole(roles...)`: pass when the token's role is one of `roles`; 403 otherwise. */
  function RequireRole(slot: Slot, roles: seq<string>): (r: Verdict)
    ensures r.Next? <==> slot.HoldsClaims? && slot.claims.role in roles
    ensures slot.Empty? ==> r == Abort(401, "not authenticated", NoDetail)
    ensures slot.HoldsOther? ==> r == Abort(500, "invalid claims", NoDetail)
    ensures slot.HoldsClaims? && slot.claims.role !in roles ==> r == Abort(403, "insufficient permissions", NoDetail)
  {
    if !slot.HoldsClaims? then ClaimsGate(slot)
    else if AnyEqual(slot.claims.role, roles) then Next
    else Abort(403, "insufficient permissions", NoDetail)
  }

  /** Whether some permission in `required` is in `held`, scanned in order. */
  function AnyHeld(held: seq<string>, required: seq<string>): bool
  {
    if |required| == 0 then false
    else if required[0] in held then true
    else AnyHeld(held, required[1..])
  }

  /**
   * The permissions of `required` not in `held`, in their order, duplicates kept: exactly
   * the required permissions not held, no longer than `required`, and empty exactly when
   * all are held.
   */
  function Missing(held: seq<string>, required: seq<string>): (r: seq<string>)
    ensures forall p :: p in r <==> p in required && p !in held
    ensures |r| <= |required|
    ensures r == [] <==> forall p | p in required :: p in held
    decreases |required|
  {
    if |required| == 0 then []
    else
      assert required == [required[0]] + required[1..];
      (if required[0] in held then [] else [required[0]]) + Missing(held, required[1..])
  }

  /**
   * The missing list keeps the order of `required`: the list for a concatenation is the
   * concatenation of the lists, and a single permission is listed exactly when not held.
   * Together these fix the list as the in-order filter of `required`.
   */
  lemma {:induction false} MissingKeepsOrder(held: seq<string>, a: seq<string>, b: seq<string>)
    ensures Missing(held, a + b) == Missing(held, a) + Missing(held, b)
    ensures |a| == 1 ==> Missing(held, a) == (if a[0] in held then [] else a)
  {
    MissingConcat(held, a, b);
    if |a| == 1 {
      MissingSingle(held, a);
    }
  }

  lemma {:induction false} MissingConcat(held: seq<string>, a: seq<string>, b: seq<string>)
    ensures Missing(held, a + b) == Missing(held, a) + Missing(held, b)
    decreases |a|
  {
    if |a| == 0 {
      assert a + b == b;
    } else {
      var head := if a[0] in held then [] else [a[0]];
      var ab := a + b;
      assert ab[0] == a[0] && ab[1..] == a[1..] + b;
      assert Missing(held, ab) == head + Missing(held, a[1..] + b);
      MissingConcat(held, a[1..], b);
      assert Missing(held, a) == head + Missing(held, a[1..]);
      SeqAssoc(head, Missing(held, a[1..]), Missing(held, b));
    }
  }

  lemma SeqAssoc<T>(x: seq<T>, y: seq<T>, z: seq<T>)
    ensures x + (y + z) == (x + y) + z
  {
  }

  lemma MissingSingle(held: seq<string>, a: seq<string>)
    requires |a| == 1
    ensures Missing(held, a) == (if a[0] in held then [] else a)
  {
    assert a[1..] == [];
  }

  /** The any-of scan succeeds exactly when some required permission is held. */
  lemma {:induction false} AnyHeldSpec(held: seq<string>, required: seq<string>)
    ensures AnyHeld(held, required) <==> exists p | p in required :: p in held
    decreases |required|
  {
    if |required| > 0 {
      AnyHeldSpec(held, required[1..]);
      if required[0] !in held && (exists p | p in required :: p in held) {
        var p :| p in required && p in held;
        assert p in required[1..];
      }
    }
  }

  /**
   * `RequirePermission(ps...)`: pass when at least one of `ps` is among the token's
   * permissions; otherwise 403 naming the whole required list. An empty list never passes.
   */
  function RequirePermission(slot: Slot, ps: seq<string>): (r: Verdict)
    ensures slot.Empty? ==> r == Abort(401, "not authenticated", NoDetail)
    ensures slot.HoldsOther? ==> r == Abort(500, "invalid claims", NoDetail)
    ensures slot.HoldsClaims? ==>
      (r.Next? <==> exists p | p in ps :: p in slot.claims.permissions)
    ensures slot.HoldsClaims? && r.Abort? ==> r == Abort(403, "insufficient permissions", Required(ps))
  {
    if !slot.HoldsClaims? then ClaimsGate(slot)
    else
      AnyHeldSpec(slot.claims.permissions, ps);
      if AnyHeld(slot.claims.permissions, ps) then Next
      else Abort(403, "insufficient permissions", Required(ps))
  }

  /**
   * `RequireAllPermissions(ps...)`: pass when every one of `ps` is among the token's
   * permissions; otherwise 403 listing the missing ones in order. An empty list passes.
   */
  function RequireAllPermissions(slot: Slot, ps: seq<string>): (r: Verdict)
    ensures slot.Empty? ==> r == Abort(401, "not authenticated", NoDetail)
    ensures slot.HoldsOther? ==> r == Abort(500, "invalid claims", NoDetail)
    ensures slot.HoldsClaims? ==>
      (r.Next? <==> forall p | p in ps :: p in slot.claims.permissions)
    ensures slot.HoldsClaims? && r.Abort? ==>
      && r.status == 403 && r.detail.MissingPerms?
      && |r.detail.permissions| > 0
      && forall p :: p in r.detail.permissions <==> p in ps && p !in slot.claims.permissions
    ensures slot.HoldsClaims? && r.Abort? ==>
      r == Abort(403, "insufficient permissions", MissingPerms(Missing(slot.claims.permissions, ps)))
  {
    if !slot.HoldsClaims? then ClaimsGate(slot)
    else
      var missing := Missing(slot.claims.permissions, ps);
      if |missing| > 0 then Abort(403, "insufficient permissions", MissingPerms(missing))
      else Next
  }

  /** Requiring all of a non-empty list is at least as strict as requiring any of it. */
  lemma AllImpliesAny(slot: Slot, ps: seq<string>)
    requires |ps| > 0
    ensures RequireAllPermissions(slot, ps).Next? ==> RequirePermission(slot, ps).Next?
  {
    if RequireAllPermissions(slot, ps).Next? {
      assert ps[0] in ps;
    }
  }

  /** For a single permission the two gates agree. */
  lemma SingleAgrees(slot: Slot, p: string)
    ensures RequireAllPermissions(slot, [p]).Next? <==> RequirePermission(slot, [p]).Next?
  {
  }

  /**
   * A request reaches a gated handler only with a valid token: when authentication aborts
   * nothing is stored, so every gate behind it answers 401.
   */
  lemma GatesNeedAuthentication(keys: TokenCodec.KeyState, read: string -> TokenCodec.Token,
                                header: string, now: int, roles: seq<string>, ps: seq<string>)
    ensures var (v, slot) := JwtAuth(keys, read, header, now);
      v.Abort? ==>
        && RequireRole(slot, roles).status == 401
        && RequirePermission(slot, ps).status == 401
        && RequireAllPermissions(slot, ps).status == 401
  {
  }

  /** A role gate passes a request exactly when the token it carries names one of the roles and is currently valid. */
  lemma RoleGateEndToEnd(keys: TokenCodec.KeyState, read: string -> TokenCodec.Token,
                         header: string, now: int, roles: seq<string>)
    ensures var (v, slot) := JwtAuth(keys, read, header, now);
      v.Next? && RequireRole(slot, roles).Next? <==>
        && HasPrefix(header, BearerPrefix)
        && TokenCodec.ValidateToken(keys, read(header[|BearerPrefix|..]), now).Success?
        && TokenCodec.ValidateToken(keys, read(header[|BearerPrefix|..]), now).value.role in roles
  {
  }
}

=== FILE: admin.dfy ===
/**
 * The admin endpoints for role management, over the relational model. Each handler is a
 * function from the database and the request (path parameter, decoded JSON body) to the
 * new database and the response. A body that does not decode, or that fails its binding
 * rules, is `None`.
 */
module Admin {
  import opened Wrappers
  import Decimal
  import opened Rbac

  /** The body of a create or update request. */
  datatype RoleRequest = RoleRequest(name: string, description: string)

  /** A role as the API returns it, with its linked permissions. */
  datatype RoleView = RoleView(id: nat, name: string, description: string, isSystem: bool, permissions: seq<PermissionRow>)

  datatype Body = ErrorBody(error: string) | RoleBody(role: RoleView) | MessageBody(message: string)

  datatype Response = Response(status: int, body: Body)

  const MinNameLength: nat := 2
  const MaxNameLength: nat := 100
  const MaxDescriptionLength: nat := 255

  const InvalidRoleId: Response := Response(400, ErrorBody("invalid role ID"))
  const InvalidBody: Response := Response(400, ErrorBody("invalid request body"))
  const RoleNotFound: Response := Response(404, ErrorBody("role not found"))

  /**
   * The binding rules `required,min=2,max=100` on the name and `max=255` on the
   * description; lengths count code points.
   */
  predicate ValidRoleRequest(req: RoleRequest)
  {
    MinNameLength <= |req.name| <= MaxNameLength && |req.description| <= MaxDescriptionLength
  }

  /** The `:id` path parameter: base-10, unsigned, below 2^32. */
  function ParseRoleId(param: string): (r: Option<nat>)
    ensures r.Some? <==> |param| > 0 && Decimal.AllDigits(param) && Decimal.ValueOf(param) < Decimal.Pow2(32)
    ensures r.Some? ==> r.value == Decimal.ValueOf(param)
  {
    Decimal.ParseUint(param, 32)
  }

  /** Every role id below 2^32, written in decimal, is accepted as itself. */
  lemma ParseRoleIdFormat(id: nat)
    requires id < Decimal.Pow2(32)
    ensures ParseRoleId(Decimal.Format(id)) == Some(id)
  {
    Decimal.ParseFormat(id, 32);
  }

  /** The permissions linked to a role, in table order (the preload has no `ORDER BY`). */
  function LinkedAmong(rows: seq<PermissionRow>, rolePerms: set<(nat, nat)>, rid: nat): (r: seq<PermissionRow>)
    ensures forall p :: p in r <==> p in rows && (rid, p.id) in rolePerms
  {
    if |rows| == 0 then []
    else
      var rest := LinkedAmong(rows[1..], rolePerms, rid);
      assert forall p :: p in rows <==> p == rows[0] || p in rows[1..] by {
        assert rows == [rows[0]] + rows[1..];
      }
      if (rid, rows[0].id) in rolePerms then [rows[0]] + rest else rest
  }

  /** With no link for the role the list is empty. */
  lemma {:induction false} LinkedAmongNone(rows: seq<PermissionRow>, rolePerms: set<(nat, nat)>, rid: nat)
    requires forall rp | rp in rolePerms :: rp.0 != rid
    ensures LinkedAmong(rows, rolePerms, rid) == []
    decreases |rows|
  {
    if |rows| > 0 {
      LinkedAmongNone(rows[1..], rolePerms, rid);
    }
  }

  /** The response form of a role, with `Preload("Permissions")`. */
  function View(db: Db, role: RoleRow): (v: RoleView)
    ensures v.id == role.id && v.name == role.name && v.description == role.description && v.isSystem == role.isSystem
    ensures forall p :: p in v.permissions <==> p in db.permissions && (role.id, p.id) in db.rolePerms
  {
    RoleView(role.id, role.name, role.description, role.isSystem, LinkedAmong(db.permissions, db.rolePerms, role.id))
  }

  /** The position of the row `First(&role, id)` reads. */
  function RoleIndex(db: Db, id: nat): (r: Option<nat>)
    ensures r.Some? ==> r.value < |db.roles| && db.roles[r.value].id == id
    ensures r.Some? ==> RoleWithId(db, id) == Some(db.roles[r.value])
    ensures r.None? <==> RoleWithId(db, id).None?
  {
    FirstWhere(db.roles, (x: RoleRow) => x.id == id)
  }

  /** A system role keeps its name; any other role, or a system role given its own name, may be saved. */
  predicate RenameAllowed(role: RoleRow, name: string)
  {
    !role.isSystem || role.name == name
  }

  /** Whether a role other than `id` is named `name` (`WHERE name = ? AND id != ?`). */
  predicate NameTakenByOther(db: Db, name: string, id: nat)
  {
    exists j | 0 <= j < |db.roles| :: db.roles[j].name == name && db.roles[j].id != id
  }

  /** `GetRole`: 400 for a bad id, 404 for no such role, otherwise the role with its permissions. */
  function GetRole(db: Db, param: string): (r: Response)
    ensures ParseRoleId(param).None? ==> r == InvalidRoleId
    ensures ParseRoleId(param).Some? && RoleWithId(db, ParseRoleId(param).value).None? ==> r == RoleNotFound
    ensures r.status == 200 <==> ParseRoleId(param).Some? && RoleWithId(db, ParseRoleId(param).value).Some?
    ensures r.status == 200 ==> r.body == RoleBody(View(db, RoleWithId(db, ParseRoleId(param).value).value))
  {
    match ParseRoleId(param)
    case None => InvalidRoleId
    case Some(id) =>
      match RoleWithId(db, id)
      case None => RoleNotFound
      case Some(role) => Response(200, RoleBody(View(db, role)))
  }

  /**
   * `CreateRole`: 400 for an invalid body, 409 when a role of that name exists, otherwise a
   * new non-system role with the next id and no permissions, 201.
   */
  function CreateRole(db: Db, body: Option<RoleRequest>): (r: (Db, Response))
    ensures body.None? || !ValidRoleRequest(body.value) ==> r == (db, InvalidBody)
    ensures body.Some? && ValidRoleRequest(body.value) && HasRoleNamed(db, body.value.name) ==>
      r == (db, Response(409, ErrorBody("role already exists")))
    ensures r.1.status == 201 <==> body.Some? && ValidRoleRequest(body.value) && !HasRoleNamed(db, body.value.name)
    ensures r.1.status == 201 ==>
      && r.0 == db.(roles := db.roles + [RoleRow(db.nextRoleId, body.value.name, body.value.description, false)],
                    nextRoleId := db.nextRoleId + 1)
      && r.1.body == RoleBody(RoleView(db.nextRoleId, body.value.name, body.value.description, false, []))
  {
    if body.None? || !ValidRoleRequest(body.value) then (db, InvalidBody)
    else
      var req := body.value;
      if RoleNamed(db, req.name).Some? then (db, Response(409, ErrorBody("role already exists")))
      else
        var role := RoleRow(db.nextRoleId, req.name, req.description, false);
        (db.(roles := db.roles + [role], nextRoleId := db.nextRoleId + 1),
         Response(201, RoleBody(RoleView(role.id, role.name, role.description, role.isSystem, []))))
  }

  /**
   * `UpdateRole`: 400 for a bad id or body, 404 for no such role, 403 when a system role
   * would change its name, 409 when another role holds the name; otherwise that row's
   * name and description are replaced and the reloaded role is returned.
   */
  function UpdateRole(db: Db, param: string, body: Option<RoleRequest>): (r: (Db, Response))
    ensures r.1.status != 200 ==> r.0 == db
    ensures ParseRoleId(param).None? ==> r.1 == InvalidRoleId
    ensures ParseRoleId(param).Some? && (body.None? || !ValidRoleRequest(body.value)) ==> r.1 == InvalidBody
    ensures ParseRoleId(param).Some? && body.Some? && ValidRoleRequest(body.value)
            && RoleWithId(db, ParseRoleId(param).value).None? ==>
      r.1 == RoleNotFound
    ensures ParseRoleId(param).Some? && body.Some? && ValidRoleRequest(body.value)
            && RoleWithId(db, ParseRoleId(param).value).Some?
            && !RenameAllowed(RoleWithId(db, ParseRoleId(param).value).value, body.value.name) ==>
      r.1 == Response(403, ErrorBody("cannot rename system roles"))
    ensures ParseRoleId(param).Some? && body.Some? && ValidRoleRequest(body.value)
            && RoleWithId(db, ParseRoleId(param).value).Some?
            && RenameAllowed(RoleWithId(db, ParseRoleId(param).value).value, body.value.name)
            && NameTakenByOther(db, body.value.name, ParseRoleId(param).value) ==>
      r.1 == Response(409, ErrorBody("role name already exists"))
    ensures r.1.status == 200 <==>
      && ParseRoleId(param).Some? && body.Some? && ValidRoleRequest(body.value)
      && RoleWithId(db, ParseRoleId(param).value).Some?
      && RenameAllowed(RoleWithId(db, ParseRoleId(param).value).value, body.value.name)
      && !NameTakenByOther(db, body.value.name, ParseRoleId(param).value)
    ensures r.1.status == 200 ==>
      && ParseRoleId(param).Some? && body.Some? && ValidRoleRequest(body.value)
      && RoleIndex(db, ParseRoleId(param).value).Some?
      && var i := RoleIndex(db, ParseRoleId(param).value).value;
         var role := db.roles[i].(name := body.value.name, description := body.value.description);
         && (db.roles[i].isSystem ==> db.roles[i].name == body.value.name)
         && !NameTakenByOther(db, body.value.name, ParseRoleId(param).value)
         && r.0 == db.(roles := db.roles[i := role])
         && r.1.body == RoleBody(View(r.0, role))
  {
    match ParseRoleId(param)
    case None => (db, InvalidRoleId)
    case Some(id) =>
      if body.None? || !ValidRoleRequest(body.value) then (db, InvalidBody)
      else
        var req := body.value;
        match RoleIndex(db, id)
        case None => (db, RoleNotFound)
        case Some(i) =>
          var role := db.roles[i];
          if !RenameAllowed(role, req.name) then (db, Response(403, ErrorBody("cannot rename system roles")))
          else if NameTakenByOther(db, req.name, id) then (db, Response(409, ErrorBody("role name already exists")))
          else
            var updated := role.(name := req.name, description := req.description);
            var db' := db.(roles := db.roles[i := updated]);
            (db', Response(200, RoleBody(View(db', updated))))
  }

  /** The rows of `roles` whose id is not `id`. */
  function RolesExcept(roles: seq<RoleRow>, id: nat): (r: seq<RoleRow>)
    ensures forall x :: x in r <==> x in roles && x.id != id
    ensures |r| <= |roles|
  {
    if |roles| == 0 then []
    else
      var rest := RolesExcept(roles[1..], id);
      assert forall x :: x in roles <==> x == roles[0] || x in roles[1..] by {
        assert roles == [roles[0]] + roles[1..];
      }
      if roles[0].id == id then rest else [roles[0]] + rest
  }

  /**
   * `DeleteRole`: 400 for a bad id, 404 for no such role, 403 for a system role; otherwise
   * the role row, its permission links and every user assignment to it are deleted.
   */
  function DeleteRole(db: Db, param: string): (r: (Db, Response))
    ensures r.1.status != 200 ==> r.0 == db
    ensures ParseRoleId(param).None? ==> r.1 == InvalidRoleId
    ensures ParseRoleId(param).Some? && RoleWithId(db, ParseRoleId(param).value).None? ==> r.1 == RoleNotFound
    ensures ParseRoleId(param).Some? && RoleWithId(db, ParseRoleId(param).value).Some?
            && RoleWithId(db, ParseRoleId(param).value).value.isSystem ==>
      r.1 == Response(403, ErrorBody("cannot delete system roles"))
    ensures r.1.status == 200 <==>
      && ParseRoleId(param).Some? && RoleWithId(db, ParseRoleId(param).value).Some?
      && !RoleWithId(db, ParseRoleId(param).value).value.isSystem
    ensures r.1.status == 200 ==>
      var id := ParseRoleId(param).value;
      && r.1 == Response(200, MessageBody("role deleted"))
      && (forall x :: x in r.0.roles <==> x in db.roles && x.id != id)
      && (forall rp :: rp in r.0.rolePerms <==> rp in db.rolePerms && rp.0 != id)
      && (forall ur :: ur in r.0.userRoles <==> ur in db.userRoles && ur.1 != id)
      && r.0.permissions == db.permissions && r.0.users == db.users
  {
    match ParseRoleId(param)
    case None => (db, InvalidRoleId)
    case Some(id) =>
      match RoleWithId(db, id)
      case None => (db, RoleNotFound)
      case Some(role) =>
        if role.isSystem then (db, Response(403, ErrorBody("cannot delete system roles")))
        else
          var db' := db.(roles := RolesExcept(db.roles, id),
                         rolePerms := (set rp | rp in db.rolePerms && rp.0 != id),
                         userRoles := (set ur | ur in db.userRoles && ur.1 != id));
          (db', Response(200, MessageBody("role deleted")))
  }

  /** The ids among `requested` that name a permission row (`WHERE id IN ?`). */
  function RequestedIds(db: Db, requested: seq<nat>): set<nat>
  {
    set p | p in db.permissions && p.id in requested :: p.id
  }

  /**
   * `SetRolePermissions`: 400 for a bad id or a body without `permission_ids`, 404 for no
   * such role; otherwise the role's links are replaced by the permissions whose ids were
   * requested. An empty list skips the lookup and clears the links.
   */
  function SetRolePermissions(db: Db, param: string, body: Option<seq<nat>>): (r: (Db, Response))
    ensures r.1.status != 200 ==> r.0 == db
    ensures ParseRoleId(param).None? ==> r.1 == InvalidRoleId
    ensures ParseRoleId(param).Some? && body.None? ==> r.1 == InvalidBody
    ensures ParseRoleId(param).Some? && body.Some? && RoleWithId(db, ParseRoleId(param).value).None? ==>
      r.1 == RoleNotFound
    ensures r.1.status == 200 <==>
      ParseRoleId(param).Some? && body.Some? && RoleWithId(db, ParseRoleId(param).value).Some?
    ensures r.1.status == 200 ==>
      var id := ParseRoleId(param).value;
      && r.0 == db.(rolePerms := r.0.rolePerms)
      && (forall rid, pid :: (rid, pid) in r.0.rolePerms <==>
            if rid == id then pid in RequestedIds(db, body.value) else (rid, pid) in db.rolePerms)
      && r.1.body == RoleBody(View(r.0, RoleWithId(db, id).value))
  {
    match ParseRoleId(param)
    case None => (db, InvalidRoleId)
    case Some(id) =>
      match body
      case None => (db, InvalidBody)
      case Some(requested) =>
        match RoleWithId(db, id)
        case None => (db, RoleNotFound)
        case Some(role) =>
          var permIds := if |requested| > 0 then RequestedIds(db, requested) else {};
          var db' := db.(rolePerms := (set rp | rp in db.rolePerms && rp.0 != id) + (set p | p in permIds :: (id, p)));
          (db', Response(200, RoleBody(View(db', role))))
  }

  /** Every system role of `db` is in `db'` under the same id and name, still a system role. */
  predicate SystemRolesKept(db: Db, db': Db)
  {
    forall x | x in db.roles && x.isSystem ::
      exists y | y in db'.roles :: y.id == x.id && y.name == x.name && y.isSystem
  }

  /** Creating a role keeps every system role. */
  lemma CreateKeepsSystemRoles(db: Db, body: Option<RoleRequest>)
    ensures SystemRolesKept(db, CreateRole(db, body).0)
  {
    var c := CreateRole(db, body).0;
    forall x | x in db.roles && x.isSystem
      ensures exists y | y in c.roles :: y.id == x.id && y.name == x.name && y.isSystem
    {
      assert x in c.roles;
    }
  }

  /** Updating a role never renames a system role, nor clears its flag. */
  lemma UpdateKeepsSystemRoles(db: Db, param: string, body: Option<RoleRequest>)
    ensures SystemRolesKept(db, UpdateRole(db, param, body).0)
  {
    var u := UpdateRole(db, param, body).0;
    forall x | x in db.roles && x.isSystem
      ensures exists y | y in u.roles :: y.id == x.id && y.name == x.name && y.isSystem
    {
      var j :| 0 <= j < |db.roles| && db.roles[j] == x;
      assert u.roles[j] in u.roles;
    }
  }

  /** With distinct role ids, deleting a role never deletes a system role. */
  lemma DeleteKeepsSystemRoles(db: Db, param: string)
    requires RoleIdsOk(db)
    ensures SystemRolesKept(db, DeleteRole(db, param).0)
  {
    var d := DeleteRole(db, param);
    if d.1.status == 200 {
      var id := ParseRoleId(param).value;
      forall x | x in db.roles && x.isSystem
        ensures exists y | y in d.0.roles :: y.id == x.id && y.name == x.name && y.isSystem
      {
        var j :| 0 <= j < |db.roles| && db.roles[j] == x;
        var i := RoleIndex(db, id).value;
        assert i != j;
        assert x.id != id;
        assert x in d.0.roles;
      }
    }
  }

  /** Replacing a role's permissions keeps every role row. */
  lemma SetPermissionsKeepsSystemRoles(db: Db, param: string, ids: Option<seq<nat>>)
    ensures SystemRolesKept(db, SetRolePermissions(db, param, ids).0)
  {
    var s := SetRolePermissions(db, param, ids).0;
    forall x | x in db.roles && x.isSystem
      ensures exists y | y in s.roles :: y.id == x.id && y.name == x.name && y.isSystem
    {
      assert x in s.roles;
    }
  }

  /** An id of 2^32 or more, written in decimal, is a bad request. */
  lemma ParseRoleIdRejectsWide(n: nat)
    requires n >= Decimal.Pow2(32)
    ensures ParseRoleId(Decimal.Format(n)).None?
  {
  }

  /** Role names are unique, as the unique index on `roles.name` demands. */
  predicate RoleNamesUnique(db: Db)
  {
    forall i, j | 0 <= i < j < |db.roles| :: db.roles[i].name != db.roles[j].name
  }

  /** Creating a role keeps the database well formed and the role names unique. */
  lemma CreateRoleKeepsWf(db: Db, body: Option<RoleRequest>)
    requires Wf(db) && RoleNamesUnique(db)
    ensures Wf(CreateRole(db, body).0) && RoleNamesUnique(CreateRole(db, body).0)
  {
    var r := CreateRole(db, body).0;
    assert RoleIdsOk(r);
  }

  /** Updating a role keeps the database well formed and the role names unique. */
  lemma UpdateRoleKeepsWf(db: Db, param: string, body: Option<RoleRequest>)
    requires Wf(db) && RoleNamesUnique(db)
    ensures Wf(UpdateRole(db, param, body).0) && RoleNamesUnique(UpdateRole(db, param, body).0)
  {
    var r := UpdateRole(db, param, body);
    if r.1.status == 200 {
      var id := ParseRoleId(param).value;
      var i := RoleIndex(db, id).value;
      assert RoleIdsOk(r.0);
      forall j, k | 0 <= j < k < |r.0.roles|
        ensures r.0.roles[j].name != r.0.roles[k].name
      {
        if j == i || k == i {
          var o := if j == i then k else j;
          assert r.0.roles[o] == db.roles[o];
          assert db.roles[o].id != id;
        }
      }
    }
  }

  /** Deleting a role keeps the database well formed and the role names unique. */
  lemma DeleteRoleKeepsWf(db: Db, param: string)
    requires Wf(db) && RoleNamesUnique(db)
    ensures Wf(DeleteRole(db, param).0) && RoleNamesUnique(DeleteRole(db, param).0)
  {
    var r := DeleteRole(db, param);
    if r.1.status == 200 {
      var id := ParseRoleId(param).value;
      var after := RolesExcept(db.roles, id);
      RolesExceptPairwise(db.roles, id, (x: RoleRow, y: RoleRow) => x.id < y.id);
      RolesExceptPairwise(db.roles, id, (x: RoleRow, y: RoleRow) => x.name != y.name);
      assert forall k | 0 <= k < |after| :: after[k] in db.roles;
      assert RoleIdsOk(r.0);
    }
  }

  /** Rows of `roles` related pairwise by `rel` in table order. */
  predicate Pairwise(roles: seq<RoleRow>, rel: (RoleRow, RoleRow) -> bool)
  {
    forall i, j | 0 <= i < j < |roles| :: rel(roles[i], roles[j])
  }

  /** Removing rows keeps every pairwise relation the table had. */
  lemma {:induction false} RolesExceptPairwise(roles: seq<RoleRow>, id: nat, rel: (RoleRow, RoleRow) -> bool)
    requires Pairwise(roles, rel)
    ensures Pairwise(RolesExcept(roles, id), rel)
    decreases |roles|
  {
    if |roles| > 0 {
      var rest := RolesExcept(roles[1..], id);
      assert Pairwise(roles[1..], rel) by {
        forall i, j | 0 <= i < j < |roles[1..]|
          ensures rel(roles[1..][i], roles[1..][j])
        {
          assert roles[1..][i] == roles[i + 1] && roles[1..][j] == roles[j + 1];
        }
      }
      RolesExceptPairwise(roles[1..], id, rel);
      if roles[0].id != id {
        var r := [roles[0]] + rest;
        forall k | 0 <= k < |rest|
          ensures rel(roles[0], rest[k])
        {
          assert rest[k] in roles[1..];
          var m :| 0 <= m < |roles[1..]| && roles[1..][m] == rest[k];
          assert roles[m + 1] == rest[k];
        }
        forall i, j | 0 <= i < j < |r|
          ensures rel(r[i], r[j])
        {
          if i > 0 {
            assert r[i] == rest[i - 1] && r[j] == rest[j - 1];
          } else {
            assert r[j] == rest[j - 1];
          }
        }
      }
    }
  }

  /** Replacing a role's permissions keeps the database well formed. */
  lemma SetPermissionsKeepsWf(db: Db, param: string, ids: Option<seq<nat>>)
    requires Wf(db)
    ensures Wf(SetRolePermissions(db, param, ids).0)
  {
    var r := SetRolePermissions(db, param, ids);
    if r.1.status == 200 {
      var id := ParseRoleId(param).value;
      var i := RoleIndex(db, id).value;
      assert db.roles[i].id < db.nextRoleId;
      assert LinksBelow(r.0);
    }
  }

  /** Creating a role already present conflicts and changes nothing: creation is not repeated. */
  lemma CreateTwiceConflicts(db: Db, body: Option<RoleRequest>)
    requires CreateRole(db, body).1.status == 201
    ensures var d1 := CreateRole(db, body).0;
      CreateRole(d1, body) == (d1, Response(409, ErrorBody("role already exists")))
  {
    var d1 := CreateRole(db, body).0;
    assert d1.roles[|db.roles|].name == body.value.name;
  }

  /** The created role reads back as a non-system role with the requested name and no permissions. */
  lemma CreateThenGet(db: Db, body: Option<RoleRequest>)
    requires Wf(db) && db.nextRoleId < Decimal.Pow2(32)
    requires CreateRole(db, body).1.status == 201
    ensures GetRole(CreateRole(db, body).0, Decimal.Format(db.nextRoleId)) ==
      Response(200, RoleBody(RoleView(db.nextRoleId, body.value.name, body.value.description, false, [])))
  {
    var d1 := CreateRole(db, body).0;
    ParseRoleIdFormat(db.nextRoleId);
    assert d1.roles[|db.roles|].id == db.nextRoleId;
    var i := RoleIndex(d1, db.nextRoleId).value;
    assert forall j | 0 <= j < |db.roles| :: d1.roles[j] == db.roles[j];
    assert i == |db.roles|;
    LinkedAmongNone(d1.permissions, d1.rolePerms, db.nextRoleId);
  }

  /** A system role may keep its name and change its description. */
  lemma SystemRoleDescriptionEditable(db: Db, param: string, description: string)
    requires RoleNamesUnique(db)
    requires ParseRoleId(param).Some? && RoleIndex(db, ParseRoleId(param).value).Some?
    requires |description| <= MaxDescriptionLength
    requires var name := db.roles[RoleIndex(db, ParseRoleId(param).value).value].name;
      MinNameLength <= |name| <= MaxNameLength
    ensures var i := RoleIndex(db, ParseRoleId(param).value).value;
      var r := UpdateRole(db, param, Some(RoleRequest(db.roles[i].name, description)));
      && r.1.status == 200
      && r.0.roles[i] == db.roles[i].(description := description)
  {
    var id := ParseRoleId(param).value;
    var i := RoleIndex(db, id).value;
    var name := db.roles[i].name;
    forall j | 0 <= j < |db.roles| && db.roles[j].name == name
      ensures db.roles[j].id == id
    {
      assert j == i;
    }
  }

  /** After a role is deleted it is no longer found. */
  lemma DeleteThenGet(db: Db, param: string)
    requires DeleteRole(db, param).1.status == 200
    ensures GetRole(DeleteRole(db, param).0, param) == RoleNotFound
  {
    var d1 := DeleteRole(db, param).0;
    var id := ParseRoleId(param).value;
    assert forall j | 0 <= j < |d1.roles| :: d1.roles[j] in d1.roles;
  }

  /**
   * After `SetRolePermissions`, reading the role back lists exactly the catalogue
   * permissions whose ids were requested: unknown ids are ignored, an empty list clears.
   */
  lemma SetThenGet(db: Db, param: string, requested: seq<nat>)
    requires SetRolePermissions(db, param, Some(requested)).1.status == 200
    ensures var r := GetRole(SetRolePermissions(db, param, Some(requested)).0, param);
      && r.status == 200
      && forall p :: p in r.body.role.permissions <==> p in db.permissions && p.id in requested
  {
    var d1 := SetRolePermissions(db, param, Some(requested)).0;
    var id := ParseRoleId(param).value;
    forall p | p in db.permissions && p.id in requested
      ensures p.id in RequestedIds(db, requested)
    {
    }
  }

  /** Setting the same permissions twice is setting them once. */
  lemma SetPermissionsIdempotent(db: Db, param: string, requested: seq<nat>)
    requires SetRolePermissions(db, param, Some(requested)).1.status == 200
    ensures var d1 := SetRolePermissions(db, param, Some(requested)).0;
      SetRolePermissions(d1, param, Some(requested)).0 == d1
  {
    var d1 := SetRolePermissions(db, param, Some(requested)).0;
    var d2 := SetRolePermissions(d1, param, Some(requested)).0;
    assert RequestedIds(d1, requested) == RequestedIds(db, requested);
    assert d2.rolePerms == d1.rolePerms;
  }
}

=== FILE: auth_handler.dfy ===
/**
 * The session endpoints: refresh-token rotation, logout, logout of every session, and the
 * session listing, over the refresh store. The request carries the three places a
 * refresh token may arrive in; the response carries the status, the JSON body and the
 * `refresh_token` cookie operation.
 */
module AuthHandler {
  import opened Wrappers
  import opened RefreshStore
  import TokenCodec
  import Base64Url
  import AccessGate

  /** The handler's settings. */
  datatype HandlerConfig = HandlerConfig(issuer: string, accessTokenExpiryMins: int, refreshTokenExpiryDays: int)

  /**
   * The parts of a request the handlers read: the `refresh_token` cookie (`None` when the
   * request has none), the `refresh_token` field of the JSON body (`None` when the body does
   * not bind; an absent field is ""), the `X-Refresh-Token` header ("" when absent), and the
   * client's user agent and address.
   */
  datatype Request = Request(cookie: Option<string>, body: Option<string>, refreshHeader: string,
                             userAgent: string, clientIp: string)

  /** What the response does to the `refresh_token` cookie (path `/api/v1/auth`, HttpOnly, SameSite strict). */
  datatype CookieOp = LeaveCookie | SetCookie(value: string, maxAge: int)

  /** Clearing the cookie: an empty value with a negative max-age. */
  const ClearCookie: CookieOp := SetCookie("", -1)

  /** A session as listed: when and from where it was opened, never its token. */
  datatype SessionView = SessionView(createdAt: int, userAgent: string, ip: string)

  /** The JSON body. A `null` session list (no session) is `None`. */
  datatype Body =
    | ErrorBody(error: string)
    | MessageBody(message: string)
    | PairBody(pair: TokenCodec.TokenPair)
    | SessionsBody(sessions: Option<seq<SessionView>>)

  datatype Response = Response(status: int, body: Body, cookie: CookieOp)

  /**
   * Failures of individual Redis commands during a refresh: the `GET` of the presented
   * token, those of revoking the old token and those of storing the new one.
   */
  datatype Faults = Faults(getFails: bool, revoke: RevokeFaults, store: StoreFaults)

  /** A refresh in which every Redis command succeeds. */
  const NoFaults: Faults := Faults(false, RevokeOk, StoreOk)

  /** `getRefreshToken`: the cookie, else the body field, else the header, the first that is non-empty. */
  function PresentedToken(req: Request): (r: string)
  {
    if req.cookie.Some? && req.cookie.value != "" then req.cookie.value
    else if req.body.Some? && req.body.value != "" then req.body.value
    else req.refreshHeader
  }

  /** The three sources in priority order, an absent one read as "". */
  function Sources(req: Request): seq<string>
  {
    [if req.cookie.Some? then req.cookie.value else "",
     if req.body.Some? then req.body.value else "",
     req.refreshHeader]
  }

  /** The first non-empty string of a list, or "". */
  function FirstNonEmpty(candidates: seq<string>): (r: string)
    ensures r == "" <==> forall k | 0 <= k < |candidates| :: candidates[k] == ""
    ensures r != "" ==> exists k | 0 <= k < |candidates| :: candidates[k] == r && forall j | 0 <= j < k :: candidates[j] == ""
  {
    if |candidates| == 0 then ""
    else if candidates[0] != "" then candidates[0]
    else
      var r := FirstNonEmpty(candidates[1..]);
      assert forall k | 1 <= k < |candidates| :: candidates[k] == candidates[1..][k - 1];
      r
  }

  /** The token found is the first non-empty of cookie, body and header, and "" only when all three are. */
  lemma PresentedTokenPriority(req: Request)
    ensures PresentedToken(req) == FirstNonEmpty(Sources(req))
  {
    var s := Sources(req);
    assert s[1..] == [s[1], s[2]] && s[1..][1..] == [s[2]];
  }

  /** The lifetime of a refresh session and of its cookie, in seconds. */
  function RefreshLifetime(cfg: HandlerConfig): int
  {
    cfg.refreshTokenExpiryDays * TokenCodec.SecondsPerDay
  }

  /** The record of the rotated session: the old identity and permission snapshot, the new client details. */
  function Rotated(prior: Session, req: Request, now: int): (s: Session)
    ensures s.userID == prior.userID && s.username == prior.username
    ensures s.role == prior.role && s.permissions == prior.permissions
    ensures s.createdAt == now && s.userAgent == req.userAgent && s.ip == req.clientIp
  {
    Session(prior.userID, prior.username, prior.role, prior.permissions, now, req.userAgent, req.clientIp)
  }

  /**
   * `Refresh`: no token is 401; a token that does not resolve, or whose `GET` fails, is
   * 401 with the cookie cleared; otherwise the old token is revoked (a failure is only logged), a new pair is
   * issued for the same identity (failure: 500), the new token is stored for the refresh
   * lifetime (failure: 500, with whatever part of the write took effect), and the
   * response sets the cookie and returns the pair.
   */
  function Refresh(st: Store, keys: TokenCodec.KeyState, cfg: HandlerConfig, req: Request,
                   entropy: Option<seq<Base64Url.byte>>, now: int, faults: Faults): (r: (Store, Response))
    requires entropy.Some? ==> |entropy.value| == TokenCodec.RefreshTokenBytes
    ensures PresentedToken(req) == "" ==> r == (st, Response(401, ErrorBody("refresh token required"), LeaveCookie))
    ensures PresentedToken(req) != "" && GetRefreshTokenData(st, PresentedToken(req), faults.getFails).Failure? ==>
      r == (st, Response(401, ErrorBody("invalid or expired refresh token"), ClearCookie))
    ensures PresentedToken(req) != "" && st.connected && faults.getFails ==>
      r == (st, Response(401, ErrorBody("invalid or expired refresh token"), ClearCookie))
    ensures r.1.status == 200 <==>
      && PresentedToken(req) != "" && GetRefreshTokenData(st, PresentedToken(req), faults.getFails).Success?
      && keys.priv.Some? && entropy.Some? && !faults.store.setFails && !faults.store.saddFails
    ensures r.1.status != 200 ==> r.1.cookie.LeaveCookie? || r.1.cookie == ClearCookie
    ensures r.0.connected == st.connected
    ensures r.1.status == 200 ==>
      var prior := GetRefreshTokenData(st, PresentedToken(req), faults.getFails).value;
      var issued := TokenCodec.GenerateRefreshToken(entropy).value;
      && r.1.body.PairBody?
      && r.1.body.pair.refreshToken == issued
      && r.1.cookie == SetCookie(issued, RefreshLifetime(cfg))
      && r.0.entries == (if faults.revoke.delFails then st.entries else st.entries - {PresentedToken(req)})
                          [issued := Entry(Rotated(prior, req, now), SetTtl(RefreshLifetime(cfg)))]
      && r.1.body.pair.accessToken.Signed?
      && r.1.body.pair.accessToken.claims.userID == prior.userID
      && r.1.body.pair.accessToken.claims.username == prior.username
      && r.1.body.pair.accessToken.claims.role == prior.role
      && r.1.body.pair.accessToken.claims.permissions == prior.permissions
  {
    var token := PresentedToken(req);
    if token == "" then (st, Response(401, ErrorBody("refresh token required"), LeaveCookie))
    else
      match GetRefreshTokenData(st, token, faults.getFails)
      case Failure(_) => (st, Response(401, ErrorBody("invalid or expired refresh token"), ClearCookie))
      case Success(data) =>
        var st1 := RevokeRefreshToken(st, token, faults.revoke).after;
        match TokenCodec.GenerateTokenPair(keys, entropy, data.userID, data.username, data.role, data.permissions,
                                           cfg.issuer, cfg.accessTokenExpiryMins, cfg.refreshTokenExpiryDays, now)
        case Failure(_) => (st1, Response(500, ErrorBody("failed to refresh tokens"), LeaveCookie))
        case Success(pair) =>
          var stored := StoreRefreshToken(st1, pair.refreshToken, Rotated(data, req, now), RefreshLifetime(cfg), faults.store);
          if stored.error.Some? then (stored.after, Response(500, ErrorBody("failed to create session"), LeaveCookie))
          else (stored.after, Response(200, PairBody(pair), SetCookie(pair.refreshToken, RefreshLifetime(cfg))))
  }

  /**
   * `Logout`: revoke the presented token if there is one, ignoring any failure; always
   * 200 with the cookie cleared.
   */
  function Logout(st: Store, req: Request, faults: RevokeFaults): (r: (Store, Response))
    ensures r.1 == Response(200, MessageBody("logged out successfully"), ClearCookie)
    ensures PresentedToken(req) == "" || !st.connected ==> r.0 == st
    ensures PresentedToken(req) != "" && st.connected ==>
      r.0.entries == (if faults.delFails then st.entries else st.entries - {PresentedToken(req)})
    ensures PresentedToken(req) != "" ==> r.0 == RevokeRefreshToken(st, PresentedToken(req), faults).after
  {
    var token := PresentedToken(req);
    if token == "" then (st, Response(200, MessageBody("logged out successfully"), ClearCookie))
    else (RevokeRefreshToken(st, token, faults).after, Response(200, MessageBody("logged out successfully"), ClearCookie))
  }

  /**
   * `LogoutAll`: 401 without authenticated claims; revoke every session of the caller
   * (failure: 500, with whatever part of the revoke took effect); then 200 with the
   * cookie cleared.
   */
  function LogoutAll(st: Store, slot: AccessGate.Slot, faults: RevokeAllFaults): (r: (Store, Response))
    ensures !slot.HoldsClaims? ==> r == (st, Response(401, ErrorBody("not authenticated"), LeaveCookie))
    ensures slot.HoldsClaims? ==> r.0 == RevokeAllUserTokens(st, slot.claims.userID, faults).after
    ensures slot.HoldsClaims? && !st.connected ==>
      r == (st, Response(500, ErrorBody("failed to logout all sessions"), LeaveCookie))
    ensures r.1.status == 200 <==> slot.HoldsClaims? && st.connected && !faults.smembersFails && !faults.indexDelFails
    ensures r.1.status == 200 ==> r.1 == Response(200, MessageBody("all sessions logged out"), ClearCookie)
    ensures r.1.status != 200 ==> r.1.cookie.LeaveCookie?
  {
    match AccessGate.GetClaims(slot)
    case None => (st, Response(401, ErrorBody("not authenticated"), LeaveCookie))
    case Some(claims) =>
      var outcome := RevokeAllUserTokens(st, claims.userID, faults);
      if outcome.error.Some? then (outcome.after, Response(500, ErrorBody("failed to logout all sessions"), LeaveCookie))
      else (outcome.after, Response(200, MessageBody("all sessions logged out"), ClearCookie))
  }

  /** A session as listed: the record's time and client details. */
  function View(s: Session): (v: SessionView)
    ensures v.createdAt == s.createdAt && v.userAgent == s.userAgent && v.ip == s.ip
  {
    SessionView(s.createdAt, s.userAgent, s.ip)
  }

  /** The listing built by appending one view per record; no record leaves it `null`. */
  function Views(sessions: seq<Session>): (r: Option<seq<SessionView>>)
    ensures r.None? <==> |sessions| == 0
    ensures r.Some? ==> |r.value| == |sessions| && forall i | 0 <= i < |sessions| :: r.value[i] == View(sessions[i])
  {
    if |sessions| == 0 then None else Some(seq(|sessions|, i requires 0 <= i < |sessions| => View(sessions[i])))
  }

  /**
   * `ListSessions`: 401 without authenticated claims; 500 when the store is unavailable;
   * otherwise 200 with one view per session of the caller that resolves (the index pruned
   * of the others on the way: the dead tokens and the live ones whose `GET` failed, which
   * are `getFails`), `null` when there is none. `order` is the token behind each view.
   */
  method ListSessions(st: Store, slot: AccessGate.Slot, getFails: set<string>)
    returns (st': Store, resp: Response, ghost order: seq<string>)
    ensures !slot.HoldsClaims? ==> st' == st && resp == Response(401, ErrorBody("not authenticated"), LeaveCookie)
    ensures slot.HoldsClaims? && !st.connected ==>
      st' == st && resp == Response(500, ErrorBody("failed to list sessions"), LeaveCookie)
    ensures resp.status == 200 <==> slot.HoldsClaims? && st.connected
    ensures resp.status == 200 ==>
      && st' == Pruned(st, slot.claims.userID, getFails)
      && resp.cookie.LeaveCookie? && resp.body.SessionsBody?
      && NoDups(order) && Elems(order) == LiveMembers(st, slot.claims.userID) - getFails
      && (resp.body.sessions.None? <==> LiveMembers(st, slot.claims.userID) - getFails == {})
      && (resp.body.sessions.Some? ==>
            && |resp.body.sessions.value| == |order|
            && forall i | 0 <= i < |order| ::
                 order[i] in st.entries && resp.body.sessions.value[i] == View(st.entries[order[i]].session))
  {
    order := [];
    match AccessGate.GetClaims(slot)
    case None =>
      st', resp := st, Response(401, ErrorBody("not authenticated"), LeaveCookie);
    case Some(claims) =>
      var listed;
      st', listed, order := ListUserTokens(st, claims.userID, getFails);
      if listed.Failure? {
        resp := Response(500, ErrorBody("failed to list sessions"), LeaveCookie);
      } else {
        ElemsEmpty(order);
        resp := Response(200, SessionsBody(Views(listed.value)), LeaveCookie);
      }
  }

  /**
   * Rotation: after a successful refresh whose `DEL` of the old token went through, the
   * presented token no longer resolves and the new one resolves to the same identity and
   * permission snapshot, opened now from the requesting client.
   */
  lemma RefreshRotates(st: Store, keys: TokenCodec.KeyState, cfg: HandlerConfig, req: Request,
                       entropy: Option<seq<Base64Url.byte>>, now: int, faults: Faults)
    requires entropy.Some? ==> |entropy.value| == TokenCodec.RefreshTokenBytes
    requires Refresh(st, keys, cfg, req, entropy, now, faults).1.status == 200 && !faults.revoke.delFails
    requires TokenCodec.GenerateRefreshToken(entropy).value != PresentedToken(req)
    ensures var prior := st.entries[PresentedToken(req)].session;
      var after := Refresh(st, keys, cfg, req, entropy, now, faults).0;
      var issued := TokenCodec.GenerateRefreshToken(entropy).value;
      && GetRefreshTokenData(after, PresentedToken(req), false) == Failure(NotFoundOrExpired)
      && GetRefreshTokenData(after, issued, false) == Success(Rotated(prior, req, now))
  {
  }

  /**
   * A refresh token is single-use: presenting it again after a successful rotation is
   * refused as invalid, whatever else the second request carries.
   */
  lemma RefreshSingleUse(st: Store, keys: TokenCodec.KeyState, cfg: HandlerConfig, req: Request,
                         entropy: Option<seq<Base64Url.byte>>, now: int, faults: Faults,
                         keys2: TokenCodec.KeyState, req2: Request, entropy2: Option<seq<Base64Url.byte>>,
                         now2: int, faults2: Faults)
    requires entropy.Some? ==> |entropy.value| == TokenCodec.RefreshTokenBytes
    requires entropy2.Some? ==> |entropy2.value| == TokenCodec.RefreshTokenBytes
    requires Refresh(st, keys, cfg, req, entropy, now, faults).1.status == 200 && !faults.revoke.delFails
    requires TokenCodec.GenerateRefreshToken(entropy).value != PresentedToken(req)
    requires PresentedToken(req2) == PresentedToken(req)
    ensures var after := Refresh(st, keys, cfg, req, entropy, now, faults).0;
      Refresh(after, keys2, cfg, req2, entropy2, now2, faults2)
        == (after, Response(401, ErrorBody("invalid or expired refresh token"), ClearCookie))
  {
    RefreshRotates(st, keys, cfg, req, entropy, now, faults);
  }

  /** A failed revoke of the old token is only logged: the client gets the same answer. */
  lemma RevokeFailureHarmless(st: Store, keys: TokenCodec.KeyState, cfg: HandlerConfig, req: Request,
                              entropy: Option<seq<Base64Url.byte>>, now: int, getFails: bool, storeFaults: StoreFaults,
                              rf1: RevokeFaults, rf2: RevokeFaults)
    requires entropy.Some? ==> |entropy.value| == TokenCodec.RefreshTokenBytes
    ensures Refresh(st, keys, cfg, req, entropy, now, Faults(getFails, rf1, storeFaults)).1
         == Refresh(st, keys, cfg, req, entropy, now, Faults(getFails, rf2, storeFaults)).1
  {
  }

  /**
   * The cookie and the reported refresh lifetime last the configured number of days; the
   * stored session has that TTL when it is positive and no expiry otherwise.
   */
  lemma RefreshLifetimesAgree(st: Store, keys: TokenCodec.KeyState, cfg: HandlerConfig, req: Request,
                              entropy: Option<seq<Base64Url.byte>>, now: int, faults: Faults)
    requires entropy.Some? ==> |entropy.value| == TokenCodec.RefreshTokenBytes
    requires Refresh(st, keys, cfg, req, entropy, now, faults).1.status == 200
    ensures var (after, resp) := Refresh(st, keys, cfg, req, entropy, now, faults);
      && resp.cookie.maxAge == cfg.refreshTokenExpiryDays * 86400
      && resp.body.pair.refreshExpiresIn == resp.cookie.maxAge
      && (cfg.refreshTokenExpiryDays > 0 ==> after.entries[resp.cookie.value].ttl == resp.cookie.maxAge)
      && (cfg.refreshTokenExpiryDays <= 0 ==> after.entries[resp.cookie.value].ttl == NoExpiry)
  {
  }

  /**
   * A refresh keeps every live token listed in its owner's index, provided the revoke's
   * `DEL` does not fail after its `SREM`, and the store's `SADD` succeeds and its
   * `EXPIRE` does not delete the index (a positive lifetime, or the `EXPIRE` failed).
   */
  lemma RefreshKeepsIndexed(st: Store, keys: TokenCodec.KeyState, cfg: HandlerConfig, req: Request,
                            entropy: Option<seq<Base64Url.byte>>, now: int, faults: Faults)
    requires entropy.Some? ==> |entropy.value| == TokenCodec.RefreshTokenBytes
    requires Indexed(st)
    requires faults.revoke.sremFails || !faults.revoke.delFails
    requires faults.store.setFails || (!faults.store.saddFails && (cfg.refreshTokenExpiryDays > 0 || faults.store.expireFails))
    ensures Indexed(Refresh(st, keys, cfg, req, entropy, now, faults).0)
  {
    var token := PresentedToken(req);
    if token == "" || GetRefreshTokenData(st, token, faults.getFails).Failure? {
      assert Refresh(st, keys, cfg, req, entropy, now, faults).0 == st;
    } else {
      var st1 := RevokeRefreshToken(st, token, faults.revoke).after;
      RevokeKeepsIndexed(st, token, faults.revoke);
      var pair := TokenCodec.GenerateTokenPair(keys, entropy, st.entries[token].session.userID,
                    st.entries[token].session.username, st.entries[token].session.role,
                    st.entries[token].session.permissions, cfg.issuer, cfg.accessTokenExpiryMins,
                    cfg.refreshTokenExpiryDays, now);
      if pair.Success? {
        var data := Rotated(st.entries[token].session, req, now);
        StoreKeepsIndexed(st1, pair.value.refreshToken, data, RefreshLifetime(cfg), faults.store);
        assert Refresh(st, keys, cfg, req, entropy, now, faults).0
          == StoreRefreshToken(st1, pair.value.refreshToken, data, RefreshLifetime(cfg), faults.store).after;
      } else {
        assert Refresh(st, keys, cfg, req, entropy, now, faults).0 == st1;
      }
    }
  }

  /**
   * When the revoke's `SREM` succeeds but its `DEL` fails, a refresh still answers 200,
   * yet the old token stays live outside its owner's index: logging out everywhere
   * leaves it, and it can still be refreshed.
   */
  lemma RefreshDelFailureOrphans(st: Store, keys: TokenCodec.KeyState, cfg: HandlerConfig, req: Request,
                                 entropy: Option<seq<Base64Url.byte>>, now: int, storeFaults: StoreFaults,
                                 allFaults: RevokeAllFaults, claims: TokenCodec.Claims)
    requires entropy.Some? ==> |entropy.value| == TokenCodec.RefreshTokenBytes
    requires Refresh(st, keys, cfg, req, entropy, now, Faults(false, RevokeFaults(false, true), storeFaults)).1.status == 200
    requires TokenCodec.GenerateRefreshToken(entropy).value != PresentedToken(req)
    requires claims.userID == st.entries[PresentedToken(req)].session.userID
    ensures var after := Refresh(st, keys, cfg, req, entropy, now, Faults(false, RevokeFaults(false, true), storeFaults)).0;
      var owner := st.entries[PresentedToken(req)].session.userID;
      && GetRefreshTokenData(after, PresentedToken(req), false).Success?
      && PresentedToken(req) !in Members(after, owner)
      && GetRefreshTokenData(LogoutAll(after, AccessGate.HoldsClaims(claims), allFaults).0, PresentedToken(req), false).Success?
  {
  }

  /**
   * With a non-positive refresh lifetime a refresh answers 200, but the new session is
   * stored without expiry and the `EXPIRE` deletes its owner's index: the session is
   * listed nowhere and logging out everywhere does not end it.
   */
  lemma NonPositiveLifetimeUnlisted(st: Store, keys: TokenCodec.KeyState, cfg: HandlerConfig, req: Request,
                                    entropy: Option<seq<Base64Url.byte>>, now: int, faults: Faults,
                                    allFaults: RevokeAllFaults, claims: TokenCodec.Claims)
    requires entropy.Some? ==> |entropy.value| == TokenCodec.RefreshTokenBytes
    requires cfg.refreshTokenExpiryDays <= 0 && !faults.store.expireFails
    requires Refresh(st, keys, cfg, req, entropy, now, faults).1.status == 200
    requires claims.userID == st.entries[PresentedToken(req)].session.userID
    ensures var after := Refresh(st, keys, cfg, req, entropy, now, faults).0;
      var issued := TokenCodec.GenerateRefreshToken(entropy).value;
      && issued in after.entries && after.entries[issued].ttl == NoExpiry
      && Members(after, claims.userID) == {}
      && GetRefreshTokenData(LogoutAll(after, AccessGate.HoldsClaims(claims), allFaults).0, issued, false).Success?
  {
  }

  /**
   * Logging out twice is logging out once: after a first logout with no failed command, a
   * second one, whichever of its commands fail, gives the same store and response.
   */
  lemma LogoutIdempotent(st: Store, req: Request, again: RevokeFaults)
    ensures Logout(Logout(st, req, RevokeOk).0, req, again) == Logout(st, req, RevokeOk)
  {
    if PresentedToken(req) != "" && st.connected {
      RevokeIdempotent(st, PresentedToken(req), again);
    }
  }

  /**
   * After a logout whose `DEL` went through the presented token cannot be refreshed; when
   * the `DEL` fails the logout still answers 200 but the token stays usable.
   */
  lemma LogoutEndsSession(st: Store, req: Request, logoutFaults: RevokeFaults, keys: TokenCodec.KeyState,
                          cfg: HandlerConfig, entropy: Option<seq<Base64Url.byte>>, now: int, faults: Faults)
    requires entropy.Some? ==> |entropy.value| == TokenCodec.RefreshTokenBytes
    ensures var after := Logout(st, req, logoutFaults).0;
      && (!logoutFaults.delFails ==> Refresh(after, keys, cfg, req, entropy, now, faults).1.status == 401)
      && (logoutFaults.delFails ==> GetRefreshTokenData(after, PresentedToken(req), false) == GetRefreshTokenData(st, PresentedToken(req), false))
  {
  }

  /**
   * After logging out everywhere, no token the caller held before can be refreshed, as
   * long as it was listed in the caller's index and its record's `DEL` went through.
   * `Indexed` stores list every live token; the partial writes of
   * `RefreshDelFailureOrphans` and `NonPositiveLifetimeUnlisted`, and a listing whose
   * `GET` of a live token fails (`ListingReadFailureUnindexes`), leave tokens unlisted,
   * and those survive.
   */
  lemma LogoutAllEndsEverySession(st: Store, claims: TokenCodec.Claims, req: Request, keys: TokenCodec.KeyState,
                                  cfg: HandlerConfig, entropy: Option<seq<Base64Url.byte>>, now: int, faults: Faults,
                                  allFaults: RevokeAllFaults)
    requires entropy.Some? ==> |entropy.value| == TokenCodec.RefreshTokenBytes
    requires !allFaults.smembersFails
    requires PresentedToken(req) in st.entries && PresentedToken(req) in Members(st, claims.userID)
    requires PresentedToken(req) !in allFaults.undeleted
    ensures var after := LogoutAll(st, AccessGate.HoldsClaims(claims), allFaults).0;
      var (st', resp) := Refresh(after, keys, cfg, req, entropy, now, faults);
      st' == after && resp.status == 401
  {
  }
}

=== FILE: base64url.dfy ===
/**
 * The padded "base64url" encoding of section 5 of RFC 4648 (Go's `base64.URLEncoding`),
 * which turns the 32 random bytes of a refresh token into its text form.
 */
module Base64Url {
  import opened Wrappers

  newtype byte = b: int | 0 <= b < 256

  /** The 64 symbols of the URL- and filename-safe alphabet, in value order. */
  function Symbol(v: nat): (c: char)
    requires v < 64
    ensures IsUrlSafe(c)
  {
    if v < 26 then ('A' as int + v) as char
    else if v < 52 then ('a' as int + (v - 26)) as char
    else if v < 62 then ('0' as int + (v - 52)) as char
    else if v == 62 then '-'
    else '_'
  }

  predicate IsUrlSafe(c: char)
  {
    ('A' <= c <= 'Z') || ('a' <= c <= 'z') || ('0' <= c <= '9') || c == '-' || c == '_'
  }

  /** The value of an alphabet symbol; the inverse of `Symbol`. */
  function SymbolValue(c: char): (r: Option<nat>)
    ensures r.Some? ==> r.value < 64 && Symbol(r.value) == c
    ensures r.Some? <==> IsUrlSafe(c)
  {
    if 'A' <= c <= 'Z' then Some(c as int - 'A' as int)
    else if 'a' <= c <= 'z' then Some(c as int - 'a' as int + 26)
    else if '0' <= c <= '9' then Some(c as int - '0' as int + 52)
    else if c == '-' then Some(62)
    else if c == '_' then Some(63)
    else None
  }

  lemma SymbolRoundTrip(v: nat)
    requires v < 64
    ensures SymbolValue(Symbol(v)) == Some(v)
  {
  }

  const Pad: char := '='

  /** Three bytes become four symbols of six bits each. */
  function EncodeGroup(a: byte, b: byte, c: byte): (s: string)
    ensures |s| == 4 && AllUrlSafe(s)
  {
    var a', b', c' := a as nat, b as nat, c as nat;
    [Symbol(a' / 4), Symbol((a' % 4) * 16 + b' / 16), Symbol((b' % 16) * 4 + c' / 64), Symbol(c' % 64)]
  }

  /** A final single byte: two symbols and two pad characters. */
  function EncodeLastOne(a: byte): (s: string)
    ensures |s| == 4 && s[2] == Pad && s[3] == Pad && IsUrlSafe(s[0]) && IsUrlSafe(s[1])
  {
    var a' := a as nat;
    [Symbol(a' / 4), Symbol((a' % 4) * 16), Pad, Pad]
  }

  /** A final pair of bytes: three symbols and one pad character. */
  function EncodeLastTwo(a: byte, b: byte): (s: string)
    ensures |s| == 4 && s[3] == Pad && IsUrlSafe(s[0]) && IsUrlSafe(s[1]) && IsUrlSafe(s[2])
  {
    var a', b' := a as nat, b as nat;
    [Symbol(a' / 4), Symbol((a' % 4) * 16 + b' / 16), Symbol((b' % 16) * 4), Pad]
  }

  /** Go's `base64.URLEncoding.EncodeToString`: full groups, then a padded final group. */
  function Encode(bs: seq<byte>): (s: string)
    ensures |s| == 4 * ((|bs| + 2) / 3)
    decreases |bs|
  {
    if |bs| == 0 then []
    else if |bs| == 1 then EncodeLastOne(bs[0])
    else if |bs| == 2 then EncodeLastTwo(bs[0], bs[1])
    else EncodeGroup(bs[0], bs[1], bs[2]) + Encode(bs[3..])
  }

  /** Four symbols back to three bytes. */
  function DecodeGroup(w: nat, x: nat, y: nat, z: nat): seq<byte>
    requires w < 64 && x < 64 && y < 64 && z < 64
  {
    [(w * 4 + x / 16) as byte, ((x % 16) * 16 + y / 4) as byte, ((y % 4) * 64 + z) as byte]
  }

  /** Decoding of padded base64url text; `None` for text this encoding never produces. */
  function Decode(s: string): (r: Option<seq<byte>>)
    decreases |s|
  {
    if |s| == 0 then Some([])
    else if |s| < 4 then None
    else
      var w, x := SymbolValue(s[0]), SymbolValue(s[1]);
      if w.None? || x.None? then None
      else if |s| == 4 && s[2] == Pad && s[3] == Pad then
        Some([(w.value * 4 + x.value / 16) as byte])
      else if |s| == 4 && s[3] == Pad then
        var y := SymbolValue(s[2]);
        if y.None? then None
        else Some([(w.value * 4 + x.value / 16) as byte, ((x.value % 16) * 16 + y.value / 4) as byte])
      else
        var y, z := SymbolValue(s[2]), SymbolValue(s[3]);
        if y.None? || z.None? then None
        else
          var rest := Decode(s[4..]);
          if rest.None? then None
          else Some(DecodeGroup(w.value, x.value, y.value, z.value) + rest.value)
  }

  /** The four symbols of a full group decode to the three bytes they encode. */
  lemma GroupRoundTrip(a: byte, b: byte, c: byte)
    ensures var g := EncodeGroup(a, b, c);
      && |g| == 4 && g[3] != Pad
      && SymbolValue(g[0]).Some? && SymbolValue(g[1]).Some?
      && SymbolValue(g[2]).Some? && SymbolValue(g[3]).Some?
      && DecodeGroup(SymbolValue(g[0]).value, SymbolValue(g[1]).value,
                     SymbolValue(g[2]).value, SymbolValue(g[3]).value) == [a, b, c]
  {
    var a', b', c' := a as nat, b as nat, c as nat;
    var w, x, y, z := a' / 4, (a' % 4) * 16 + b' / 16, (b' % 16) * 4 + c' / 64, c' % 64;
    SymbolRoundTrip(w);
    SymbolRoundTrip(x);
    SymbolRoundTrip(y);
    SymbolRoundTrip(z);
    assert w * 4 + x / 16 == a';
    assert (x % 16) * 16 + y / 4 == b';
    assert (y % 4) * 64 + z == c';
  }

  lemma DecodeOne(a: byte)
    ensures Decode(Encode([a])) == Some([a])
  {
    var a' := a as nat;
    var s := Encode([a]);
    SymbolRoundTrip(a' / 4);
    SymbolRoundTrip((a' % 4) * 16);
    assert (a' / 4) * 4 + ((a' % 4) * 16) / 16 == a';
    assert s[2] == Pad && s[3] == Pad;
  }

  lemma DecodeTwo(a: byte, b: byte)
    ensures Decode(Encode([a, b])) == Some([a, b])
  {
    var a', b' := a as nat, b as nat;
    var s := Encode([a, b]);
    var w, x, y := a' / 4, (a' % 4) * 16 + b' / 16, (b' % 16) * 4;
    SymbolRoundTrip(w);
    SymbolRoundTrip(x);
    SymbolRoundTrip(y);
    assert x / 16 == a' % 4 && x % 16 == b' / 16 && y / 4 == b' % 16;
    assert w * 4 + x / 16 == a';
    assert (x % 16) * 16 + y / 4 == b';
    assert s[2] != Pad && s[3] == Pad;
  }

  /** A full group of four symbols in front of the rest decodes to its three bytes in front of the rest's. */
  lemma DecodeCons(g: string, t: string)
    requires |g| == 4 && g[3] != Pad
    requires SymbolValue(g[0]).Some? && SymbolValue(g[1]).Some? && SymbolValue(g[2]).Some? && SymbolValue(g[3]).Some?
    ensures var rest := Decode(t);
      Decode(g + t) == if rest.None? then None
        else Some(DecodeGroup(SymbolValue(g[0]).value, SymbolValue(g[1]).value,
                              SymbolValue(g[2]).value, SymbolValue(g[3]).value) + rest.value)
  {
    var s := g + t;
    assert s[0] == g[0] && s[1] == g[1] && s[2] == g[2] && s[3] == g[3];
    assert s[4..] == t;
  }

  lemma DecodeStep(bs: seq<byte>)
    requires |bs| >= 3
    requires Decode(Encode(bs[3..])) == Some(bs[3..])
    ensures Decode(Encode(bs)) == Some(bs)
  {
    var g, t := EncodeGroup(bs[0], bs[1], bs[2]), Encode(bs[3..]);
    assert Encode(bs) == g + t;
    GroupRoundTrip(bs[0], bs[1], bs[2]);
    DecodeCons(g, t);
    SplitThree(bs);
  }

  lemma SplitThree<T>(xs: seq<T>)
    requires |xs| >= 3
    ensures xs == [xs[0], xs[1], xs[2]] + xs[3..]
  {
  }

  /** Decoding undoes encoding, for every byte string. */
  lemma {:induction false} DecodeEncode(bs: seq<byte>)
    ensures Decode(Encode(bs)) == Some(bs)
    decreases |bs|
  {
    if |bs| == 1 {
      DecodeOne(bs[0]);
      assert bs == [bs[0]];
    } else if |bs| == 2 {
      DecodeTwo(bs[0], bs[1]);
      assert bs == [bs[0], bs[1]];
    } else if |bs| >= 3 {
      DecodeEncode(bs[3..]);
      DecodeStep(bs);
    }
  }

  /** Text made of alphabet symbols only. */
  predicate AllUrlSafe(s: string)
  {
    forall i | 0 <= i < |s| :: IsUrlSafe(s[i])
  }

  /**
   * The shape of an encoding: alphabet symbols, then one `=` when the input length is
   * 2 modulo 3, two when it is 1 modulo 3, none when it is a multiple of 3.
   */
  lemma {:induction false} EncodeAlphabet(bs: seq<byte>)
    ensures |bs| % 3 == 0 ==> AllUrlSafe(Encode(bs))
    ensures |bs| % 3 == 2 ==>
      var s := Encode(bs); s[|s| - 1] == Pad && AllUrlSafe(s[..|s| - 1])
    ensures |bs| % 3 == 1 ==>
      var s := Encode(bs); s[|s| - 2..] == [Pad, Pad] && AllUrlSafe(s[..|s| - 2])
    decreases |bs|
  {
    if |bs| >= 3 {
      EncodeAlphabet(bs[3..]);
      var g, t := EncodeGroup(bs[0], bs[1], bs[2]), Encode(bs[3..]);
      assert Encode(bs) == g + t;
      assert AllUrlSafe(g);
      ModThree(|bs|);
      SafeConcat(g, t);
    }
  }

  lemma ModThree(n: nat)
    requires n >= 3
    ensures (n - 3) % 3 == n % 3
  {
  }

  /** Prefixing a safe group keeps the padding shape of the rest. */
  lemma SafeConcat(g: string, t: string)
    requires AllUrlSafe(g)
    ensures AllUrlSafe(t) ==> AllUrlSafe(g + t)
    ensures |t| >= 1 && AllUrlSafe(t[..|t| - 1]) ==> AllUrlSafe((g + t)[..|g + t| - 1])
    ensures |t| >= 2 && AllUrlSafe(t[..|t| - 2]) ==> AllUrlSafe((g + t)[..|g + t| - 2])
  {
    if |t| >= 1 {
      assert (g + t)[..|g + t| - 1] == g + t[..|t| - 1];
    }
    if |t| >= 2 {
      assert (g + t)[..|g + t| - 2] == g + t[..|t| - 2];
    }
  }
}

=== FILE: config.dfy ===
/**
 * The server configuration read from the process environment, with a default for every
 * variable. The environment is a map from variable name to value; a name absent from
 * the map is an unset variable (which differs from one set to the empty string).
 */
module Config {
  import opened Wrappers
  import Decimal

  type Env = map<string, string>

  datatype ServerConfig = ServerConfig(port: string)

  datatype DatabaseConfig = DatabaseConfig(
    host: string, port: string, user: string, password: string, dbName: string, sslMode: string)

  datatype RedisConfig = RedisConfig(host: string, port: string, password: string, db: int)

  datatype LogConfig = LogConfig(level: string, pretty: bool)

  datatype JwtConfig = JwtConfig(
    privateKeyPath: string, publicKeyPath: string, issuer: string,
    accessTokenExpiryMins: int, refreshTokenExpiryDays: int)

  datatype GoogleConfig = GoogleConfig(clientId: string, clientSecret: string, redirectUrl: string)

  datatype AppConfig = AppConfig(
    server: ServerConfig, database: DatabaseConfig, redis: RedisConfig,
    log: LogConfig, jwt: JwtConfig, google: GoogleConfig)

  /** The value of a variable that is set, even to the empty string; otherwise the default. */
  function GetEnv(env: Env, key: string, default: string): (r: string)
    ensures key in env ==> r == env[key]
    ensures key !in env ==> r == default
  {
    if key in env then env[key] else default
  }

  /** The integer value of a variable when it is set and `Atoi` accepts it; otherwise the default. */
  function GetEnvInt(env: Env, key: string, default: int): (r: int)
    ensures key in env && Decimal.Atoi(env[key]).ok ==> r == Decimal.Atoi(env[key]).value
    ensures key !in env || !Decimal.Atoi(env[key]).ok ==> r == default
  {
    if key in env then
      var parsed := Decimal.Atoi(env[key]);
      if parsed.ok then parsed.value else default
    else default
  }

  /**
   * `Load`: every field from its variable or its default. A set variable is taken as it
   * is, even when empty. The two token lifetimes fall back to their defaults when unset or
   * unparsable, never to zero. `REDIS_DB` is parsed with its error discarded, so it takes
   * whatever value `Atoi` returns next to the error. Pretty logging is on exactly when
   * `LOG_PRETTY` is unset or is the text `true`.
   */
  function Load(env: Env): (r: AppConfig)
    ensures r.server.port == (if "PORT" in env then env["PORT"] else "8080")
    ensures r.database.host == (if "DB_HOST" in env then env["DB_HOST"] else "localhost")
    ensures r.database.port == (if "DB_PORT" in env then env["DB_PORT"] else "5432")
    ensures r.database.user == (if "DB_USER" in env then env["DB_USER"] else "postgres")
    ensures r.database.password == (if "DB_PASSWORD" in env then env["DB_PASSWORD"] else "postgres")
    ensures r.database.dbName == (if "DB_NAME" in env then env["DB_NAME"] else "chattycathy")
    ensures r.database.sslMode == (if "DB_SSLMODE" in env then env["DB_SSLMODE"] else "disable")
    ensures r.redis.host == (if "REDIS_HOST" in env then env["REDIS_HOST"] else "localhost")
    ensures r.redis.port == (if "REDIS_PORT" in env then env["REDIS_PORT"] else "6379")
    ensures r.redis.password == (if "REDIS_PASSWORD" in env then env["REDIS_PASSWORD"] else "")
    ensures r.log.level == (if "LOG_LEVEL" in env then env["LOG_LEVEL"] else "info")
    ensures r.jwt.privateKeyPath == (if "JWT_PRIVATE_KEY" in env then env["JWT_PRIVATE_KEY"] else "")
    ensures r.jwt.publicKeyPath == (if "JWT_PUBLIC_KEY" in env then env["JWT_PUBLIC_KEY"] else "")
    ensures r.jwt.issuer == (if "JWT_ISSUER" in env then env["JWT_ISSUER"] else "chattycathy")
    ensures r.google.clientId == (if "GOOGLE_CLIENT_ID" in env then env["GOOGLE_CLIENT_ID"] else "")
    ensures r.google.clientSecret == (if "GOOGLE_CLIENT_SECRET" in env then env["GOOGLE_CLIENT_SECRET"] else "")
    ensures r.google.redirectUrl == (if "GOOGLE_REDIRECT_URL" in env then env["GOOGLE_REDIRECT_URL"] else "http://localhost:3000")
    ensures "REDIS_DB" !in env ==> r.redis.db == 0
    ensures "REDIS_DB" in env ==> r.redis.db == Decimal.Atoi(env["REDIS_DB"]).value
    ensures "JWT_ACCESS_EXPIRY_MINS" !in env || !Decimal.Atoi(env["JWT_ACCESS_EXPIRY_MINS"]).ok ==>
      r.jwt.accessTokenExpiryMins == 15
    ensures "JWT_ACCESS_EXPIRY_MINS" in env && Decimal.Atoi(env["JWT_ACCESS_EXPIRY_MINS"]).ok ==>
      r.jwt.accessTokenExpiryMins == Decimal.Atoi(env["JWT_ACCESS_EXPIRY_MINS"]).value
    ensures "JWT_REFRESH_EXPIRY_DAYS" !in env || !Decimal.Atoi(env["JWT_REFRESH_EXPIRY_DAYS"]).ok ==>
      r.jwt.refreshTokenExpiryDays == 7
    ensures "JWT_REFRESH_EXPIRY_DAYS" in env && Decimal.Atoi(env["JWT_REFRESH_EXPIRY_DAYS"]).ok ==>
      r.jwt.refreshTokenExpiryDays == Decimal.Atoi(env["JWT_REFRESH_EXPIRY_DAYS"]).value
    ensures r.log.pretty <==> "LOG_PRETTY" !in env || env["LOG_PRETTY"] == "true"
  {
    AppConfig(
      ServerConfig(GetEnv(env, "PORT", "8080")),
      DatabaseConfig(
        GetEnv(env, "DB_HOST", "localhost"),
        GetEnv(env, "DB_PORT", "5432"),
        GetEnv(env, "DB_USER", "postgres"),
        GetEnv(env, "DB_PASSWORD", "postgres"),
        GetEnv(env, "DB_NAME", "chattycathy"),
        GetEnv(env, "DB_SSLMODE", "disable")),
      RedisConfig(
        GetEnv(env, "REDIS_HOST", "localhost"),
        GetEnv(env, "REDIS_PORT", "6379"),
        GetEnv(env, "REDIS_PASSWORD", ""),
        Decimal.Atoi(GetEnv(env, "REDIS_DB", "0")).value),
      LogConfig(
        GetEnv(env, "LOG_LEVEL", "info"),
        GetEnv(env, "LOG_PRETTY", "true") == "true"),
      JwtConfig(
        GetEnv(env, "JWT_PRIVATE_KEY", ""),
        GetEnv(env, "JWT_PUBLIC_KEY", ""),
        GetEnv(env, "JWT_ISSUER", "chattycathy"),
        GetEnvInt(env, "JWT_ACCESS_EXPIRY_MINS", 15),
        GetEnvInt(env, "JWT_REFRESH_EXPIRY_DAYS", 7)),
      GoogleConfig(
        GetEnv(env, "GOOGLE_CLIENT_ID", ""),
        GetEnv(env, "GOOGLE_CLIENT_SECRET", ""),
        GetEnv(env, "GOOGLE_REDIRECT_URL", "http://localhost:3000")))
  }

  /**
   * The PostgreSQL connection string: six `key=value` fields, in fixed order, joined by
   * single spaces. When no value contains a space, splitting it on spaces gives back the
   * fields host, port, user, password, dbname and sslmode in that order.
   */
  function Dsn(c: DatabaseConfig): (r: string)
    ensures NoSpace(c.host) && NoSpace(c.port) && NoSpace(c.user)
            && NoSpace(c.password) && NoSpace(c.dbName) && NoSpace(c.sslMode) ==>
      SplitSpaces(r) == ["host=" + c.host, "port=" + c.port, "user=" + c.user,
                         "password=" + c.password, "dbname=" + c.dbName, "sslmode=" + c.sslMode]
  {
    var fields := ["host=" + c.host, "port=" + c.port, "user=" + c.user, "password=" + c.password,
                   "dbname=" + c.dbName, "sslmode=" + c.sslMode];
    assert NoSpace(c.host) && NoSpace(c.port) && NoSpace(c.user)
           && NoSpace(c.password) && NoSpace(c.dbName) && NoSpace(c.sslMode) ==>
      SplitSpaces(JoinSpaces(fields)) == fields by {
      if NoSpace(c.host) && NoSpace(c.port) && NoSpace(c.user)
         && NoSpace(c.password) && NoSpace(c.dbName) && NoSpace(c.sslMode) {
        forall k | 0 <= k < |fields|
          ensures NoSpace(fields[k])
        {
        }
        SplitJoin(fields);
      }
    }
    JoinSpaces(fields)
  }

  /** Fields separated by single spaces. */
  function JoinSpaces(fields: seq<string>): string
    decreases |fields|
  {
    if |fields| == 0 then ""
    else if |fields| == 1 then fields[0]
    else fields[0] + " " + JoinSpaces(fields[1..])
  }

  /** With nothing set, the token lifetimes, issuer and port take their documented defaults. */
  lemma EmptyEnvDefaults()
    ensures var c := Load(map[]);
      && c.jwt.accessTokenExpiryMins == 15
      && c.jwt.refreshTokenExpiryDays == 7
      && c.jwt.issuer == "chattycathy"
      && c.server.port == "8080"
      && c.redis.db == 0
      && c.log.pretty
      && c.jwt.privateKeyPath == "" && c.jwt.publicKeyPath == ""
  {
    assert Decimal.Atoi("0") == Decimal.Parsed(0, true) by {
      Decimal.AtoiFormatInt(0);
    }
  }

  /**
   * A `REDIS_DB` with no digit after its optional sign, or with a non-digit at `k` before
   * the digits ahead of it leave the `uint64` range, yields database 0. (A longer digit
   * prefix is a range error, and the discarded error leaves the clamped value instead.)
   */
  lemma NonNumericRedisDb(env: Env, k: nat)
    requires "REDIS_DB" in env
    requires var d := Decimal.Unsigned(env["REDIS_DB"]);
      |d| == 0 || (k < |d| && !Decimal.IsDigit(d[k]) && Decimal.AllDigits(d[..k]) && Decimal.ValueOf(d[..k]) < Decimal.Pow2(64))
    ensures Load(env).redis.db == 0
  {
    Decimal.AtoiSyntaxError(env["REDIS_DB"], k);
  }

  /** Every `int64` written as decimal text into an integer variable is read back. */
  lemma GetEnvIntRoundTrip(env: Env, key: string, i: int, default: int)
    requires -(Decimal.Int64Limit as int) <= i < Decimal.Int64Limit
    ensures GetEnvInt(env[key := Decimal.FormatInt(i)], key, default) == i
  {
    Decimal.AtoiFormatInt(i);
  }

  predicate NoSpace(s: string)
  {
    forall i | 0 <= i < |s| :: s[i] != ' '
  }

  /** The index of the first space, or the length when there is none. */
  function FirstSpace(s: string): (i: nat)
    ensures i <= |s| && NoSpace(s[..i]) && (i < |s| ==> s[i] == ' ')
    decreases |s|
  {
    if |s| == 0 then 0
    else if s[0] == ' ' then 0
    else
      var k := FirstSpace(s[1..]);
      assert s[..k + 1] == [s[0]] + s[1..][..k];
      k + 1
  }

  /** Splitting on single spaces: the reader of a connection string. */
  function SplitSpaces(s: string): seq<string>
    decreases |s|
  {
    var i := FirstSpace(s);
    if i == |s| then [s] else [s[..i]] + SplitSpaces(s[i + 1..])
  }

  /** A space-free field is found whole before the separator that follows it. */
  lemma FirstSpaceOf(f: string, rest: string)
    requires NoSpace(f)
    requires |rest| == 0 || rest[0] == ' '
    ensures FirstSpace(f + rest) == |f|
    decreases |f|
  {
    if |f| > 0 {
      assert (f + rest)[1..] == f[1..] + rest;
      FirstSpaceOf(f[1..], rest);
    }
  }

  /** A space-free field followed by a space splits off whole. */
  lemma SplitCons(f: string, r: string)
    requires NoSpace(f)
    ensures SplitSpaces(f + " " + r) == [f] + SplitSpaces(r)
  {
    var s := f + " " + r;
    FirstSpaceOf(f, " " + r);
    assert s == f + (" " + r);
    assert s[..|f|] == f;
    assert s[|f| + 1..] == r;
  }

  /** Splitting undoes joining when no field contains a space. */
  lemma {:induction false} SplitJoin(fields: seq<string>)
    requires |fields| > 0
    requires forall k | 0 <= k < |fields| :: NoSpace(fields[k])
    ensures SplitSpaces(JoinSpaces(fields)) == fields
    decreases |fields|
  {
    if |fields| == 1 {
      FirstSpaceOf(fields[0], []);
      assert fields[0] + [] == fields[0];
    } else {
      SplitCons(fields[0], JoinSpaces(fields[1..]));
      SplitJoin(fields[1..]);
      assert fields == [fields[0]] + fields[1..];
    }
  }
}

=== FILE: decimal.dfy ===
/**
 * Base-10 integer text as Go's `strconv` reads and writes it: `FormatUint(n, 10)`,
 * `ParseUint(s, 10, bitSize)` and `Atoi(s)`. Used by the configuration loader
 * (integer variables), the Google login (the user id claim) and the admin API
 * (the `:id` path parameter).
 */
module Decimal {
  import opened Wrappers

  predicate IsDigit(c: char)
  {
    '0' <= c <= '9'
  }

  predicate AllDigits(s: string)
  {
    forall i | 0 <= i < |s| :: IsDigit(s[i])
  }

  function DigitValue(c: char): nat
    requires IsDigit(c)
  {
    c as int - '0' as int
  }

  function DigitChar(d: nat): char
    requires d < 10
  {
    ('0' as int + d) as char
  }

  /** The number a string of decimal digits denotes, most significant digit first. */
  function ValueOf(s: string): nat
    requires AllDigits(s)
    decreases |s|
  {
    if |s| == 0 then 0 else ValueOf(s[..|s| - 1]) * 10 + DigitValue(s[|s| - 1])
  }

  /** Canonical decimal text: no leading zero except the numeral "0" itself. */
  predicate Canonical(s: string)
  {
    |s| > 0 && AllDigits(s) && (s[0] == '0' ==> |s| == 1)
  }

  function Pow2(k: nat): (r: nat)
    ensures r >= 1
  {
    if k == 0 then 1 else 2 * Pow2(k - 1)
  }

  /** `strconv.FormatUint(n, 10)`: the canonical decimal numeral of `n`. */
  function Format(n: nat): (s: string)
    ensures Canonical(s)
    ensures ValueOf(s) == n
    decreases n
  {
    if n < 10 then [DigitChar(n)]
    else
      var init := Format(n / 10);
      var s := init + [DigitChar(n % 10)];
      assert s[..|s| - 1] == init;
      s
  }

  /** `strconv.FormatInt(i, 10)`: a minus sign before the magnitude of a negative number. */
  function FormatInt(i: int): string
  {
    if i < 0 then "-" + Format(-i) else Format(i)
  }

  /**
   * What a `strconv` parse returns: the value Go hands back next to the error, and whether
   * the error was nil. On a syntax error the value is 0; on a range error it is the bound.
   */
  datatype Parsed = Parsed(value: int, ok: bool)

  /**
   * The digit loop of `strconv.ParseUint` for base 10: `n` is the value read so far.
   * A non-digit is a syntax error (value 0); a prefix whose value exceeds `maxVal`
   * stops the scan with a range error (value `maxVal`) even if a non-digit follows.
   */
  function ScanDigits(s: string, n: nat, maxVal: nat): Parsed
    decreases |s|
  {
    if |s| == 0 then Parsed(n, true)
    else if !IsDigit(s[0]) then Parsed(0, false)
    else if n * 10 + DigitValue(s[0]) > maxVal then Parsed(maxVal, false)
    else ScanDigits(s[1..], n * 10 + DigitValue(s[0]), maxVal)
  }

  /** `strconv.ParseUint(s, 10, bitSize)`, value and error together. */
  function ParseUintGo(s: string, bitSize: nat): Parsed
  {
    if |s| == 0 then Parsed(0, false) else ScanDigits(s, 0, Pow2(bitSize) - 1)
  }

  /**
   * `strconv.ParseUint(s, 10, bitSize)` as an option: digits only (no sign, no underscore,
   * no space), at least one of them, and a value below 2^bitSize; leading zeros are accepted.
   */
  function ParseUint(s: string, bitSize: nat): (r: Option<nat>)
    ensures r.Some? <==> |s| > 0 && AllDigits(s) && ValueOf(s) < Pow2(bitSize)
    ensures r.Some? ==> r.value == ValueOf(s)
  {
    var p := ParseUintGo(s, bitSize);
    ParseUintSpec(s, bitSize);
    if p.ok then Some(p.value as nat) else None
  }

  lemma ParseUintSpec(s: string, bitSize: nat)
    ensures ParseUintGo(s, bitSize).ok <==> |s| > 0 && AllDigits(s) && ValueOf(s) < Pow2(bitSize)
    ensures ParseUintGo(s, bitSize).ok ==> ParseUintGo(s, bitSize).value == ValueOf(s)
    ensures !ParseUintGo(s, bitSize).ok ==>
      ParseUintGo(s, bitSize).value == 0 || ParseUintGo(s, bitSize).value == Pow2(bitSize) - 1
  {
    if |s| > 0 {
      assert ValueOf(s[..0]) == 0;
      ScanSpec(s[..0], s, Pow2(bitSize) - 1);
      assert s[..0] + s == s;
    }
  }

  /** 2^63: one more than the largest `int64`. */
  const Int64Limit: nat := 0x8000_0000_0000_0000

  lemma {:induction false} Pow2Add(a: nat, b: nat)
    ensures Pow2(a + b) == Pow2(a) * Pow2(b)
    decreases a
  {
    if a > 0 {
      Pow2Add(a - 1, b);
    }
  }

  lemma Int64LimitIsPow2()
    ensures Pow2(63) == Int64Limit
  {
    assert Pow2(7) == 0x80;
    Pow2Add(7, 7);
    assert Pow2(14) == 0x4000;
    Pow2Add(14, 14);
    assert Pow2(28) == 0x1000_0000;
    Pow2Add(28, 28);
    assert Pow2(56) == 0x100_0000_0000_0000;
    Pow2Add(56, 7);
  }

  /**
   * `strconv.Atoi(s)` on a 64-bit platform (which reads like `ParseInt(s, 10, 64)`): an
   * optional `+` or `-`, then digits. Out of the `int64` range the value is clamped to
   * the nearer bound and the error is a range error; a syntax error gives 0.
   */

  function Atoi(s: string): (r: Parsed)
  {
    if |s| == 0 then Parsed(0, false)
    else
      var neg := s[0] == '-';
      var digits := if s[0] == '+' || s[0] == '-' then s[1..] else s;
      var u := ParseUintGo(digits, 64);
      if !u.ok && u.value == 0 then Parsed(0, false)
      else if !neg && u.value >= Int64Limit then Parsed(Int64Limit - 1, false)
      else if neg && u.value > Int64Limit then Parsed(-(Int64Limit as int), false)
      else Parsed(if neg then -u.value else u.value, u.ok)
  }

  /** The value of a digit string only grows when digits are appended. */
  lemma {:induction false} ValueOfPrefix(q: string, r: string)
    requires AllDigits(q) && AllDigits(r)
    ensures AllDigits(q + r) && ValueOf(q + r) >= ValueOf(q)
    decreases |r|
  {
    assert AllDigits(q + r);
    if |r| > 0 {
      var r' := r[..|r| - 1];
      assert (q + r)[..|q + r| - 1] == q + r';
      ValueOfPrefix(q, r');
      assert (q + r)[|q + r| - 1] == r[|r| - 1];
      assert ValueOf(q + r) == ValueOf(q + r') * 10 + DigitValue(r[|r| - 1]);
    } else {
      assert q + r == q;
    }
  }

  /** The scanner agrees with `ValueOf`: it succeeds exactly on digit strings within bound. */
  lemma {:induction false} ScanSpec(p: string, s: string, maxVal: nat)
    requires AllDigits(p) && ValueOf(p) <= maxVal
    ensures ScanDigits(s, ValueOf(p), maxVal).ok <==> AllDigits(s) && ValueOf(p + s) <= maxVal
    ensures ScanDigits(s, ValueOf(p), maxVal).ok ==> ScanDigits(s, ValueOf(p), maxVal).value == ValueOf(p + s)
    ensures !ScanDigits(s, ValueOf(p), maxVal).ok ==>
      ScanDigits(s, ValueOf(p), maxVal).value == 0 || ScanDigits(s, ValueOf(p), maxVal).value == maxVal
    decreases |s|
  {
    if |s| == 0 {
      assert p + s == p;
    } else if IsDigit(s[0]) {
      var p' := p + [s[0]];
      assert p'[..|p'| - 1] == p;
      assert ValueOf(p') == ValueOf(p) * 10 + DigitValue(s[0]);
      assert p' + s[1..] == p + s;
      if ValueOf(p') > maxVal {
        if AllDigits(s) {
          ValueOfPrefix(p', s[1..]);
        }
      } else {
        ScanSpec(p', s[1..], maxVal);
      }
    }
  }

  /**
   * The scanner reports a syntax error (value 0) when it meets a non-digit at `k` before the
   * digits read so far exceed the bound: the range check never fires first.
   */
  lemma {:induction false} ScanSyntaxError(p: string, s: string, k: nat, maxVal: nat)
    requires AllDigits(p) && k < |s| && AllDigits(s[..k]) && !IsDigit(s[k])
    requires AllDigits(p + s[..k]) && ValueOf(p + s[..k]) <= maxVal
    ensures ScanDigits(s, ValueOf(p), maxVal) == Parsed(0, false)
    decreases k
  {
    if k > 0 {
      var p' := p + [s[0]];
      assert p'[..|p'| - 1] == p;
      assert ValueOf(p') == ValueOf(p) * 10 + DigitValue(s[0]);
      assert s[1..][..k - 1] == s[1..k];
      assert p' + s[1..k] == p + s[..k];
      ValueOfPrefix(p', s[1..k]);
      ScanSyntaxError(p', s[1..], k - 1, maxVal);
    }
  }

  /** The text `Atoi` reads digits from: `s` without one leading sign. */
  function Unsigned(s: string): (r: string)
    ensures |s| > 0 && (s[0] == '+' || s[0] == '-') ==> r == s[1..]
    ensures |s| == 0 || (s[0] != '+' && s[0] != '-') ==> r == s
  {
    if |s| > 0 && (s[0] == '+' || s[0] == '-') then s[1..] else s
  }

  /**
   * `Atoi` gives 0 and an error when no digit follows the optional sign, or when a non-digit
   * comes before the digits read so far leave the `uint64` range. A longer digit prefix is a
   * range error instead, and the value is clamped to an `int64` bound.
   */
  lemma AtoiSyntaxError(s: string, k: nat)
    requires |Unsigned(s)| == 0
      || (k < |Unsigned(s)| && !IsDigit(Unsigned(s)[k]) && AllDigits(Unsigned(s)[..k])
          && ValueOf(Unsigned(s)[..k]) < Pow2(64))
    ensures Atoi(s) == Parsed(0, false)
  {
    var d := Unsigned(s);
    if |d| > 0 {
      assert ValueOf([]) == 0;
      assert [] + d[..k] == d[..k];
      ScanSyntaxError([], d, k, Pow2(64) - 1);
    }
    assert ParseUintGo(d, 64) == Parsed(0, false);
  }

  /** A string whose first character is neither a sign nor a digit gives 0 and an error. */
  lemma AtoiRejectsNonDigits(s: string)
    requires |s| > 0 && s[0] != '+' && s[0] != '-' && !IsDigit(s[0])
    ensures Atoi(s) == Parsed(0, false)
  {
  }

  /** Two digit strings of the same value and no leading zeros are the same string. */
  lemma {:induction false} CanonicalUnique(s: string, t: string)
    requires Canonical(s) && Canonical(t)
    requires ValueOf(s) == ValueOf(t)
    ensures s == t
    decreases |s|
  {
    if |s| == 1 && |t| == 1 {
    } else if |s| == 1 {
      LongValue(t);
    } else if |t| == 1 {
      LongValue(s);
    } else {
      var s', t' := s[..|s| - 1], t[..|t| - 1];
      assert s'[0] == s[0] && t'[0] == t[0];
      assert ValueOf(s) == ValueOf(s') * 10 + DigitValue(s[|s| - 1]);
      assert ValueOf(t) == ValueOf(t') * 10 + DigitValue(t[|t| - 1]);
      assert ValueOf(s') == ValueOf(t') && s[|s| - 1] == t[|t| - 1];
      CanonicalUnique(s', t');
      assert s == s' + [s[|s| - 1]];
      assert t == t' + [t[|t| - 1]];
    }
  }

  /** A canonical numeral of two or more digits denotes at least ten. */
  lemma {:induction false} LongValue(s: string)
    requires Canonical(s) && |s| >= 2
    ensures ValueOf(s) >= 10
  {
    var s' := s[..|s| - 1];
    assert s'[0] == s[0];
    if |s'| >= 2 {
      LongValue(s');
    } else {
      assert ValueOf(s') == DigitValue(s[0]) >= 1;
    }
  }

  /** Parsing a formatted number gives the number back when it fits in `bitSize` bits. */
  lemma ParseFormat(n: nat, bitSize: nat)
    requires n < Pow2(bitSize)
    ensures ParseUint(Format(n), bitSize) == Some(n)
  {
  }

  /** Formatting a parsed canonical numeral gives the numeral back. */
  lemma FormatParse(s: string, bitSize: nat)
    requires Canonical(s)
    requires ParseUint(s, bitSize).Some?
    ensures Format(ParseUint(s, bitSize).value) == s
  {
    CanonicalUnique(Format(ValueOf(s)), s);
  }

  /** `Atoi` reads back every `int64` that `FormatInt` writes. */
  lemma AtoiFormatInt(i: int)
    requires -(Int64Limit as int) <= i < Int64Limit
    ensures Atoi(FormatInt(i)) == Parsed(i, true)
  {
    var n: nat := if i < 0 then -i else i;
    var m := Format(n);
    assert m[0] != '+' && m[0] != '-';
    Int64LimitIsPow2();
    Pow2Monotone(63, 64);
    ParseUintSpec(m, 64);
    assert ParseUintGo(m, 64) == Parsed(n, true);
    if i < 0 {
      assert FormatInt(i)[1..] == m;
    }
  }

  lemma {:induction false} Pow2Monotone(a: nat, b: nat)
    requires a <= b
    ensures Pow2(a) <= Pow2(b)
    decreases b
  {
    if a < b {
      Pow2Monotone(a, b - 1);
    }
  }
}

=== FILE: google_login.dfy ===
/**
 * Sign-in with Google: the choice of grant, the find-or-create of the local user, and the
 * issue of the first token pair and refresh session. The calls to Google's endpoints are a
 * parameter: what they return for a grant, or `None` when the exchange fails.
 */
module GoogleLogin {
  import opened Wrappers
  import opened Rbac
  import Decimal
  import RefreshStore
  import TokenCodec
  import Base64Url
  import AuthHandler

  /** The JSON body: `access_token` (implicit flow) and `code` (authorisation-code flow); an absent field is "". */
  datatype CallbackRequest = CallbackRequest(accessToken: string, code: string)

  /** What the client proved its Google identity with. */
  datatype Grant = ImplicitToken(token: string) | AuthorizationCode(code: string)

  /** The Google account as the user-info endpoint reports it. */
  datatype GoogleUser = GoogleUser(id: string, email: string, name: string, picture: string)

  /** The unique index on `google_id` or `email` refused a write. */
  datatype UserError = UniqueViolation

  /** The `user` object of a sign-in response: the account without its Google id, and the permissions. */
  datatype UserView = UserView(id: nat, email: string, name: string, picture: string, role: string,
                               permissions: seq<string>)

  /**
   * A sign-in response body. Success carries the access token, the refresh token, the access
   * lifetime in seconds, the token type and the user; unlike the refresh response it has no
   * refresh lifetime.
   */
  datatype LoginBody =
    | LoginError(error: string)
    | LoginOk(accessToken: TokenCodec.Token, refreshToken: string, accessExpiresIn: int, tokenType: string,
              user: UserView)

  datatype LoginResponse = LoginResponse(status: int, body: LoginBody, cookie: AuthHandler.CookieOp)

  /** The role every new account gets, both as its `role` column and as a role assignment. */
  const NewUserRole: string := "user"

  /** A non-empty access token is used even when a code is also sent; with neither there is no grant. */
  function SelectGrant(req: CallbackRequest): (r: Option<Grant>)
    ensures r.None? <==> req.accessToken == "" && req.code == ""
    ensures req.accessToken != "" ==> r == Some(ImplicitToken(req.accessToken))
    ensures req.accessToken == "" && req.code != "" ==> r == Some(AuthorizationCode(req.code))
  {
    if req.accessToken != "" then Some(ImplicitToken(req.accessToken))
    else if req.code != "" then Some(AuthorizationCode(req.code))
    else None
  }

  /** No two rows share a Google id or an email: the two unique indexes of `users`. */
  predicate UsersUnique(db: Db)
  {
    forall i, j | 0 <= i < j < |db.users| ::
      db.users[i].googleId != db.users[j].googleId && db.users[i].email != db.users[j].email
  }

  /** Whether a row other than the one at `i` holds the Google id or the email of `row`. */
  predicate ClashesWithOthers(db: Db, i: nat, row: UserRow)
  {
    exists j | 0 <= j < |db.users| :: j != i && (db.users[j].googleId == row.googleId || db.users[j].email == row.email)
  }

  /** `Save`: write the row back in place, unless a unique index refuses it. */
  function SaveUser(db: Db, i: nat, row: UserRow): (r: Result<Db, UserError>)
    requires i < |db.users|
    ensures r.Failure? <==> ClashesWithOthers(db, i, row)
    ensures r.Success? ==> r.value == db.(users := db.users[i := row])
  {
    if ClashesWithOthers(db, i, row) then Failure(UniqueViolation)
    else Success(db.(users := db.users[i := row]))
  }

  /** The row of a new account, with the next id. */
  function NewUser(db: Db, g: GoogleUser): (u: UserRow)
  {
    UserRow(db.nextUserId, g.id, g.email, g.name, g.picture, NewUserRole)
  }

  /**
   * `findOrCreateUser`: the row with this Google id gets the account's email, name and
   * picture; failing that, the row with this email gets the Google id linked, with name and
   * picture; failing that, a new row is created with role `user` and the `user` role is
   * assigned, a failed assignment being only logged. Either update may be refused by a
   * unique index; the create cannot be, as both lookups came back empty.
   */
  function FindOrCreateUser(db: Db, g: GoogleUser): (r: Result<(Db, UserRow), UserError>)
    ensures r.Success? ==>
      && r.value.1 in r.value.0.users
      && r.value.1.googleId == g.id && r.value.1.email == g.email
      && r.value.1.name == g.name && r.value.1.picture == g.picture
    ensures r.Failure? ==> exists i | 0 <= i < |db.users| :: db.users[i].googleId == g.id || db.users[i].email == g.email
  {
    match FirstWhere(db.users, (u: UserRow) => u.googleId == g.id)
    case Some(i) =>
      var row := db.users[i].(email := g.email, name := g.name, picture := g.picture);
      (match SaveUser(db, i, row)
       case Failure(e) => Failure(e)
       case Success(d) => assert d.users[i] == row; Success((d, row)))
    case None =>
      match FirstWhere(db.users, (u: UserRow) => u.email == g.email)
      case Some(i) =>
        var row := db.users[i].(googleId := g.id, name := g.name, picture := g.picture);
        (match SaveUser(db, i, row)
         case Failure(e) => Failure(e)
         case Success(d) => assert d.users[i] == row; Success((d, row)))
      case None =>
        var row := NewUser(db, g);
        var created := db.(users := db.users + [row], nextUserId := db.nextUserId + 1);
        match AssignRoleToUser(created, row.id, NewUserRole)
        case Failure(_) => Success((created, row))
        case Success(d) => Success((d, row))
  }

  /** A returning account keeps its row: same id and role, no new row, nothing else touched. */
  lemma FoundByGoogleId(db: Db, g: GoogleUser, i: nat)
    requires i < |db.users| && db.users[i].googleId == g.id
    requires UsersUnique(db)
    ensures var r := FindOrCreateUser(db, g);
      r.Success? ==>
        && r.value.0 == db.(users := db.users[i := r.value.1])
        && r.value.1.id == db.users[i].id && r.value.1.role == db.users[i].role
  {
  }

  /** Under the unique indexes, every other row differs from row `i` in both Google id and email. */
  lemma OthersDiffer(db: Db, i: nat)
    requires UsersUnique(db) && i < |db.users|
    ensures forall j | 0 <= j < |db.users| && j != i ::
      db.users[j].googleId != db.users[i].googleId && db.users[j].email != db.users[i].email
  {
    forall j | 0 <= j < |db.users| && j != i
      ensures db.users[j].googleId != db.users[i].googleId && db.users[j].email != db.users[i].email
    {
      if j < i {
        assert db.users[j].googleId != db.users[i].googleId;
      } else {
        assert db.users[i].googleId != db.users[j].googleId;
      }
    }
  }

  /** An email already on file gets the Google id linked: same row, same email, no new row; this never fails. */
  lemma LinkedByEmail(db: Db, g: GoogleUser, i: nat)
    requires forall k | 0 <= k < |db.users| :: db.users[k].googleId != g.id
    requires i < |db.users| && db.users[i].email == g.email
    requires UsersUnique(db)
    ensures var r := FindOrCreateUser(db, g);
      && r.Success?
      && r.value.0 == db.(users := db.users[i := r.value.1])
      && r.value.1.id == db.users[i].id && r.value.1.email == db.users[i].email
      && r.value.1.role == db.users[i].role
  {
    OthersDiffer(db, i);
  }

  /** An unknown account gets exactly one new row, with role `user`, and the `user` role when it exists. */
  lemma CreatedWhenUnknown(db: Db, g: GoogleUser)
    requires forall k | 0 <= k < |db.users| :: db.users[k].googleId != g.id && db.users[k].email != g.email
    ensures var r := FindOrCreateUser(db, g);
      && r.Success?
      && r.value.1 == NewUser(db, g) && r.value.1.role == NewUserRole
      && r.value.0.users == db.users + [r.value.1]
      && r.value.0.nextUserId == db.nextUserId + 1
      && r.value.0.roles == db.roles && r.value.0.rolePerms == db.rolePerms
      && r.value.0.userRoles ==
           db.userRoles + (if HasRoleNamed(db, NewUserRole) then {(db.nextUserId, RoleNamed(db, NewUserRole).value.id)} else {})
  {
  }

  /**
   * The only refusal: a returning account whose Google email has meanwhile become the
   * email of another row.
   */
  lemma FindOrCreateFailsOnlyOnEmailClash(db: Db, g: GoogleUser)
    requires UsersUnique(db)
    ensures FindOrCreateUser(db, g).Failure? <==>
      exists i, j | 0 <= i < |db.users| && 0 <= j < |db.users| ::
        i != j && db.users[i].googleId == g.id && db.users[j].email == g.email
  {
    match FirstWhere(db.users, (u: UserRow) => u.googleId == g.id)
    case Some(i) =>
      OthersDiffer(db, i);
    case None =>
      match FirstWhere(db.users, (u: UserRow) => u.email == g.email)
      case Some(i) =>
        OthersDiffer(db, i);
      case None =>
  }

  /** `findOrCreateUser` never produces two rows with the same Google id or the same email, and keeps ids ascending. */
  lemma FindOrCreateKeepsUnique(db: Db, g: GoogleUser)
    requires UsersUnique(db) && UserIdsOk(db)
    ensures var r := FindOrCreateUser(db, g);
      r.Success? ==> UsersUnique(r.value.0) && UserIdsOk(r.value.0)
  {
    var r := FindOrCreateUser(db, g);
    if r.Success? {
      var d := r.value.0;
      match FirstWhere(db.users, (u: UserRow) => u.googleId == g.id)
      case Some(i) =>
        UpdateKeepsUnique(db, i, r.value.1);
      case None =>
        match FirstWhere(db.users, (u: UserRow) => u.email == g.email)
        case Some(i) =>
          UpdateKeepsUnique(db, i, r.value.1);
        case None =>
          assert d.users == db.users + [NewUser(db, g)];
    }
  }

  /** Writing a row back in place, with its id and no clash, keeps both indexes unique and ids ascending. */
  lemma UpdateKeepsUnique(db: Db, i: nat, row: UserRow)
    requires UsersUnique(db) && UserIdsOk(db)
    requires i < |db.users| && row.id == db.users[i].id && !ClashesWithOthers(db, i, row)
    ensures UsersUnique(db.(users := db.users[i := row])) && UserIdsOk(db.(users := db.users[i := row]))
  {
    var d := db.(users := db.users[i := row]);
    forall a, b | 0 <= a < b < |d.users|
      ensures d.users[a].googleId != d.users[b].googleId && d.users[a].email != d.users[b].email
    {
      if a == i {
        assert db.users[b].googleId != row.googleId && db.users[b].email != row.email;
      } else if b == i {
        assert db.users[a].googleId != row.googleId && db.users[a].email != row.email;
      }
    }
  }

  /** Signing in again with the same account finds the row the first sign-in left and creates none. */
  lemma SecondLoginCreatesNothing(db: Db, g: GoogleUser)
    requires UsersUnique(db) && UserIdsOk(db)
    requires FindOrCreateUser(db, g).Success?
    ensures var (d1, u1) := FindOrCreateUser(db, g).value;
      var r2 := FindOrCreateUser(d1, g);
      && r2.Success?
      && r2.value.1 == u1
      && r2.value.0.users == d1.users
  {
    var (d1, u1) := FindOrCreateUser(db, g).value;
    FindOrCreateKeepsUnique(db, g);
    var i :| 0 <= i < |d1.users| && d1.users[i] == u1;
    OthersDiffer(d1, i);
    FindOrCreateFailsOnlyOnEmailClash(d1, g);
    assert d1.users[i := u1] == d1.users;
  }

  /** The permissions the tokens carry: the resolved list, or none when the lookup failed. */
  function LoginPermissions(db: Db, userID: nat, lookupFails: bool): (r: seq<string>)
    ensures lookupFails ==> r == []
    ensures !lookupFails ==> NoDups(r) && Elems(r) == PermissionSet(db, userID)
  {
    if lookupFails then [] else GetUserPermissions(db, userID)
  }

  /** The refresh session opened at sign-in: the user id in decimal, the email as user name, the `role` column. */
  function LoginSession(user: UserRow, permissions: seq<string>, now: int, userAgent: string, clientIp: string)
    : (s: RefreshStore.Session)
    ensures Decimal.Canonical(s.userID) && Decimal.ValueOf(s.userID) == user.id
    ensures s.username == user.email && s.role == user.role && s.permissions == permissions
  {
    RefreshStore.Session(Decimal.Format(user.id), user.email, user.role, permissions, now, userAgent, clientIp)
  }

  /** The conditions under which a sign-in answers 200. */
  predicate SignInSucceeds(db: Db, st: RefreshStore.Store, keys: TokenCodec.KeyState, body: Option<CallbackRequest>,
                           google: Grant -> Option<GoogleUser>, entropy: Option<seq<Base64Url.byte>>,
                           storeFaults: RefreshStore.StoreFaults)
  {
    && body.Some? && SelectGrant(body.value).Some? && google(SelectGrant(body.value).value).Some?
    && FindOrCreateUser(db, google(SelectGrant(body.value).value).value).Success?
    && keys.priv.Some? && entropy.Some? && st.connected && !storeFaults.setFails && !storeFaults.saddFails
  }

  /**
   * `GoogleCallback`: 400 for a body that does not bind or carries no grant; 401 when
   * Google refuses the grant; 500 when the user cannot be saved; a failed permission
   * lookup only empties the permission list; 500 when no pair can be issued (the user row
   * stays) or the session cannot be stored; otherwise 200 with both tokens, the access
   * lifetime, the token type and the user with its permissions, and the refresh cookie.
   */
  function GoogleCallback(db: Db, st: RefreshStore.Store, keys: TokenCodec.KeyState, cfg: AuthHandler.HandlerConfig,
                          body: Option<CallbackRequest>, google: Grant -> Option<GoogleUser>, lookupFails: bool,
                          entropy: Option<seq<Base64Url.byte>>, now: int, userAgent: string, clientIp: string,
                          storeFaults: RefreshStore.StoreFaults)
    : (r: (Db, RefreshStore.Store, LoginResponse))
    requires entropy.Some? ==> |entropy.value| == TokenCodec.RefreshTokenBytes
    ensures body.None? ==> r == (db, st, LoginResponse(400, LoginError("invalid request body"), AuthHandler.LeaveCookie))
    ensures body.Some? && SelectGrant(body.value).None? ==>
      r == (db, st, LoginResponse(400, LoginError("access_token or code required"), AuthHandler.LeaveCookie))
    ensures body.Some? && SelectGrant(body.value).Some? && google(SelectGrant(body.value).value).None? ==>
      r == (db, st, LoginResponse(401, LoginError("invalid Google credentials"), AuthHandler.LeaveCookie))
    ensures r.2.status == 200 <==> SignInSucceeds(db, st, keys, body, google, entropy, storeFaults)
    ensures r.2.status != 200 ==> r.2.cookie.LeaveCookie? && r.1.indexes == st.indexes && r.1.connected == st.connected
    ensures r.2.status != 200 && !(storeFaults.saddFails && !storeFaults.setFails) ==> r.1 == st
    ensures r.2.status == 200 ==>
      var (d, u) := FindOrCreateUser(db, google(SelectGrant(body.value).value).value).value;
      var perms := LoginPermissions(d, u.id, lookupFails);
      && r.0 == d
      && r.2.body.LoginOk?
      && r.2.body.user == UserView(u.id, u.email, u.name, u.picture, u.role, perms)
      && r.2.body.accessToken
         == TokenCodec.GenerateAccessToken(keys, Decimal.Format(u.id), u.email, u.role, perms, cfg.issuer,
                                           cfg.accessTokenExpiryMins, now).value
      && r.2.body.accessExpiresIn == cfg.accessTokenExpiryMins * TokenCodec.SecondsPerMinute
      && r.2.body.tokenType == "Bearer"
      && r.2.cookie == AuthHandler.SetCookie(r.2.body.refreshToken, AuthHandler.RefreshLifetime(cfg))
      && r.1.entries == st.entries[r.2.body.refreshToken :=
           RefreshStore.Entry(LoginSession(u, perms, now, userAgent, clientIp),
                              RefreshStore.SetTtl(AuthHandler.RefreshLifetime(cfg)))]
  {
    if body.None? then (db, st, LoginResponse(400, LoginError("invalid request body"), AuthHandler.LeaveCookie))
    else match SelectGrant(body.value)
      case None => (db, st, LoginResponse(400, LoginError("access_token or code required"), AuthHandler.LeaveCookie))
      case Some(grant) =>
        match google(grant)
        case None => (db, st, LoginResponse(401, LoginError("invalid Google credentials"), AuthHandler.LeaveCookie))
        case Some(g) =>
          match FindOrCreateUser(db, g)
          case Failure(_) => (db, st, LoginResponse(500, LoginError("failed to process user"), AuthHandler.LeaveCookie))
          case Success((d, user)) =>
            var perms := LoginPermissions(d, user.id, lookupFails);
            var userID := Decimal.Format(user.id);
            match TokenCodec.GenerateTokenPair(keys, entropy, userID, user.email, user.role, perms,
                                               cfg.issuer, cfg.accessTokenExpiryMins, cfg.refreshTokenExpiryDays, now)
            case Failure(_) => (d, st, LoginResponse(500, LoginError("failed to generate tokens"), AuthHandler.LeaveCookie))
            case Success(pair) =>
              var session := LoginSession(user, perms, now, userAgent, clientIp);
              var stored := RefreshStore.StoreRefreshToken(st, pair.refreshToken, session, AuthHandler.RefreshLifetime(cfg),
                                                           storeFaults);
              if stored.error.Some? then
                (d, stored.after, LoginResponse(500, LoginError("failed to create session"), AuthHandler.LeaveCookie))
              else
                var view := UserView(user.id, user.email, user.name, user.picture, user.role, perms);
                (d, stored.after, LoginResponse(200, LoginOk(pair.accessToken, pair.refreshToken, pair.accessExpiresIn,
                                                             pair.tokenType, view),
                                                AuthHandler.SetCookie(pair.refreshToken, AuthHandler.RefreshLifetime(cfg))))
  }

  /**
   * The access token and the stored session describe the same identity: the user id in
   * decimal (which parses back to the row's id), the email, the `role` column and the same
   * permission list.
   */
  lemma LoginSnapshotAgrees(db: Db, st: RefreshStore.Store, keys: TokenCodec.KeyState, cfg: AuthHandler.HandlerConfig,
                            body: Option<CallbackRequest>, google: Grant -> Option<GoogleUser>, lookupFails: bool,
                            entropy: Option<seq<Base64Url.byte>>, now: int, userAgent: string, clientIp: string,
                          storeFaults: RefreshStore.StoreFaults)
    requires entropy.Some? ==> |entropy.value| == TokenCodec.RefreshTokenBytes
    requires SignInSucceeds(db, st, keys, body, google, entropy, storeFaults)
    ensures var (d, st', resp) := GoogleCallback(db, st, keys, cfg, body, google, lookupFails, entropy, now, userAgent, clientIp, storeFaults);
      var claims := resp.body.accessToken.claims;
      var session := st'.entries[resp.body.refreshToken].session;
      && resp.body.accessToken.Signed?
      && claims.userID == session.userID == Decimal.Format(resp.body.user.id)
      && claims.username == session.username == resp.body.user.email
      && claims.role == session.role == resp.body.user.role
      && claims.permissions == session.permissions == resp.body.user.permissions
      && (resp.body.user.id < Decimal.Pow2(64) ==> Decimal.ParseUint(session.userID, 64) == Some(resp.body.user.id))
      && (lookupFails ==> claims.permissions == [])
  {
    var (d, st', resp) := GoogleCallback(db, st, keys, cfg, body, google, lookupFails, entropy, now, userAgent, clientIp, storeFaults);
    if resp.body.user.id < Decimal.Pow2(64) {
      Decimal.ParseFormat(resp.body.user.id, 64);
    }
  }

  /**
   * The cookie lasts the configured number of days; the session has that TTL when it is
   * positive and no expiry otherwise.
   */
  lemma LoginCookieLifetime(db: Db, st: RefreshStore.Store, keys: TokenCodec.KeyState, cfg: AuthHandler.HandlerConfig,
                            body: Option<CallbackRequest>, google: Grant -> Option<GoogleUser>, lookupFails: bool,
                            entropy: Option<seq<Base64Url.byte>>, now: int, userAgent: string, clientIp: string,
                          storeFaults: RefreshStore.StoreFaults)
    requires entropy.Some? ==> |entropy.value| == TokenCodec.RefreshTokenBytes
    requires SignInSucceeds(db, st, keys, body, google, entropy, storeFaults)
    ensures var (d, st', resp) := GoogleCallback(db, st, keys, cfg, body, google, lookupFails, entropy, now, userAgent, clientIp, storeFaults);
      && resp.cookie.value == resp.body.refreshToken
      && resp.cookie.maxAge == cfg.refreshTokenExpiryDays * 86400
      && (cfg.refreshTokenExpiryDays > 0 ==> st'.entries[resp.cookie.value].ttl == resp.cookie.maxAge)
      && (cfg.refreshTokenExpiryDays <= 0 ==> st'.entries[resp.cookie.value].ttl == RefreshStore.NoExpiry)
  {
    var r := GoogleCallback(db, st, keys, cfg, body, google, lookupFails, entropy, now, userAgent, clientIp, storeFaults);
    CookieTtlFacts(cfg, r.2.cookie, r.2.body.refreshToken, r.1.entries[r.2.body.refreshToken].ttl);
  }

  /** Arithmetic shared by the sign-in lifetime lemma: cookie max-age and store TTL both come from the configured days. */
  lemma CookieTtlFacts(cfg: AuthHandler.HandlerConfig, cookie: AuthHandler.CookieOp, token: string, ttl: int)
    requires cookie == AuthHandler.SetCookie(token, AuthHandler.RefreshLifetime(cfg))
    requires ttl == RefreshStore.SetTtl(AuthHandler.RefreshLifetime(cfg))
    ensures cookie.value == token && cookie.maxAge == cfg.refreshTokenExpiryDays * 86400
    ensures cfg.refreshTokenExpiryDays > 0 ==> ttl == cookie.maxAge
    ensures cfg.refreshTokenExpiryDays <= 0 ==> ttl == RefreshStore.NoExpiry
  {
  }

  /**
   * The refresh token a sign-in sets as cookie can be exchanged: a refresh presenting it
   * succeeds (given a key, entropy and a working store) and yields a pair for the same user.
   */
  lemma LoginThenRefresh(db: Db, st: RefreshStore.Store, keys: TokenCodec.KeyState, cfg: AuthHandler.HandlerConfig,
                         body: Option<CallbackRequest>, google: Grant -> Option<GoogleUser>, lookupFails: bool,
                         entropy: Option<seq<Base64Url.byte>>, now: int, userAgent: string, clientIp: string,
                         storeFaults: RefreshStore.StoreFaults, entropy2: Option<seq<Base64Url.byte>>, later: int)
    requires entropy.Some? ==> |entropy.value| == TokenCodec.RefreshTokenBytes
    requires entropy2.Some? && |entropy2.value| == TokenCodec.RefreshTokenBytes
    requires SignInSucceeds(db, st, keys, body, google, entropy, storeFaults)
    ensures var (d, st', resp) := GoogleCallback(db, st, keys, cfg, body, google, lookupFails, entropy, now, userAgent, clientIp, storeFaults);
      var req := AuthHandler.Request(Some(resp.cookie.value), None, "", userAgent, clientIp);
      var (st'', resp2) := AuthHandler.Refresh(st', keys, cfg, req, entropy2, later, AuthHandler.NoFaults);
      && resp2.status == 200
      && resp2.body.pair.accessToken.claims.userID == Decimal.Format(resp.body.user.id)
      && resp2.body.pair.accessToken.claims.permissions == resp.body.user.permissions
  {
    var (d, st', resp) := GoogleCallback(db, st, keys, cfg, body, google, lookupFails, entropy, now, userAgent, clientIp, storeFaults);
    TokenCodec.RefreshTokenShape(entropy.value);
    assert resp.cookie.value != "";
  }
}

=== FILE: migrate.dfy ===
/**
 * The migration run: schema migration (the only step whose failure is reported), then the
 * seed, then the back-fill that gives the `user` role to every user holding no role. The
 * seed and the back-fill report their failures to the log only.
 */
module Migrate {
  import opened Wrappers
  import opened Rbac

  datatype MigrateError = SchemaMigrationFailed

  /** The name of the role the back-fill assigns. */
  const DefaultRole: string := "user"

  /** Whether some `user_roles` row names the user. */
  predicate HasAnyRole(db: Db, userID: nat)
  {
    exists ur | ur in db.userRoles :: ur.0 == userID
  }

  /** The rows of `users` with no `user_roles` row, in table order. */
  function WithoutRoles(users: seq<UserRow>, userRoles: set<(nat, nat)>): (r: seq<UserRow>)
    ensures forall u :: u in r <==> u in users && forall ur | ur in userRoles :: ur.0 != u.id
  {
    if |users| == 0 then []
    else
      var rest := WithoutRoles(users[1..], userRoles);
      assert forall u :: u in users <==> u == users[0] || u in users[1..] by {
        assert users == [users[0]] + users[1..];
      }
      if forall ur | ur in userRoles :: ur.0 != users[0].id then [users[0]] + rest else rest
  }

  /** When every user has a role the query returns nothing. */
  lemma {:induction false} WithoutRolesEmpty(users: seq<UserRow>, userRoles: set<(nat, nat)>)
    requires forall u | u in users :: exists ur | ur in userRoles :: ur.0 == u.id
    ensures WithoutRoles(users, userRoles) == []
    decreases |users|
  {
    if |users| > 0 {
      assert users[0] in users;
      assert forall u | u in users[1..] :: u in users;
      WithoutRolesEmpty(users[1..], userRoles);
    }
  }

  /** `SELECT u.* FROM users u LEFT JOIN user_roles ur ... WHERE ur.user_id IS NULL`. */
  function UsersWithoutRoles(db: Db): (r: seq<UserRow>)
    ensures forall u :: u in r <==> u in db.users && !HasAnyRole(db, u.id)
  {
    WithoutRoles(db.users, db.userRoles)
  }

  /** The assignment rows that giving the role `rid` to each of `users` adds. */
  function AssignmentsOf(users: seq<UserRow>, rid: nat): set<(nat, nat)>
  {
    set u | u in users :: (u.id, rid)
  }

  /**
   * The back-fill loop: `AssignRoleToUser` for each user in turn, a failure logged and
   * skipped. Since the role is looked up by name each time and the role table does not
   * change, either every assignment succeeds (the role exists) or every one fails.
   */
  function AssignEach(db: Db, users: seq<UserRow>, roleName: string): (r: Db)
    ensures !HasRoleNamed(db, roleName) ==> r == db
    ensures HasRoleNamed(db, roleName) ==>
      r == db.(userRoles := db.userRoles + AssignmentsOf(users, RoleNamed(db, roleName).value.id))
    decreases |users|
  {
    if |users| == 0 then db
    else
      var d1 := match AssignRoleToUser(db, users[0].id, roleName)
        case Failure(_) => db
        case Success(d) => d;
      var r := AssignEach(d1, users[1..], roleName);
      assert forall u :: u in users <==> u == users[0] || u in users[1..] by {
        assert users == [users[0]] + users[1..];
      }
      r
  }

  /**
   * `assignDefaultRoleToExistingUsers`: the query runs once, before any assignment. Only
   * `user_roles` changes, and only by added rows; with the `user` role present every user
   * holds some role afterwards, and without it nothing changes.
   */
  function Backfill(db: Db): (r: Db)
    ensures r == db.(userRoles := r.userRoles)
    ensures db.userRoles <= r.userRoles
    ensures HasRoleNamed(db, DefaultRole) ==> forall u | u in db.users :: HasAnyRole(r, u.id)
    ensures !HasRoleNamed(db, DefaultRole) ==> r == db
  {
    var r := AssignEach(db, UsersWithoutRoles(db), DefaultRole);
    assert HasRoleNamed(db, DefaultRole) ==> forall u | u in db.users :: HasAnyRole(r, u.id) by {
      if HasRoleNamed(db, DefaultRole) {
        var rid := RoleNamed(db, DefaultRole).value.id;
        forall u | u in db.users
          ensures HasAnyRole(r, u.id)
        {
          if !HasAnyRole(db, u.id) {
            assert u in UsersWithoutRoles(db);
            assert (u.id, rid) in r.userRoles;
          } else {
            var ur :| ur in db.userRoles && ur.0 == u.id;
            assert ur in r.userRoles;
          }
        }
      }
    }
    r
  }

  /** `Migrate`: only a schema failure is an error; the seed and the back-fill always run after it. */
  function Migrate(db: Db, schemaOk: bool): (r: Result<Db, MigrateError>)
    ensures r.Failure? <==> !schemaOk
    ensures r.Success? ==> r.value == Backfill(Seed(db))
  {
    if !schemaOk then Failure(SchemaMigrationFailed)
    else Success(Backfill(Seed(db)))
  }

  /** A user who already held a role keeps exactly the roles they held. */
  lemma BackfillLeavesHolders(db: Db, userID: nat, rid: nat)
    requires HasAnyRole(db, userID)
    ensures (userID, rid) in Backfill(db).userRoles <==> (userID, rid) in db.userRoles
  {
    if HasRoleNamed(db, DefaultRole) {
      var rs := RoleNamed(db, DefaultRole).value.id;
      assert forall p | p in AssignmentsOf(UsersWithoutRoles(db), rs) :: p.0 != userID;
    }
  }

  /** A second back-fill finds nobody without a role (or no role to give) and changes nothing. */
  lemma BackfillIdempotent(db: Db)
    ensures Backfill(Backfill(db)) == Backfill(db)
  {
    var b := Backfill(db);
    if HasRoleNamed(db, DefaultRole) {
      WithoutRolesEmpty(b.users, b.userRoles);
    }
  }

  /** After a successful migration every user holds a role, since the seed creates `user`. */
  lemma MigrateGivesEveryoneARole(db: Db)
    ensures Migrate(db, true).Success?
    ensures forall u | u in Migrate(db, true).value.users :: HasAnyRole(Migrate(db, true).value, u.id)
  {
  }
}

=== FILE: rbac.dfy ===
/**
 * The relational model of role-based access control: the `permissions`, `roles` and `users`
 * tables (rows in primary-key order, so "the first match" is the row GORM's `First`
 * returns), and the `role_permissions` and `user_roles` join tables as sets of id pairs.
 * SQL joins become set comprehensions. `user_roles` has no foreign keys, so an assignment
 * may name any user id.
 */
module Rbac {
  import opened Wrappers

  datatype PermissionRow = PermissionRow(id: nat, name: string, description: string, resource: string, action: string)

  datatype RoleRow = RoleRow(id: nat, name: string, description: string, isSystem: bool)

  datatype UserRow = UserRow(id: nat, googleId: string, email: string, name: string, picture: string, role: string)

  /**
   * The database. `rolePerms` holds (role id, permission id) pairs and `userRoles`
   * (user id, role id) pairs; `next*` are the auto-increment counters.
   */
  datatype Db = Db(
    permissions: seq<PermissionRow>, roles: seq<RoleRow>, users: seq<UserRow>,
    rolePerms: set<(nat, nat)>, userRoles: set<(nat, nat)>,
    nextPermId: nat, nextRoleId: nat, nextUserId: nat)

  datatype DbError = RecordNotFound

  /** The position of the first row satisfying `f`. */
  function FirstWhere<T>(rows: seq<T>, f: T -> bool): (r: Option<nat>)
    ensures r.Some? ==> r.value < |rows| && f(rows[r.value]) && forall j | 0 <= j < r.value :: !f(rows[j])
    ensures r.None? ==> forall j | 0 <= j < |rows| :: !f(rows[j])
  {
    if |rows| == 0 then None
    else if f(rows[0]) then Some(0)
    else match FirstWhere(rows[1..], f)
      case None => None
      case Some(k) => Some(k + 1)
  }

  /** `WHERE name = ? ... First`: the role of that name, if any. */
  function RoleNamed(db: Db, name: string): (r: Option<RoleRow>)
    ensures r.Some? ==> r.value in db.roles && r.value.name == name
    ensures r.None? <==> forall j | 0 <= j < |db.roles| :: db.roles[j].name != name
  {
    match FirstWhere(db.roles, (x: RoleRow) => x.name == name)
    case None => None
    case Some(i) => Some(db.roles[i])
  }

  /** `First(&role, id)`: the first row in table order with that primary key, if any. */
  function RoleWithId(db: Db, id: nat): (r: Option<RoleRow>)
    ensures r.Some? ==> r.value in db.roles && r.value.id == id
    ensures r.Some? ==> exists i | 0 <= i < |db.roles| :: db.roles[i] == r.value && forall j | 0 <= j < i :: db.roles[j].id != id
    ensures r.None? <==> forall j | 0 <= j < |db.roles| :: db.roles[j].id != id
  {
    match FirstWhere(db.roles, (x: RoleRow) => x.id == id)
    case None => None
    case Some(i) => Some(db.roles[i])
  }

  predicate HasPermissionNamed(db: Db, name: string)
  {
    exists j | 0 <= j < |db.permissions| :: db.permissions[j].name == name
  }

  predicate HasRoleNamed(db: Db, name: string)
  {
    exists j | 0 <= j < |db.roles| :: db.roles[j].name == name
  }

  /** Permission ids ascend in table order and stay below their counter. */
  predicate PermIdsOk(db: Db)
  {
    && (forall i, j | 0 <= i < j < |db.permissions| :: db.permissions[i].id < db.permissions[j].id)
    && (forall i | 0 <= i < |db.permissions| :: db.permissions[i].id < db.nextPermId)
  }

  /** Role ids ascend in table order and stay below their counter. */
  predicate RoleIdsOk(db: Db)
  {
    && (forall i, j | 0 <= i < j < |db.roles| :: db.roles[i].id < db.roles[j].id)
    && (forall i | 0 <= i < |db.roles| :: db.roles[i].id < db.nextRoleId)
  }

  /** User ids ascend in table order and stay below their counter. */
  predicate UserIdsOk(db: Db)
  {
    && (forall i, j | 0 <= i < j < |db.users| :: db.users[i].id < db.users[j].id)
    && (forall i | 0 <= i < |db.users| :: db.users[i].id < db.nextUserId)
  }

  /** No permission link names a role id the counter has not yet handed out. */
  predicate LinksBelow(db: Db)
  {
    forall rp | rp in db.rolePerms :: rp.0 < db.nextRoleId
  }

  /** Well-formedness: auto-increment keys behave as auto-increment keys do. */
  predicate Wf(db: Db)
  {
    PermIdsOk(db) && RoleIdsOk(db) && UserIdsOk(db) && LinksBelow(db)
  }

  /** The three-way join: some role of `userID` is linked to permission `permId`. */
  predicate Granted(db: Db, userID: nat, permId: nat)
  {
    exists rp | rp in db.rolePerms :: rp.1 == permId && (userID, rp.0) in db.userRoles
  }

  /** `SELECT DISTINCT p.name ...`: the names of the permissions granted to the user. */
  function PermissionSet(db: Db, userID: nat): set<string>
  {
    set p | p in db.permissions && Granted(db, userID, p.id) :: p.name
  }

  /** The names of the permissions linked to one role. */
  function RolePermissionNames(db: Db, roleId: nat): set<string>
  {
    set p | p in db.permissions && (roleId, p.id) in db.rolePerms :: p.name
  }

  /**
   * The distinct names of the granted permissions among `rows`, in row order; the
   * reader of the `DISTINCT` query result.
   */
  function GrantedNames(db: Db, userID: nat, rows: seq<PermissionRow>): (r: seq<string>)
    ensures NoDups(r)
    ensures Elems(r) == set p | p in rows && Granted(db, userID, p.id) :: p.name
  {
    if |rows| == 0 then []
    else
      var init := rows[..|rows| - 1];
      var last := rows[|rows| - 1];
      var rest := GrantedNames(db, userID, init);
      assert forall p :: p in rows <==> p in init || p == last by {
        assert rows == init + [last];
      }
      if Granted(db, userID, last.id) && last.name !in Elems(rest) then
        ElemsSnoc(rest, last.name);
        rest + [last.name]
      else rest
  }

  /** `GetUserPermissions`: the duplicate-free list of the user's permission names. */
  function GetUserPermissions(db: Db, userID: nat): (r: seq<string>)
    ensures NoDups(r) && Elems(r) == PermissionSet(db, userID)
  {
    GrantedNames(db, userID, db.permissions)
  }

  /** Permission resolution is the union, over the user's roles, of each role's permissions. */
  lemma PermissionsAreUnion(db: Db, userID: nat, name: string)
    ensures name in PermissionSet(db, userID) <==>
      exists rp | rp in db.rolePerms :: (userID, rp.0) in db.userRoles && name in RolePermissionNames(db, rp.0)
  {
    if name in PermissionSet(db, userID) {
      var p :| p in db.permissions && Granted(db, userID, p.id) && p.name == name;
      var rp :| rp in db.rolePerms && rp.1 == p.id && (userID, rp.0) in db.userRoles;
      assert (rp.0, p.id) == rp;
      assert name in RolePermissionNames(db, rp.0);
    }
    if exists rp | rp in db.rolePerms :: (userID, rp.0) in db.userRoles && name in RolePermissionNames(db, rp.0) {
      var rp :| rp in db.rolePerms && (userID, rp.0) in db.userRoles && name in RolePermissionNames(db, rp.0);
      var p :| p in db.permissions && (rp.0, p.id) in db.rolePerms && p.name == name;
      assert Granted(db, userID, p.id);
    }
  }

  /** A user with no role has no permission. */
  lemma NoRolesNoPermissions(db: Db, userID: nat)
    requires forall ur | ur in db.userRoles :: ur.0 != userID
    ensures GetUserPermissions(db, userID) == []
  {
    ElemsEmpty(GetUserPermissions(db, userID));
  }

  /** The join rows `HasPermission` counts: (permission position, role_permissions row). */
  function MatchingJoinRows(db: Db, userID: nat, name: string): set<(nat, (nat, nat))>
  {
    set i, rp | 0 <= i < |db.permissions| && rp in db.rolePerms
                && rp.1 == db.permissions[i].id && db.permissions[i].name == name
                && (userID, rp.0) in db.userRoles :: (i, rp)
  }

  /** `HasPermission`: the count of matching join rows is positive. */
  function HasPermission(db: Db, userID: nat, name: string): bool
  {
    |MatchingJoinRows(db, userID, name)| > 0
  }

  /** `HasPermission` agrees with `GetUserPermissions`. */
  lemma HasPermissionIff(db: Db, userID: nat, name: string)
    ensures HasPermission(db, userID, name) <==> name in GetUserPermissions(db, userID)
  {
    var perms := GetUserPermissions(db, userID);
    assert name in perms <==> name in Elems(perms);
    if HasPermission(db, userID, name) {
      var x :| x in MatchingJoinRows(db, userID, name);
      var p := db.permissions[x.0];
      assert p in db.permissions && Granted(db, userID, p.id);
    }
    if name in perms {
      var p :| p in db.permissions && Granted(db, userID, p.id) && p.name == name;
      var i :| 0 <= i < |db.permissions| && db.permissions[i] == p;
      var rp :| rp in db.rolePerms && rp.1 == p.id && (userID, rp.0) in db.userRoles;
      assert (i, rp) in MatchingJoinRows(db, userID, name);
    }
  }

  /** The user's roles, in table order (the join has no `ORDER BY`). */
  function RolesAmong(rows: seq<RoleRow>, userRoles: set<(nat, nat)>, userID: nat): (r: seq<RoleRow>)
    ensures forall x :: x in r <==> x in rows && (userID, x.id) in userRoles
  {
    if |rows| == 0 then []
    else
      var rest := RolesAmong(rows[1..], userRoles, userID);
      assert forall x :: x in rows <==> x == rows[0] || x in rows[1..] by {
        assert rows == [rows[0]] + rows[1..];
      }
      if (userID, rows[0].id) in userRoles then [rows[0]] + rest else rest
  }

  /** `GetUserRoles`: every role row joined to one of the user's assignments. */
  function GetUserRoles(db: Db, userID: nat): (r: seq<RoleRow>)
    ensures forall x :: x in r <==> x in db.roles && (userID, x.id) in db.userRoles
  {
    RolesAmong(db.roles, db.userRoles, userID)
  }

  /**
   * `AssignRoleToUser`: look the role up by name (an unknown name is an error), then
   * insert the (user, role) row unless it is already there.
   */
  function AssignRoleToUser(db: Db, userID: nat, roleName: string): (r: Result<Db, DbError>)
    ensures r.Failure? <==> !HasRoleNamed(db, roleName)
    ensures r.Success? ==>
      && RoleNamed(db, roleName).Some?
      && r.value == db.(userRoles := db.userRoles + {(userID, RoleNamed(db, roleName).value.id)})
  {
    match RoleNamed(db, roleName)
    case None => Failure(RecordNotFound)
    case Some(role) => Success(db.(userRoles := db.userRoles + {(userID, role.id)}))
  }

  /** `RemoveRoleFromUser`: look the role up by name, then delete that one (user, role) row. */
  function RemoveRoleFromUser(db: Db, userID: nat, roleName: string): (r: Result<Db, DbError>)
    ensures r.Failure? <==> !HasRoleNamed(db, roleName)
    ensures r.Success? ==>
      && RoleNamed(db, roleName).Some?
      && r.value == db.(userRoles := db.userRoles - {(userID, RoleNamed(db, roleName).value.id)})
  {
    match RoleNamed(db, roleName)
    case None => Failure(RecordNotFound)
    case Some(role) => Success(db.(userRoles := db.userRoles - {(userID, role.id)}))
  }

  /** Assigning a role the user already holds changes nothing, so assigning twice is assigning once. */
  lemma AssignIdempotent(db: Db, userID: nat, roleName: string)
    requires AssignRoleToUser(db, userID, roleName).Success?
    ensures var d1 := AssignRoleToUser(db, userID, roleName).value;
      AssignRoleToUser(d1, userID, roleName) == Success(d1)
  {
  }

  /** After an assignment the user holds every permission linked to the role. */
  lemma AssignGrants(db: Db, userID: nat, roleName: string, name: string)
    requires AssignRoleToUser(db, userID, roleName).Success?
    requires name in RolePermissionNames(db, RoleNamed(db, roleName).value.id)
    ensures name in GetUserPermissions(AssignRoleToUser(db, userID, roleName).value, userID)
  {
    var d1 := AssignRoleToUser(db, userID, roleName).value;
    var rid := RoleNamed(db, roleName).value.id;
    var p :| p in db.permissions && (rid, p.id) in db.rolePerms && p.name == name;
    assert Granted(d1, userID, p.id) by {
      assert (rid, p.id) in d1.rolePerms && (userID, (rid, p.id).0) in d1.userRoles;
    }
    assert name in PermissionSet(d1, userID);
    var r := GetUserPermissions(d1, userID);
    assert name in Elems(r);
  }

  /** Removal touches only the one pair: every other user's and every other role's rows stay. */
  lemma RemoveOnlyThatPair(db: Db, userID: nat, roleName: string, u: nat, rid: nat)
    requires RemoveRoleFromUser(db, userID, roleName).Success?
    requires u != userID || rid != RoleNamed(db, roleName).value.id
    ensures (u, rid) in RemoveRoleFromUser(db, userID, roleName).value.userRoles <==> (u, rid) in db.userRoles
  {
  }

  /** Removing a role just assigned restores the assignments when the user did not hold it before. */
  lemma RemoveUndoesAssign(db: Db, userID: nat, roleName: string)
    requires AssignRoleToUser(db, userID, roleName).Success?
    requires (userID, RoleNamed(db, roleName).value.id) !in db.userRoles
    ensures RemoveRoleFromUser(AssignRoleToUser(db, userID, roleName).value, userID, roleName) == Success(db)
  {
    var d1 := AssignRoleToUser(db, userID, roleName).value;
    assert d1.roles == db.roles;
    assert d1.userRoles - {(userID, RoleNamed(db, roleName).value.id)} == db.userRoles;
  }

  /** A catalogue entry of the seed: the permission's fields without its id. */
  datatype PermissionSeed = PermissionSeed(name: string, description: string, resource: string, action: string)

  const PingPermissions: seq<PermissionSeed> := [
    PermissionSeed("ping:read", "Can ping the API", "ping", "read")
  ]

  const NewsPermissions: seq<PermissionSeed> := [
    PermissionSeed("news:read", "Can read news articles", "news", "read"),
    PermissionSeed("news:create", "Can create news articles", "news", "create"),
    PermissionSeed("news:update", "Can update news articles", "news", "update"),
    PermissionSeed("news:delete", "Can delete news articles", "news", "delete")
  ]

  const UserManagementPermissions: seq<PermissionSeed> := [
    PermissionSeed("users:read", "Can view users", "users", "read"),
    PermissionSeed("users:update", "Can update users", "users", "update"),
    PermissionSeed("users:delete", "Can delete users", "users", "delete"),
    PermissionSeed("users:manage_roles", "Can manage user roles", "users", "manage_roles")
  ]

  const RoleManagementPermissions: seq<PermissionSeed> := [
    PermissionSeed("roles:read", "Can view roles", "roles", "read"),
    PermissionSeed("roles:create", "Can create roles", "roles", "create"),
    PermissionSeed("roles:update", "Can update roles", "roles", "update"),
    PermissionSeed("roles:delete", "Can delete roles", "roles", "delete")
  ]

  /** The thirteen default permissions, in insertion order. */
  const Catalog: seq<PermissionSeed> :=
    PingPermissions + NewsPermissions + UserManagementPermissions + RoleManagementPermissions

  function CatalogNameSet(): set<string>
  {
    set k | 0 <= k < |Catalog| :: Catalog[k].name
  }

  const UserPermissionNames: set<string> := {"ping:read", "news:read"}
  const EditorPermissionNames: set<string> := {"ping:read", "news:read", "news:create", "news:update"}

  predicate WellNamed(p: PermissionSeed)
  {
    p.name == p.resource + ":" + p.action
  }

  predicate AllWellNamed(seeds: seq<PermissionSeed>)
  {
    forall k | 0 <= k < |seeds| :: WellNamed(seeds[k])
  }

  lemma WellNamedConcat(a: seq<PermissionSeed>, b: seq<PermissionSeed>)
    requires AllWellNamed(a) && AllWellNamed(b)
    ensures AllWellNamed(a + b)
  {
    forall k | 0 <= k < |a + b|
      ensures WellNamed((a + b)[k])
    {
      if k >= |a| {
        assert (a + b)[k] == b[k - |a|];
      }
    }
  }

  lemma PingNames()
    ensures AllWellNamed(PingPermissions)
  {
    assert WellNamed(PingPermissions[0]);
  }

  lemma NewsNames()
    ensures AllWellNamed(NewsPermissions)
  {
    var n := NewsPermissions;
    assert WellNamed(n[0]) && WellNamed(n[1]) && WellNamed(n[2]) && WellNamed(n[3]);
  }

  lemma UserManagementNames()
    ensures AllWellNamed(UserManagementPermissions)
  {
    var u := UserManagementPermissions;
    assert WellNamed(u[0]) && WellNamed(u[1]) && WellNamed(u[2]) && WellNamed(u[3]);
  }

  lemma RoleManagementNames()
    ensures AllWellNamed(RoleManagementPermissions)
  {
    var r := RoleManagementPermissions;
    assert WellNamed(r[0]) && WellNamed(r[1]) && WellNamed(r[2]) && WellNamed(r[3]);
  }

  /** Every catalogue name is `resource:action`. */
  lemma CatalogNames()
    ensures AllWellNamed(Catalog)
  {
    var p, n, u, r := PingPermissions, NewsPermissions, UserManagementPermissions, RoleManagementPermissions;
    PingNames();
    NewsNames();
    UserManagementNames();
    RoleManagementNames();
    WellNamedConcat(p, n);
    WellNamedConcat(p + n, u);
    WellNamedConcat(p + n + u, r);
  }

  /** The names in the permissions table. */
  function PermissionNames(db: Db): set<string>
  {
    set p | p in db.permissions :: p.name
  }

  /** The names a seed list carries. */
  function SeedNames(seeds: seq<PermissionSeed>): set<string>
  {
    set k | 0 <= k < |seeds| :: seeds[k].name
  }

  lemma HasPermissionNamedIff(db: Db, name: string)
    ensures HasPermissionNamed(db, name) <==> name in PermissionNames(db)
  {
    if name in PermissionNames(db) {
      var p :| p in db.permissions && p.name == name;
      var j :| 0 <= j < |db.permissions| && db.permissions[j] == p;
    }
  }

  /** `FirstOrCreate` by name: insert the permission with the next id unless its name exists. */
  function SeedPermission(db: Db, s: PermissionSeed): (r: Db)
    ensures PermissionNames(r) == PermissionNames(db) + {s.name}
    ensures HasPermissionNamed(db, s.name) ==> r == db
    ensures !HasPermissionNamed(db, s.name) ==>
      r == db.(permissions := db.permissions + [PermissionRow(db.nextPermId, s.name, s.description, s.resource, s.action)],
               nextPermId := db.nextPermId + 1)
  {
    HasPermissionNamedIff(db, s.name);
    if HasPermissionNamed(db, s.name) then db
    else
      var row := PermissionRow(db.nextPermId, s.name, s.description, s.resource, s.action);
      var r := db.(permissions := db.permissions + [row], nextPermId := db.nextPermId + 1);
      assert forall p :: p in r.permissions <==> p in db.permissions || p == row;
      r
  }

  /**
   * The permission loop of the seed: only the permissions table and its counter change,
   * the table only grows, and afterwards every seeded name is present.
   */
  function SeedPermissions(db: Db, seeds: seq<PermissionSeed>): (r: Db)
    ensures r.roles == db.roles && r.users == db.users && r.rolePerms == db.rolePerms
    ensures r.userRoles == db.userRoles && r.nextRoleId == db.nextRoleId && r.nextUserId == db.nextUserId
    ensures db.permissions <= r.permissions
    ensures PermissionNames(r) == PermissionNames(db) + SeedNames(seeds)
    decreases |seeds|
  {
    if |seeds| == 0 then db
    else
      var d1 := SeedPermission(db, seeds[0]);
      var r := SeedPermissions(d1, seeds[1..]);
      assert SeedNames(seeds) == {seeds[0].name} + SeedNames(seeds[1..]) by {
        forall n | n in SeedNames(seeds)
          ensures n in {seeds[0].name} + SeedNames(seeds[1..])
        {
          var k :| 0 <= k < |seeds| && seeds[k].name == n;
          if k > 0 {
            assert seeds[1..][k - 1] == seeds[k];
          }
        }
        forall n | n in SeedNames(seeds[1..])
          ensures n in SeedNames(seeds)
        {
          var k :| 0 <= k < |seeds[1..]| && seeds[1..][k].name == n;
          assert seeds[k + 1] == seeds[1..][k];
        }
      }
      r
  }

  /** Inserting seed permissions keeps the primary keys ascending and below the counter. */
  lemma {:induction false} SeedPermissionsWf(db: Db, seeds: seq<PermissionSeed>)
    requires PermIdsOk(db)
    ensures PermIdsOk(SeedPermissions(db, seeds))
    ensures SeedPermissions(db, seeds).nextPermId >= db.nextPermId
    decreases |seeds|
  {
    if |seeds| > 0 {
      var d1 := SeedPermission(db, seeds[0]);
      assert PermIdsOk(d1);
      SeedPermissionsWf(d1, seeds[1..]);
    }
  }

  /** The ids of the permissions whose names are in `names`. */
  function IdsNamed(db: Db, names: set<string>): set<nat>
  {
    set p | p in db.permissions && p.name in names :: p.id
  }

  /** The ids of every permission. */
  function AllIds(db: Db): set<nat>
  {
    set p | p in db.permissions :: p.id
  }

  /** The names of the permissions whose ids are in `ids`. */
  function NamesOfIds(db: Db, ids: set<nat>): set<string>
  {
    set p | p in db.permissions && p.id in ids :: p.name
  }

  /** With distinct primary keys, selecting ids by name and reading their names back gives those names that exist. */
  lemma NamesOfIdsNamed(db: Db, names: set<string>)
    requires PermIdsOk(db)
    ensures NamesOfIds(db, IdsNamed(db, names)) == names * PermissionNames(db)
  {
    forall n | n in NamesOfIds(db, IdsNamed(db, names))
      ensures n in names
    {
      var p :| p in db.permissions && p.id in IdsNamed(db, names) && p.name == n;
      var q :| q in db.permissions && q.name in names && q.id == p.id;
      var i :| 0 <= i < |db.permissions| && db.permissions[i] == p;
      var j :| 0 <= j < |db.permissions| && db.permissions[j] == q;
      assert i == j;
    }
  }

  lemma NamesOfAllIds(db: Db)
    ensures NamesOfIds(db, AllIds(db)) == PermissionNames(db)
  {
  }

  /**
   * Create a role with its permission links unless a role of that name exists. Afterwards
   * the name is present, nothing that existed before is altered, and a newly created role
   * takes the next id and is linked to exactly the permissions with the given ids.
   */
  function CreateRoleIfMissing(db: Db, name: string, description: string, isSystem: bool, permIds: set<nat>): (r: Db)
    ensures HasRoleNamed(r, name)
    ensures HasRoleNamed(db, name) ==> r == db
    ensures r.permissions == db.permissions && r.users == db.users && r.userRoles == db.userRoles
    ensures db.roles <= r.roles
    ensures forall rid, pid | rid < db.nextRoleId :: (rid, pid) in r.rolePerms <==> (rid, pid) in db.rolePerms
    ensures !HasRoleNamed(db, name) ==>
      && |r.roles| == |db.roles| + 1
      && r.roles[|db.roles|] == RoleRow(db.nextRoleId, name, description, isSystem)
      && r.nextRoleId == db.nextRoleId + 1
    ensures !HasRoleNamed(db, name) && LinksBelow(db) ==>
      RolePermissionNames(r, db.nextRoleId) == NamesOfIds(db, permIds)
  {
    if HasRoleNamed(db, name) then db
    else
      var row := RoleRow(db.nextRoleId, name, description, isSystem);
      var r := db.(roles := db.roles + [row],
                   rolePerms := db.rolePerms + (set p | p in permIds :: (db.nextRoleId, p)),
                   nextRoleId := db.nextRoleId + 1);
      assert r.roles[|db.roles|] == row;
      r
  }

  /** Creating a role keeps the database well formed. */
  lemma CreateRoleWf(db: Db, name: string, description: string, isSystem: bool, permIds: set<nat>)
    requires Wf(db)
    ensures Wf(CreateRoleIfMissing(db, name, description, isSystem, permIds))
  {
    var r := CreateRoleIfMissing(db, name, description, isSystem, permIds);
    assert RoleIdsOk(r);
    assert LinksBelow(r);
  }

  /** A later role creation leaves the links of a role created earlier unchanged. */
  lemma CreateRoleKeepsLinks(db: Db, name: string, description: string, isSystem: bool, permIds: set<nat>, rid: nat)
    requires rid < db.nextRoleId
    ensures RolePermissionNames(CreateRoleIfMissing(db, name, description, isSystem, permIds), rid)
            == RolePermissionNames(db, rid)
  {
  }

  const AdminDescription: string := "Administrator with full access"
  const UserDescription: string := "Regular user with basic access"
  const EditorDescription: string := "Editor with news management access"

  /**
   * The role half of the seed: admin (every permission present), user and editor, each
   * created only if no role of its name exists. The three id sets are read from `d1`,
   * before any role is created.
   */
  function SeedRoles(d1: Db): Db
  {
    var allPerms := AllIds(d1);
    var userPerms := IdsNamed(d1, UserPermissionNames);
    var editorPerms := IdsNamed(d1, EditorPermissionNames);
    var d2 := CreateRoleIfMissing(d1, "admin", AdminDescription, true, allPerms);
    var d3 := CreateRoleIfMissing(d2, "user", UserDescription, true, userPerms);
    CreateRoleIfMissing(d3, "editor", EditorDescription, false, editorPerms)
  }

  /** The seed with a given permission list; the service seeds with `Catalog`. */
  function SeedWith(db: Db, seeds: seq<PermissionSeed>): Db
  {
    SeedRoles(SeedPermissions(db, seeds))
  }

  /**
   * `SeedDefaultRolesAndPermissions`: the permissions, then admin (every permission present
   * once the permissions are seeded), user and editor, each created only if no role of its
   * name exists. The three permission lists are read before any role is created.
   * Afterwards the three roles and every catalogue name are present, nothing that existed
   * is modified, and a well-formed database stays well formed.
   */
  function Seed(db: Db): (r: Db)
    ensures HasRoleNamed(r, "admin") && HasRoleNamed(r, "user") && HasRoleNamed(r, "editor")
    ensures PermissionNames(r) == PermissionNames(db) + SeedNames(Catalog)
    ensures db.permissions <= r.permissions && db.roles <= r.roles
    ensures r.users == db.users && r.userRoles == db.userRoles
    ensures Wf(db) ==> Wf(r)
  {
    SeedDefaultsPresent(db, Catalog);
    SeedKeeps(db, Catalog);
    if Wf(db) then SeedWf(db, Catalog); SeedWith(db, Catalog)
    else SeedWith(db, Catalog)
  }

  /** A role name present before a growth of the role table is present after it. */
  lemma RoleNamePersists(db: Db, r: Db, name: string)
    requires HasRoleNamed(db, name)
    requires db.roles <= r.roles
    ensures HasRoleNamed(r, name)
  {
    var j :| 0 <= j < |db.roles| && db.roles[j].name == name;
    assert r.roles[j] == db.roles[j];
  }

  /** Seeding keeps the database well formed. */
  lemma SeedWf(db: Db, seeds: seq<PermissionSeed>)
    requires Wf(db)
    ensures Wf(SeedWith(db, seeds))
  {
    var d1 := SeedPermissions(db, seeds);
    SeedPermissionsWf(db, seeds);
    var d2 := CreateRoleIfMissing(d1, "admin", AdminDescription, true, AllIds(d1));
    CreateRoleWf(d1, "admin", AdminDescription, true, AllIds(d1));
    var d3 := CreateRoleIfMissing(d2, "user", UserDescription, true, IdsNamed(d1, UserPermissionNames));
    CreateRoleWf(d2, "user", UserDescription, true, IdsNamed(d1, UserPermissionNames));
    CreateRoleWf(d3, "editor", EditorDescription, false, IdsNamed(d1, EditorPermissionNames));
  }

  /** After seeding the admin, user and editor roles exist. */
  lemma SeedDefaultsPresent(db: Db, seeds: seq<PermissionSeed>)
    ensures var s := SeedWith(db, seeds);
      HasRoleNamed(s, "admin") && HasRoleNamed(s, "user") && HasRoleNamed(s, "editor")
  {
    var d1 := SeedPermissions(db, seeds);
    var d2 := CreateRoleIfMissing(d1, "admin", AdminDescription, true, AllIds(d1));
    var d3 := CreateRoleIfMissing(d2, "user", UserDescription, true, IdsNamed(d1, UserPermissionNames));
    var d4 := CreateRoleIfMissing(d3, "editor", EditorDescription, false, IdsNamed(d1, EditorPermissionNames));
    RoleNamePersists(d2, d4, "admin");
    RoleNamePersists(d3, d4, "user");
  }

  /**
   * Seeding never modifies what is there: existing rows keep their positions and contents,
   * existing roles keep their links, and the seeded names join the permission names.
   */
  lemma SeedKeeps(db: Db, seeds: seq<PermissionSeed>)
    ensures var s := SeedWith(db, seeds);
      && PermissionNames(s) == PermissionNames(db) + SeedNames(seeds)
      && db.permissions <= s.permissions && db.roles <= s.roles
      && s.users == db.users && s.userRoles == db.userRoles
      && (forall rid, pid | rid < db.nextRoleId :: (rid, pid) in s.rolePerms <==> (rid, pid) in db.rolePerms)
  {
    var d1 := SeedPermissions(db, seeds);
    var d2 := CreateRoleIfMissing(d1, "admin", AdminDescription, true, AllIds(d1));
    var d3 := CreateRoleIfMissing(d2, "user", UserDescription, true, IdsNamed(d1, UserPermissionNames));
  }

  /** When every seeded name and every default role already exists, the seed changes nothing. */
  lemma {:induction false} SeedPermissionsNoop(db: Db, seeds: seq<PermissionSeed>)
    requires SeedNames(seeds) <= PermissionNames(db)
    ensures SeedPermissions(db, seeds) == db
    decreases |seeds|
  {
    if |seeds| > 0 {
      assert seeds[0].name in SeedNames(seeds);
      HasPermissionNamedIff(db, seeds[0].name);
      assert SeedNames(seeds[1..]) <= SeedNames(seeds) by {
        forall n | n in SeedNames(seeds[1..])
          ensures n in SeedNames(seeds)
        {
          var k :| 0 <= k < |seeds[1..]| && seeds[1..][k].name == n;
          assert seeds[k + 1] == seeds[1..][k];
        }
      }
      SeedPermissionsNoop(db, seeds[1..]);
    }
  }

  /** Seeding twice is seeding once: the second run finds every name and inserts nothing. */
  lemma SeedWithIdempotent(db: Db, seeds: seq<PermissionSeed>)
    ensures SeedWith(SeedWith(db, seeds), seeds) == SeedWith(db, seeds)
  {
    var s := SeedWith(db, seeds);
    SeedDefaultsPresent(db, seeds);
    SeedKeeps(db, seeds);
    SeedPermissionsNoop(s, seeds);
  }

  /** The service's seed is idempotent. */
  lemma SeedIdempotent(db: Db)
    ensures Seed(Seed(db)) == Seed(db)
  {
    SeedWithIdempotent(db, Catalog);
  }

  /** The empty database with fresh counters. */
  const EmptyDb: Db := Db([], [], [], {}, {}, 1, 1, 1)

  /**
   * Three roles of distinct names created in turn on an empty role table get consecutive
   * ids, and each is linked to exactly the permissions whose ids it was given.
   */
  lemma CreateThreeRoles(d: Db, n1: string, s1: bool, ids1: set<nat>, n2: string, s2: bool, ids2: set<nat>,
                         n3: string, s3: bool, ids3: set<nat>, desc1: string, desc2: string, desc3: string)
    requires LinksBelow(d) && d.roles == [] && n1 != n2 && n1 != n3 && n2 != n3
    ensures var r := CreateRoleIfMissing(CreateRoleIfMissing(CreateRoleIfMissing(
                       d, n1, desc1, s1, ids1), n2, desc2, s2, ids2), n3, desc3, s3, ids3);
      && r.roles == [RoleRow(d.nextRoleId, n1, desc1, s1), RoleRow(d.nextRoleId + 1, n2, desc2, s2),
                     RoleRow(d.nextRoleId + 2, n3, desc3, s3)]
      && RolePermissionNames(r, d.nextRoleId) == NamesOfIds(d, ids1)
      && RolePermissionNames(r, d.nextRoleId + 1) == NamesOfIds(d, ids2)
      && RolePermissionNames(r, d.nextRoleId + 2) == NamesOfIds(d, ids3)
  {
    var r1 := CreateRoleIfMissing(d, n1, desc1, s1, ids1);
    assert !HasRoleNamed(r1, n2) by {
      assert r1.roles == [RoleRow(d.nextRoleId, n1, desc1, s1)];
    }
    var r2 := CreateRoleIfMissing(r1, n2, desc2, s2, ids2);
    CreateRoleKeepsLinks(r1, n2, desc2, s2, ids2, d.nextRoleId);
    assert !HasRoleNamed(r2, n3) by {
      assert r2.roles == [RoleRow(d.nextRoleId, n1, desc1, s1), RoleRow(d.nextRoleId + 1, n2, desc2, s2)];
    }
    CreateRoleKeepsLinks(r2, n3, desc3, s3, ids3, d.nextRoleId);
    CreateRoleKeepsLinks(r2, n3, desc3, s3, ids3, d.nextRoleId + 1);
  }

  /**
   * The role half of the seed on a table with no roles: admin, user and editor get
   * consecutive ids, admin is linked to every permission, user and editor to those of
   * their names that exist.
   */
  lemma SeedRolesOnEmptyRoles(d1: Db)
    requires PermIdsOk(d1) && LinksBelow(d1) && d1.roles == []
    ensures var s := SeedRoles(d1);
      && s.roles == [RoleRow(d1.nextRoleId, "admin", AdminDescription, true),
                     RoleRow(d1.nextRoleId + 1, "user", UserDescription, true),
                     RoleRow(d1.nextRoleId + 2, "editor", EditorDescription, false)]
      && RolePermissionNames(s, d1.nextRoleId) == PermissionNames(d1)
      && RolePermissionNames(s, d1.nextRoleId + 1) == UserPermissionNames * PermissionNames(d1)
      && RolePermissionNames(s, d1.nextRoleId + 2) == EditorPermissionNames * PermissionNames(d1)
  {
    assert "admin" != "user" && "admin" != "editor" && "user" != "editor";
    CreateThreeRoles(d1, "admin", true, AllIds(d1), "user", true, IdsNamed(d1, UserPermissionNames),
                     "editor", false, IdsNamed(d1, EditorPermissionNames),
                     AdminDescription, UserDescription,
                     EditorDescription);
    NamesOfAllIds(d1);
    NamesOfIdsNamed(d1, UserPermissionNames);
    NamesOfIdsNamed(d1, EditorPermissionNames);
  }

  /**
   * On an empty database the seed creates admin (id 1), user (id 2) and editor (id 3): admin
   * holds every seeded permission, user exactly `ping:read` and `news:read`, editor those and
   * `news:create`, `news:update`; admin and user are system roles and editor is not.
   */
  lemma SeedFromEmpty(seeds: seq<PermissionSeed>)
    ensures SeedWith(EmptyDb, seeds).roles ==
      [RoleRow(1, "admin", AdminDescription, true),
       RoleRow(2, "user", UserDescription, true),
       RoleRow(3, "editor", EditorDescription, false)]
  {
    SeedPermissionsFromEmpty(seeds);
    SeedRolesOnEmptyRoles(SeedPermissions(EmptyDb, seeds));
  }

  /** The permission half of the seed on an empty database: no roles yet, and exactly the seeded names. */
  lemma SeedPermissionsFromEmpty(seeds: seq<PermissionSeed>)
    ensures var d1 := SeedPermissions(EmptyDb, seeds);
      && d1.roles == [] && d1.rolePerms == {} && d1.nextRoleId == 1
      && PermIdsOk(d1) && LinksBelow(d1)
      && PermissionNames(d1) == SeedNames(seeds)
  {
    SeedPermissionsWf(EmptyDb, seeds);
    assert PermissionNames(EmptyDb) == {};
  }

  /** On an empty database each default role is linked to exactly its permission list. */
  lemma SeedFromEmptyLinks(seeds: seq<PermissionSeed>)
    requires UserPermissionNames <= SeedNames(seeds) && EditorPermissionNames <= SeedNames(seeds)
    ensures var s := SeedWith(EmptyDb, seeds);
      && RolePermissionNames(s, 1) == SeedNames(seeds)
      && RolePermissionNames(s, 2) == UserPermissionNames
      && RolePermissionNames(s, 3) == EditorPermissionNames
  {
    var d1 := SeedPermissions(EmptyDb, seeds);
    SeedPermissionsFromEmpty(seeds);
    SeedRolesOnEmptyRoles(d1);
    SubsetMeet(UserPermissionNames, PermissionNames(d1));
    SubsetMeet(EditorPermissionNames, PermissionNames(d1));
  }

  lemma SubsetMeet<T>(a: set<T>, b: set<T>)
    requires a <= b
    ensures a * b == a
  {
  }

  /** The catalogue holds the user and editor permissions, so `SeedFromEmpty` applies to `Seed`. */
  lemma CatalogCoversDefaults()
    ensures UserPermissionNames <= SeedNames(Catalog) && EditorPermissionNames <= SeedNames(Catalog)
  {
    assert Catalog[0].name == "ping:read" && Catalog[1].name == "news:read";
    assert Catalog[2].name == "news:create" && Catalog[3].name == "news:update";
  }
}

=== FILE: refresh_store.dfy ===
/**
 * The Redis-backed registry of refresh sessions. Redis holds two kinds of keys:
 * `refresh_token:<token>`, a JSON session record with a TTL, and `user_tokens:<userID>`,
 * the set of a user's tokens, whose TTL is reset on every write. The two prefixes differ
 * in their first character, so the keyspace splits into two independent maps.
 */
module RefreshStore {
  import opened Wrappers

  /** The session record kept under a refresh token. */
  datatype Session = Session(
    userID: string, username: string, role: string, permissions: seq<string>,
    createdAt: int, userAgent: string, ip: string)

  /** A `refresh_token:` key: the record and its TTL in seconds (`NoExpiry` when it has none). */
  datatype Entry = Entry(session: Session, ttl: int)

  /** A `user_tokens:` key: the token set and its TTL in seconds (`NoExpiry` when it has none). */
  datatype UserIndex = UserIndex(members: set<string>, ttl: int)

  /**
   * The store. `connected` is false when the package-level Redis client is nil; every
   * operation then fails without touching Redis.
   */
  datatype Store = Store(connected: bool, entries: map<string, Entry>, indexes: map<string, UserIndex>)

  datatype StoreError = NotInitialized | NotFoundOrExpired | CommandFailed

  /**
   * The store after a write and the error it reports, if any. The commands of one write
   * are not atomic: a failed command stops the write, but the commands before it have
   * taken effect.
   */
  datatype Outcome = Outcome(after: Store, error: Option<StoreError>)

  /** Which commands of `StoreRefreshToken` fail: the `SET`, the `SADD`, the unchecked `EXPIRE`. */
  datatype StoreFaults = StoreFaults(setFails: bool, saddFails: bool, expireFails: bool)

  /**
   * Which commands of `RevokeRefreshToken` fail: `sremFails` when the `GET` of the record
   * or the unchecked `SREM` fails (either way the index keeps the token), and the `DEL`.
   */
  datatype RevokeFaults = RevokeFaults(sremFails: bool, delFails: bool)

  /**
   * Which commands of `RevokeAllUserTokens` fail: the `SMEMBERS`, the unchecked `DEL`s of
   * the records in `undeleted`, and the final `DEL` of the index.
   */
  datatype RevokeAllFaults = RevokeAllFaults(smembersFails: bool, undeleted: set<string>, indexDelFails: bool)

  const StoreOk: StoreFaults := StoreFaults(false, false, false)
  const RevokeOk: RevokeFaults := RevokeFaults(false, false)
  const RevokeAllOk: RevokeAllFaults := RevokeAllFaults(false, {}, false)

  /** The TTL Redis reports for a key that has none. */
  const NoExpiry: int := -1

  /**
   * The TTL a `SET` with expiry `ttl` leaves on its key: the expiry when positive;
   * otherwise the key is written without one.
   */
  function SetTtl(ttl: int): (r: int)
    ensures r > 0 <==> ttl > 0
    ensures r > 0 ==> r == ttl
  {
    if ttl > 0 then ttl else NoExpiry
  }

  const RefreshTokenPrefix: string := "refresh_token:"
  const UserTokensPrefix: string := "user_tokens:"

  /** A token key never coincides with an index key, so the two maps do not interfere. */
  lemma KeyspacesDisjoint(token: string, userID: string)
    ensures RefreshTokenPrefix + token != UserTokensPrefix + userID
  {
    assert (RefreshTokenPrefix + token)[0] == 'r';
    assert (UserTokensPrefix + userID)[0] == 'u';
  }

  /** The members of a user's index; a missing key reads as the empty set, as `SMEMBERS` does. */
  function Members(st: Store, userID: string): set<string>
  {
    IndexMembers(st.indexes, userID)
  }

  function IndexMembers(indexes: map<string, UserIndex>, userID: string): set<string>
  {
    if userID in indexes then indexes[userID].members else {}
  }

  /**
   * Redis never keeps an empty set: removing the last member deletes the key. This is the
   * store invariant every operation keeps.
   */
  predicate Valid(st: Store)
  {
    forall u | u in st.indexes :: st.indexes[u].members != {}
  }

  /** Every live token is listed in the index of the user its record names. */
  predicate Indexed(st: Store)
  {
    forall t | t in st.entries :: t in Members(st, st.entries[t].session.userID)
  }

  /**
   * The index of `userID` given the member set `members`; an empty set deletes the key.
   * A user with no index is left without one.
   */
  function WithMembers(indexes: map<string, UserIndex>, userID: string, members: set<string>): map<string, UserIndex>
  {
    if userID !in indexes then indexes
    else if members == {} then indexes - {userID}
    else indexes[userID := indexes[userID].(members := members)]
  }

  /** `SREM`: drop one member of a user's index; the TTL is left alone. */
  function RemoveMember(indexes: map<string, UserIndex>, userID: string, token: string): map<string, UserIndex>
  {
    if userID in indexes then WithMembers(indexes, userID, indexes[userID].members - {token}) else indexes
  }

  /** Rewriting an index twice is rewriting it once with the later set. */
  lemma WithMembersTwice(indexes: map<string, UserIndex>, userID: string, s1: set<string>, s2: set<string>)
    requires userID in indexes && s1 != {}
    ensures WithMembers(WithMembers(indexes, userID, s1), userID, s2) == WithMembers(indexes, userID, s2)
  {
    if s2 == {} {
      assert indexes[userID := indexes[userID].(members := s1)] - {userID} == indexes - {userID};
    } else {
      assert WithMembers(indexes, userID, s1)[userID].ttl == indexes[userID].ttl;
    }
  }

  /** `SADD`: add a member, creating the set without a TTL when it is missing; an existing TTL stays. */
  function AddMember(indexes: map<string, UserIndex>, userID: string, token: string): (r: map<string, UserIndex>)
    ensures userID in r && r[userID].members == IndexMembers(indexes, userID) + {token}
    ensures r[userID].ttl == if userID in indexes then indexes[userID].ttl else NoExpiry
    ensures forall u | u != userID :: (u in r <==> u in indexes) && (u in indexes ==> r[u] == indexes[u])
  {
    var ttl := if userID in indexes then indexes[userID].ttl else NoExpiry;
    indexes[userID := UserIndex(IndexMembers(indexes, userID) + {token}, ttl)]
  }

  /** `EXPIRE`: a positive TTL is set on the key, a non-positive one deletes it; a missing key stays missing. */
  function ExpireIndex(indexes: map<string, UserIndex>, userID: string, ttl: int): (r: map<string, UserIndex>)
    ensures userID in r <==> userID in indexes && ttl > 0
    ensures userID in r ==> r[userID] == indexes[userID].(ttl := ttl)
    ensures forall u | u != userID :: (u in r <==> u in indexes) && (u in indexes ==> r[u] == indexes[u])
  {
    if userID !in indexes then indexes
    else if ttl > 0 then indexes[userID := indexes[userID].(ttl := ttl)]
    else indexes - {userID}
  }

  /**
   * `StoreRefreshToken`: `SET` the record with its TTL, `SADD` the token to the owner's
   * index, then reset the index TTL with an unchecked `EXPIRE`. A failed `SET` changes
   * nothing; a failed `SADD` leaves the record written but unindexed. A non-positive TTL
   * writes the record without expiry, and the `EXPIRE` then deletes the owner's whole index.
   */
  function StoreRefreshToken(st: Store, token: string, data: Session, ttl: int, faults: StoreFaults): (r: Outcome)
    ensures r.after.connected == st.connected
    ensures !st.connected ==> r == Outcome(st, Some(NotInitialized))
    ensures r.error.Some? <==> !st.connected || faults.setFails || faults.saddFails
    ensures st.connected && faults.setFails ==> r == Outcome(st, Some(CommandFailed))
    ensures st.connected && !faults.setFails ==> r.after.entries == st.entries[token := Entry(data, SetTtl(ttl))]
    ensures st.connected && !faults.setFails && faults.saddFails ==>
      r == Outcome(r.after, Some(CommandFailed)) && r.after.indexes == st.indexes
    ensures r.error.None? ==>
      && Members(r.after, data.userID) == (if ttl > 0 || faults.expireFails then Members(st, data.userID) + {token} else {})
      && (ttl > 0 && !faults.expireFails ==> r.after.indexes[data.userID].ttl == ttl)
      && (forall u | u != data.userID :: u in r.after.indexes <==> u in st.indexes)
      && (forall u | u != data.userID && u in st.indexes :: r.after.indexes[u] == st.indexes[u])
  {
    if !st.connected then Outcome(st, Some(NotInitialized))
    else if faults.setFails then Outcome(st, Some(CommandFailed))
    else
      var written := st.(entries := st.entries[token := Entry(data, SetTtl(ttl))]);
      if faults.saddFails then Outcome(written, Some(CommandFailed))
      else
        var added := AddMember(st.indexes, data.userID, token);
        var indexes := if faults.expireFails then added else ExpireIndex(added, data.userID, ttl);
        Outcome(written.(indexes := indexes), None)
  }

  /**
   * `GetRefreshTokenData`: the record under the token, or "not found or expired". A `GET`
   * that fails (`getFails`) is reported the same way as a missing key, even when the
   * record is live.
   */
  function GetRefreshTokenData(st: Store, token: string, getFails: bool): (r: Result<Session, StoreError>)
    ensures r.Success? <==> st.connected && !getFails && token in st.entries
    ensures r.Success? ==> r.value == st.entries[token].session
    ensures !st.connected ==> r == Failure(NotInitialized)
    ensures st.connected && (getFails || token !in st.entries) ==> r == Failure(NotFoundOrExpired)
  {
    if !st.connected then Failure(NotInitialized)
    else if !getFails && token in st.entries then Success(st.entries[token].session)
    else Failure(NotFoundOrExpired)
  }

  /**
   * `RevokeRefreshToken`: when the token resolves, `SREM` it from its owner's index
   * (unchecked); then `DEL` the record, whose failure is the error. An absent token is
   * not an error. A failed `DEL` after a successful `SREM` leaves the record live but
   * unindexed.
   */
  function RevokeRefreshToken(st: Store, token: string, faults: RevokeFaults): (r: Outcome)
    ensures r.after.connected == st.connected
    ensures !st.connected ==> r == Outcome(st, Some(NotInitialized))
    ensures r.error.Some? <==> !st.connected || faults.delFails
    ensures r.error.Some? && st.connected ==> r.error == Some(CommandFailed)
    ensures st.connected ==> r.after.entries == (if faults.delFails then st.entries else st.entries - {token})
    ensures st.connected && token in st.entries && !faults.sremFails ==>
      var owner := st.entries[token].session.userID;
      && Members(r.after, owner) == Members(st, owner) - {token}
      && forall u | u != owner :: (u in r.after.indexes <==> u in st.indexes)
                                  && (u in st.indexes ==> r.after.indexes[u] == st.indexes[u])
    ensures token !in st.entries || faults.sremFails ==> r.after.indexes == st.indexes
  {
    if !st.connected then Outcome(st, Some(NotInitialized))
    else
      var indexes :=
        if faults.sremFails then st.indexes
        else match GetRefreshTokenData(st, token, false)
          case Success(data) => RemoveMember(st.indexes, data.userID, token)
          case Failure(_) => st.indexes;
      var entries := if faults.delFails then st.entries else st.entries - {token};
      Outcome(st.(entries := entries, indexes := indexes), if faults.delFails then Some(CommandFailed) else None)
  }

  /**
   * `RevokeAllUserTokens`: `SMEMBERS` the user's index (its failure is an error and
   * nothing changes), `DEL` every record it names (unchecked), then `DEL` the index,
   * whose failure is the error. A record whose `DEL` failed stays live with no index.
   */
  function RevokeAllUserTokens(st: Store, userID: string, faults: RevokeAllFaults): (r: Outcome)
    ensures r.after.connected == st.connected
    ensures !st.connected ==> r == Outcome(st, Some(NotInitialized))
    ensures st.connected && faults.smembersFails ==> r == Outcome(st, Some(CommandFailed))
    ensures r.error.Some? <==> !st.connected || faults.smembersFails || faults.indexDelFails
    ensures st.connected && !faults.smembersFails ==>
      && (forall t | t in Members(st, userID) && t !in faults.undeleted :: t !in r.after.entries)
      && (forall t | t in st.entries && (t !in Members(st, userID) || t in faults.undeleted) ::
            t in r.after.entries && r.after.entries[t] == st.entries[t])
      && (forall t | t in r.after.entries :: t in st.entries)
      && (userID in r.after.indexes <==> faults.indexDelFails && userID in st.indexes)
      && (forall u | u in st.indexes && (u != userID || faults.indexDelFails) ::
            u in r.after.indexes && r.after.indexes[u] == st.indexes[u])
      && (forall u | u in r.after.indexes :: u in st.indexes)
  {
    if !st.connected then Outcome(st, Some(NotInitialized))
    else if faults.smembersFails then Outcome(st, Some(CommandFailed))
    else
      var entries := st.entries - (Members(st, userID) - faults.undeleted);
      if faults.indexDelFails then Outcome(st.(entries := entries), Some(CommandFailed))
      else Outcome(st.(entries := entries, indexes := st.indexes - {userID}), None)
  }

  /**
   * The environment's TTL clock: the record under `token` has expired. Its index entry
   * stays behind. A record written without expiry never expires.
   */
  function ExpireToken(st: Store, token: string): (r: Store)
    requires token in st.entries ==> st.entries[token].ttl > 0
    ensures r.entries == st.entries - {token}
    ensures r.indexes == st.indexes && r.connected == st.connected
  {
    st.(entries := st.entries - {token})
  }

  /** The tokens of the user's index that still resolve. */
  function LiveMembers(st: Store, userID: string): set<string>
  {
    set t | t in Members(st, userID) && t in st.entries
  }

  /**
   * The store after listing: the members of `userID`'s index that did not resolve are gone,
   * the dead ones and the live ones whose `GET` failed (`getFails`) alike.
   */
  function Pruned(st: Store, userID: string, getFails: set<string>): Store
  {
    var kept := LiveMembers(st, userID) - getFails;
    if kept == Members(st, userID) then st
    else st.(indexes := WithMembers(st.indexes, userID, kept))
  }

  /**
   * `ListUserTokens`: walk the index (in the unspecified order `SMEMBERS` returns it), keep
   * the record of every member that resolves, and `SREM` every member that does not,
   * whether it is dead or its `GET` failed (the members in `getFails`). `order` is the
   * token behind each returned record.
   */
  method ListUserTokens(st: Store, userID: string, getFails: set<string>)
    returns (st': Store, r: Result<seq<Session>, StoreError>, ghost order: seq<string>)
    ensures !st.connected ==> st' == st && r == Failure(NotInitialized)
    ensures st.connected ==> r.Success? && st' == Pruned(st, userID, getFails)
    ensures r.Success? ==>
      && NoDups(order)
      && Elems(order) == LiveMembers(st, userID) - getFails
      && RecordsOf(order, r.value, st.entries)
  {
    order := [];
    if !st.connected {
      st' := st;
      r := Failure(NotInitialized);
      return;
    }
    var remaining := Members(st, userID);
    var result: seq<Session> := [];
    var indexes := st.indexes;
    while remaining != {}
      invariant Listing(st, userID, getFails, remaining, indexes, order, result)
      decreases |remaining|
    {
      var t :| t in remaining;
      match GetRefreshTokenData(st, t, t in getFails) {
        case Success(session) =>
          ListKeep(st, userID, getFails, remaining, indexes, order, result, t);
          result := result + [session];
          order := order + [t];
        case Failure(_) =>
          ListDrop(st, userID, getFails, remaining, indexes, order, result, t);
          indexes := RemoveMember(indexes, userID, t);
      }
      remaining := remaining - {t};
    }
    r := Success(result);
    ListDone(st, userID, getFails, indexes, order, result);
    st' := st.(indexes := indexes);
  }

  /**
   * The state of the listing loop: `remaining` members are still to visit; the visited
   * ones that resolved are `order`, with their records in `result`; the visited others
   * are gone from `indexes`, which is otherwise the store's.
   */
  predicate Listing(st: Store, userID: string, getFails: set<string>, remaining: set<string>,
                    indexes: map<string, UserIndex>, order: seq<string>, result: seq<Session>)
  {
    var members := Members(st, userID);
    && remaining <= members
    && Elems(order) <= members && remaining !! Elems(order)
    && (forall x | x in members && x !in remaining :: x in Elems(order) <==> x in st.entries && x !in getFails)
    && IndexMembers(indexes, userID) == remaining + Elems(order)
    && indexes == (if IndexMembers(indexes, userID) == members then st.indexes
                   else WithMembers(st.indexes, userID, IndexMembers(indexes, userID)))
    && NoDups(order)
    && RecordsOf(order, result, st.entries)
  }

  lemma ListKeep(st: Store, userID: string, getFails: set<string>, remaining: set<string>,
                 indexes: map<string, UserIndex>, order: seq<string>, result: seq<Session>, t: string)
    requires Listing(st, userID, getFails, remaining, indexes, order, result)
    requires t in remaining && t in st.entries && t !in getFails
    ensures Listing(st, userID, getFails, remaining - {t}, indexes, order + [t], result + [st.entries[t].session])
  {
    ElemsSnoc(order, t);
    RecordsOfSnoc(order, result, st.entries, t);
    assert remaining - {t} + (Elems(order) + {t}) == remaining + Elems(order);
  }

  lemma ListDrop(st: Store, userID: string, getFails: set<string>, remaining: set<string>,
                 indexes: map<string, UserIndex>, order: seq<string>, result: seq<Session>, t: string)
    requires Listing(st, userID, getFails, remaining, indexes, order, result)
    requires t in remaining && (t !in st.entries || t in getFails)
    ensures Listing(st, userID, getFails, remaining - {t}, RemoveMember(indexes, userID, t), order, result)
  {
    DropDead(st.indexes, userID, IndexMembers(indexes, userID), indexes, t);
  }

  lemma ListDone(st: Store, userID: string, getFails: set<string>, indexes: map<string, UserIndex>,
                 order: seq<string>, result: seq<Session>)
    requires Listing(st, userID, getFails, {}, indexes, order, result)
    ensures NoDups(order) && Elems(order) == LiveMembers(st, userID) - getFails
    ensures RecordsOf(order, result, st.entries)
    ensures st.(indexes := indexes) == Pruned(st, userID, getFails)
  {
    assert Elems(order) == LiveMembers(st, userID) - getFails;
    PrunedIs(st, userID, getFails, indexes);
  }

  /** `sessions[i]` is the record stored under `tokens[i]`, for every position. */
  predicate RecordsOf(tokens: seq<string>, sessions: seq<Session>, entries: map<string, Entry>)
  {
    |tokens| == |sessions| &&
    forall i | 0 <= i < |tokens| :: tokens[i] in entries && sessions[i] == entries[tokens[i]].session
  }

  lemma RecordsOfSnoc(tokens: seq<string>, sessions: seq<Session>, entries: map<string, Entry>, t: string)
    requires RecordsOf(tokens, sessions, entries) && t in entries
    ensures RecordsOf(tokens + [t], sessions + [entries[t].session], entries)
  {
  }

  /** The index the listing loop ends with is the pruned one. */
  lemma PrunedIs(st: Store, userID: string, getFails: set<string>, indexes: map<string, UserIndex>)
    requires IndexMembers(indexes, userID) == LiveMembers(st, userID) - getFails
    requires indexes == if IndexMembers(indexes, userID) == Members(st, userID) then st.indexes
                        else WithMembers(st.indexes, userID, IndexMembers(indexes, userID))
    ensures st.(indexes := indexes) == Pruned(st, userID, getFails)
  {
  }

  /** One `SREM` of the listing loop, on an index already rewritten to `m` (or not yet touched). */
  lemma DropDead(base: map<string, UserIndex>, userID: string, m: set<string>,
                 cur: map<string, UserIndex>, t: string)
    requires t in m && m <= IndexMembers(base, userID)
    requires cur == if m == IndexMembers(base, userID) then base else WithMembers(base, userID, m)
    ensures RemoveMember(cur, userID, t) == WithMembers(base, userID, m - {t})
    ensures IndexMembers(RemoveMember(cur, userID, t), userID) == m - {t}
  {
    if m != IndexMembers(base, userID) {
      WithMembersTwice(base, userID, m, m - {t});
    }
  }

  /** The listing returns at most as many sessions as the index had members. */
  lemma ListingBounded(st: Store, userID: string, getFails: set<string>, order: seq<string>)
    requires NoDups(order) && Elems(order) == LiveMembers(st, userID) - getFails
    ensures |order| <= |Members(st, userID)|
  {
    NoDupsCard(order);
    SubsetCard(LiveMembers(st, userID) - getFails, Members(st, userID));
  }

  lemma {:induction false} SubsetCard<T>(a: set<T>, b: set<T>)
    requires a <= b
    ensures |a| <= |b|
    decreases |b|
  {
    if a != {} {
      var x :| x in a;
      SubsetCard(a - {x}, b - {x});
    }
  }

  /**
   * Storing the same token twice: the record is the later one; with a positive TTL the
   * index holds the token once, with a non-positive one the owner has no index.
   */
  lemma StoreTwice(st: Store, token: string, d1: Session, d2: Session, ttl: int)
    requires st.connected && d1.userID == d2.userID
    ensures var s1 := StoreRefreshToken(st, token, d1, ttl, StoreOk).after;
      var s2 := StoreRefreshToken(s1, token, d2, ttl, StoreOk).after;
      && GetRefreshTokenData(s2, token, false) == Success(d2)
      && Members(s2, d2.userID) == (if ttl > 0 then Members(st, d2.userID) + {token} else {})
  {
  }

  /**
   * Revoking twice is revoking once: after a first revoke with no failed command, a second
   * one changes nothing whichever of its commands fail, and reports no error unless its `DEL` fails.
   */
  lemma RevokeIdempotent(st: Store, token: string, again: RevokeFaults)
    requires st.connected
    ensures var s1 := RevokeRefreshToken(st, token, RevokeOk).after;
      && RevokeRefreshToken(s1, token, again).after == s1
      && (!again.delFails ==> RevokeRefreshToken(s1, token, again).error == None)
  {
  }

  /**
   * After a revoke whose `DEL` went through the token no longer resolves; after one whose
   * `SREM` went through it has left its owner's index.
   */
  lemma RevokeForgets(st: Store, token: string, faults: RevokeFaults)
    requires st.connected && token in st.entries
    ensures var s1 := RevokeRefreshToken(st, token, faults).after;
      && (!faults.delFails ==> GetRefreshTokenData(s1, token, false) == Failure(NotFoundOrExpired))
      && (!faults.sremFails ==> token !in Members(s1, st.entries[token].session.userID))
  {
  }

  lemma StoreKeepsValid(st: Store, token: string, data: Session, ttl: int, faults: StoreFaults)
    requires Valid(st)
    ensures Valid(StoreRefreshToken(st, token, data, ttl, faults).after)
  {
    var s1 := StoreRefreshToken(st, token, data, ttl, faults).after;
    forall u | u in s1.indexes
      ensures s1.indexes[u].members != {}
    {
      if u != data.userID {
        assert u in st.indexes;
      }
    }
  }

  lemma RevokeKeepsValid(st: Store, token: string, faults: RevokeFaults)
    requires Valid(st)
    ensures Valid(RevokeRefreshToken(st, token, faults).after)
  {
    var s1 := RevokeRefreshToken(st, token, faults).after;
    forall u | u in s1.indexes
      ensures s1.indexes[u].members != {}
    {
      assert u in st.indexes;
    }
  }

  lemma RevokeAllKeepsValid(st: Store, userID: string, faults: RevokeAllFaults)
    requires Valid(st)
    ensures Valid(RevokeAllUserTokens(st, userID, faults).after)
  {
    var s1 := RevokeAllUserTokens(st, userID, faults).after;
    forall u | u in s1.indexes
      ensures s1.indexes[u].members != {}
    {
      assert u in st.indexes;
    }
  }

  /** Every operation keeps the no-empty-set invariant, whichever of its commands fail. */
  lemma OperationsKeepValid(st: Store, token: string, userID: string, data: Session, ttl: int,
                            sf: StoreFaults, rf: RevokeFaults, af: RevokeAllFaults, getFails: set<string>)
    requires Valid(st)
    ensures Valid(StoreRefreshToken(st, token, data, ttl, sf).after)
    ensures Valid(RevokeRefreshToken(st, token, rf).after)
    ensures Valid(RevokeAllUserTokens(st, userID, af).after)
    ensures token in st.entries ==> st.entries[token].ttl > 0 ==> Valid(ExpireToken(st, token))
    ensures Valid(Pruned(st, userID, getFails))
  {
    StoreKeepsValid(st, token, data, ttl, sf);
    RevokeKeepsValid(st, token, rf);
    RevokeAllKeepsValid(st, userID, af);
  }

  /**
   * Storing keeps every live token in its owner's index when the `SET` fails, or when the
   * `SADD` succeeds and the index is not then deleted by a non-positive `EXPIRE`.
   */
  lemma StoreKeepsIndexed(st: Store, token: string, data: Session, ttl: int, faults: StoreFaults)
    requires Indexed(st)
    requires faults.setFails || (!faults.saddFails && (ttl > 0 || faults.expireFails))
    ensures Indexed(StoreRefreshToken(st, token, data, ttl, faults).after)
  {
    var s1 := StoreRefreshToken(st, token, data, ttl, faults).after;
    forall t | t in s1.entries
      ensures t in Members(s1, s1.entries[t].session.userID)
    {
      if t != token {
        var u := st.entries[t].session.userID;
        assert t in Members(st, u);
      }
    }
  }

  /**
   * The other cases break the index: a failed `SADD` of a token not yet indexed, or a
   * non-positive TTL whose `EXPIRE` deletes the index, leaves the new record live but in
   * no index.
   */
  lemma StoreCanUnindex(st: Store, token: string, data: Session, ttl: int, faults: StoreFaults)
    requires st.connected && !faults.setFails
    requires (faults.saddFails && token !in Members(st, data.userID))
             || (!faults.saddFails && !faults.expireFails && ttl <= 0)
    ensures var s1 := StoreRefreshToken(st, token, data, ttl, faults).after;
      && GetRefreshTokenData(s1, token, false) == Success(data)
      && token !in Members(s1, data.userID)
      && !Indexed(s1)
  {
  }

  /** Revoking one token keeps every other live token indexed, unless the `DEL` fails after the `SREM`. */
  lemma RevokeKeepsIndexed(st: Store, token: string, faults: RevokeFaults)
    requires Indexed(st)
    requires faults.sremFails || !faults.delFails
    ensures Indexed(RevokeRefreshToken(st, token, faults).after)
  {
    var s1 := RevokeRefreshToken(st, token, faults).after;
    forall t | t in s1.entries
      ensures t in Members(s1, s1.entries[t].session.userID)
    {
      var u := st.entries[t].session.userID;
      assert t in Members(st, u);
    }
  }

  /** A `DEL` that fails after the `SREM` succeeded leaves the token live but out of its owner's index. */
  lemma RevokeCanUnindex(st: Store, token: string)
    requires st.connected && token in st.entries
    ensures var s1 := RevokeRefreshToken(st, token, RevokeFaults(false, true)).after;
      && GetRefreshTokenData(s1, token, false) == Success(st.entries[token].session)
      && token !in Members(s1, st.entries[token].session.userID)
      && !Indexed(s1)
  {
  }

  /**
   * A bulk revoke keeps every other user's tokens indexed; the user's own survivors stay
   * indexed unless the index is deleted while a live record's `DEL` failed.
   */
  lemma RevokeAllKeepsIndexed(st: Store, userID: string, faults: RevokeAllFaults)
    requires Indexed(st)
    requires faults.indexDelFails || faults.undeleted !! LiveMembers(st, userID)
    ensures Indexed(RevokeAllUserTokens(st, userID, faults).after)
  {
    var s1 := RevokeAllUserTokens(st, userID, faults).after;
    forall t | t in s1.entries
      ensures t in Members(s1, s1.entries[t].session.userID)
    {
      var u := st.entries[t].session.userID;
      assert t in Members(st, u);
    }
  }

  /**
   * Expiry only removes records, and pruning only removes dead members when no live
   * member's `GET` fails, so `Indexed` survives both.
   */
  lemma ExpiryAndPruningKeepIndexed(st: Store, token: string, userID: string, getFails: set<string>)
    requires Indexed(st)
    requires token in st.entries ==> st.entries[token].ttl > 0
    requires getFails !! LiveMembers(st, userID)
    ensures Indexed(ExpireToken(st, token))
    ensures Indexed(Pruned(st, userID, getFails))
  {
    var s1 := Pruned(st, userID, getFails);
    forall t | t in s1.entries
      ensures t in Members(s1, s1.entries[t].session.userID)
    {
      var u := st.entries[t].session.userID;
      assert t in Members(st, u);
      if u == userID {
        assert t in LiveMembers(st, userID);
      }
    }
  }

  /**
   * A live member whose `GET` fails during a listing is pruned all the same: the record
   * still resolves, no index lists it, and revoking all of the user's tokens leaves it.
   */
  lemma ListingReadFailureUnindexes(st: Store, userID: string, getFails: set<string>, token: string,
                                    faults: RevokeAllFaults)
    requires st.connected && token in LiveMembers(st, userID) && token in getFails
    ensures var s1 := Pruned(st, userID, getFails);
      && GetRefreshTokenData(s1, token, false) == Success(st.entries[token].session)
      && token !in Members(s1, userID)
      && GetRefreshTokenData(RevokeAllUserTokens(s1, userID, faults).after, token, false).Success?
  {
  }

  /**
   * With every live token indexed, revoking all of a user's tokens leaves no record of
   * that user except those whose `DEL` failed.
   */
  lemma RevokeAllLeavesNoSession(st: Store, userID: string, faults: RevokeAllFaults)
    requires st.connected && Indexed(st) && !faults.smembersFails
    ensures var s1 := RevokeAllUserTokens(st, userID, faults).after;
      forall t | t in s1.entries :: s1.entries[t].session.userID != userID || t in faults.undeleted
  {
  }
}

=== FILE: token_codec.dfy ===
/**
 * Issuing and checking tokens: RS256 access tokens (a JSON Web Token, RFC 7519, signed with
 * RSASSA-PKCS1-v1_5 as in section 3.3 of RFC 7518) and opaque refresh tokens (32 random
 * bytes in padded base64url). Signatures are symbolic: a key pair is a number, and a
 * signature made with private key `k` verifies under public key `p` exactly when `k == p`.
 * Times are whole seconds since the epoch.
 */
module TokenCodec {
  import opened Wrappers
  import Base64Url

  /** The `alg` header values the JWT library knows. */
  datatype Alg =
    | HS256 | HS384 | HS512
    | RS256 | RS384 | RS512
    | PS256 | PS384 | PS512
    | ES256 | ES384 | ES512
    | EdDSA | NoneAlg

  /**
   * The key callback accepts only methods of the library's PKCS#1 v1.5 RSA type. The
   * RSA-PSS methods have a type of their own and are refused like the HMAC, ECDSA, EdDSA
   * and `none` methods.
   */
  predicate IsRsaFamily(alg: Alg)
  {
    alg == RS256 || alg == RS384 || alg == RS512
  }

  /** The application claims and the registered claims the service sets. */
  datatype Claims = Claims(
    userID: string, username: string, role: string, permissions: seq<string>,
    issuer: string, subject: string, issuedAt: int, notBefore: int, expiresAt: int)

  /**
   * A token as the parser sees it: a well-formed JWS with its header algorithm, its
   * claims and the key its signature was made with, or text that does not parse.
   */
  datatype Token = Signed(alg: Alg, claims: Claims, signer: nat) | Malformed(text: string)

  /** The package-level key pointers; `None` is a nil pointer. */
  datatype KeyState = KeyState(priv: Option<nat>, pub: Option<nat>)

  datatype JwtError =
    | NotInitialized
    | MalformedToken
    | UnexpectedSigningMethod(alg: Alg)
    | SignatureInvalid
    | ClaimsInvalid(expired: bool, notYetValid: bool)
    | EntropyUnavailable

  /** `TokenPair`: both tokens and their lifetimes in seconds. */
  datatype TokenPair = TokenPair(
    accessToken: Token, refreshToken: string,
    accessExpiresIn: int, refreshExpiresIn: int, tokenType: string)

  const SecondsPerMinute: int := 60
  const SecondsPerDay: int := 24 * 60 * 60
  const RefreshTokenBytes: nat := 32

  /**
   * `GenerateAccessToken`: subject is the user id, issued-at and not-before are now, and the
   * token expires `expiryMins` minutes later; signed RS256 with the private key.
   */
  function GenerateAccessToken(keys: KeyState, userID: string, username: string, role: string,
                               permissions: seq<string>, issuer: string, expiryMins: int, now: int)
    : (r: Result<Token, JwtError>)
    ensures keys.priv.None? <==> r.Failure?
    ensures r.Failure? ==> r.error == NotInitialized
    ensures r.Success? ==>
      && r.value.Signed? && r.value.alg == RS256 && r.value.signer == keys.priv.value
      && r.value.claims.userID == userID && r.value.claims.subject == userID
      && r.value.claims.username == username && r.value.claims.role == role
      && r.value.claims.permissions == permissions && r.value.claims.issuer == issuer
      && r.value.claims.issuedAt == now && r.value.claims.notBefore == now
      && r.value.claims.expiresAt - r.value.claims.issuedAt == expiryMins * SecondsPerMinute
  {
    match keys.priv
    case None => Failure(NotInitialized)
    case Some(k) =>
      Success(Signed(RS256, Claims(userID, username, role, permissions, issuer, userID,
                                   now, now, now + expiryMins * SecondsPerMinute), k))
  }

  /**
   * `GenerateRefreshToken`: 32 bytes from the random source, in padded base64url.
   * `entropy` is what the source delivered, or `None` when reading it failed.
   */
  function GenerateRefreshToken(entropy: Option<seq<Base64Url.byte>>): (r: Result<string, JwtError>)
    requires entropy.Some? ==> |entropy.value| == RefreshTokenBytes
    ensures entropy.None? <==> r.Failure?
    ensures r.Failure? ==> r.error == EntropyUnavailable
    ensures r.Success? ==> Base64Url.Decode(r.value) == Some(entropy.value)
    ensures r.Success? ==> |r.value| == 44
  {
    match entropy
    case None => Failure(EntropyUnavailable)
    case Some(bytes) =>
      Base64Url.DecodeEncode(bytes);
      assert (|bytes| + 2) / 3 == 11;
      Success(Base64Url.Encode(bytes))
  }

  /** A refresh token is 43 alphabet symbols and one `=`. */
  lemma RefreshTokenShape(bytes: seq<Base64Url.byte>)
    requires |bytes| == RefreshTokenBytes
    ensures var t := GenerateRefreshToken(Some(bytes)).value;
      && |t| == 44 && t[43] == Base64Url.Pad && Base64Url.AllUrlSafe(t[..43])
  {
    Base64Url.EncodeAlphabet(bytes);
  }

  /** Two refresh tokens are equal exactly when the random bytes behind them are. */
  lemma RefreshTokenInjective(b1: seq<Base64Url.byte>, b2: seq<Base64Url.byte>)
    requires |b1| == RefreshTokenBytes && |b2| == RefreshTokenBytes
    ensures GenerateRefreshToken(Some(b1)) == GenerateRefreshToken(Some(b2)) <==> b1 == b2
  {
  }

  /**
   * `GenerateTokenPair`: the access token, then the refresh token; either failure fails the
   * pair. The lifetimes are reported in seconds.
   */
  function GenerateTokenPair(keys: KeyState, entropy: Option<seq<Base64Url.byte>>,
                             userID: string, username: string, role: string, permissions: seq<string>,
                             issuer: string, accessExpiryMins: int, refreshExpiryDays: int, now: int)
    : (r: Result<TokenPair, JwtError>)
    requires entropy.Some? ==> |entropy.value| == RefreshTokenBytes
    ensures r.Success? <==> keys.priv.Some? && entropy.Some?
    ensures keys.priv.None? ==> r == Failure(NotInitialized)
    ensures keys.priv.Some? && entropy.None? ==> r == Failure(EntropyUnavailable)
    ensures r.Success? ==>
      && r.value.accessToken == GenerateAccessToken(keys, userID, username, role, permissions, issuer, accessExpiryMins, now).value
      && Base64Url.Decode(r.value.refreshToken) == Some(entropy.value)
      && r.value.accessExpiresIn == accessExpiryMins * SecondsPerMinute
      && r.value.refreshExpiresIn == refreshExpiryDays * SecondsPerDay
      && r.value.tokenType == "Bearer"
  {
    var access := GenerateAccessToken(keys, userID, username, role, permissions, issuer, accessExpiryMins, now);
    if access.Failure? then Failure(access.error)
    else
      var refresh := GenerateRefreshToken(entropy);
      if refresh.Failure? then Failure(refresh.error)
      else
        Success(TokenPair(access.value, refresh.value, accessExpiryMins * SecondsPerMinute,
                          refreshExpiryDays * SecondsPerDay, "Bearer"))
  }

  /**
   * `ValidateToken`: parse, check the method is RSA PKCS#1 v1.5, verify the signature with
   * the public key, then check the time claims: the token has expired once `now` reaches
   * `exp`, and is not yet valid while `now` is before `nbf`. Issued-at is not checked.
   * Both time errors are reported together when both apply. A token is accepted exactly
   * when it is an RSA-signed token of the loaded key within its validity window, and then
   * yields its own claims.
   */
  function ValidateToken(keys: KeyState, token: Token, now: int): (r: Result<Claims, JwtError>)
    ensures r.Success? <==>
      && keys.pub.Some? && token.Signed? && IsRsaFamily(token.alg)
      && token.signer == keys.pub.value
      && token.claims.notBefore <= now < token.claims.expiresAt
    ensures r.Success? ==> r.value == token.claims
  {
    if keys.pub.None? then Failure(NotInitialized)
    else match token
      case Malformed(_) => Failure(MalformedToken)
      case Signed(alg, claims, signer) =>
        if !IsRsaFamily(alg) then Failure(UnexpectedSigningMethod(alg))
        else if signer != keys.pub.value then Failure(SignatureInvalid)
        else if now >= claims.expiresAt || now < claims.notBefore then
          Failure(ClaimsInvalid(now >= claims.expiresAt, now < claims.notBefore))
        else Success(claims)
  }

  /**
   * An access token issued with a matching key pair is accepted at every instant from its
   * issue until its expiry, and yields the claims it was issued with.
   */
  lemma IssueThenValidate(keys: KeyState, userID: string, username: string, role: string,
                          permissions: seq<string>, issuer: string, expiryMins: int, now: int, later: int)
    requires keys.priv.Some? && keys.pub == keys.priv
    requires now <= later < now + expiryMins * SecondsPerMinute
    ensures var tok := GenerateAccessToken(keys, userID, username, role, permissions, issuer, expiryMins, now);
      && tok.Success?
      && ValidateToken(keys, tok.value, later).Success?
      && var c := ValidateToken(keys, tok.value, later).value;
         c.userID == userID && c.username == username && c.role == role && c.permissions == permissions
  {
  }

  /** Once its lifetime has passed, an issued token is refused as expired. */
  lemma IssuedTokenExpires(keys: KeyState, userID: string, username: string, role: string,
                           permissions: seq<string>, issuer: string, expiryMins: int, now: int, later: int)
    requires keys.priv.Some? && keys.pub.Some?
    requires later >= now + expiryMins * SecondsPerMinute
    ensures var tok := GenerateAccessToken(keys, userID, username, role, permissions, issuer, expiryMins, now).value;
      var v := ValidateToken(keys, tok, later);
      keys.pub == keys.priv ==> v.Failure? && v.error.ClaimsInvalid? && v.error.expired
  {
  }

  /** A token signed by any other key is refused as a bad signature. */
  lemma ForeignKeyRejected(keys: KeyState, alg: Alg, claims: Claims, signer: nat, now: int)
    requires keys.pub.Some? && signer != keys.pub.value && IsRsaFamily(alg)
    ensures ValidateToken(keys, Signed(alg, claims, signer), now) == Failure(SignatureInvalid)
  {
  }

  /** A token whose header names a non-RSA method (`none`, HMAC, PSS, ...) is refused before any key is used. */
  lemma NonRsaRejected(keys: KeyState, alg: Alg, claims: Claims, signer: nat, now: int)
    requires keys.pub.Some? && !IsRsaFamily(alg)
    ensures ValidateToken(keys, Signed(alg, claims, signer), now) == Failure(UnexpectedSigningMethod(alg))
  {
  }

  /** What reading the key files gave: both keys, or a failure and the public pointer it left behind. */
  datatype LoadOutcome = Loaded(priv: nat, pub: nat) | LoadFailed(pubLeft: Option<nat>)

  datatype InitReport = InitReport(keys: KeyState, loadAttempted: bool, generated: bool,
                                   saveAttempted: bool, failed: bool)

  /**
   * `Init`: when both paths are set, try to load the pair; if that is not attempted or
   * fails, generate a pair (`generated` is the new pair, or `None` if generation failed)
   * and, when both paths are set, try to save it (a failed save is only logged).
   * Generation failure leaves the private key nil and the public key as loading left it.
   */
  function Init(privatePath: string, publicPath: string, prior: KeyState, load: LoadOutcome,
                generated: Option<nat>, saveOk: bool): (r: InitReport)
    ensures r.loadAttempted <==> privatePath != "" && publicPath != ""
    ensures r.generated <==> !(r.loadAttempted && load.Loaded?)
    ensures r.failed <==> r.generated && generated.None?
    ensures r.saveAttempted <==> r.generated && generated.Some? && r.loadAttempted
    ensures r.failed <==> r.keys.priv.None?
    ensures r.loadAttempted && load.Loaded? ==> r.keys == KeyState(Some(load.priv), Some(load.pub))
    ensures r.generated && generated.Some? ==> r.keys == KeyState(generated, generated)
  {
    var both := privatePath != "" && publicPath != "";
    if both && load.Loaded? then
      InitReport(KeyState(Some(load.priv), Some(load.pub)), true, false, false, false)
    else
      var pubLeft := if both then load.pubLeft else prior.pub;
      match generated
      case None => InitReport(KeyState(None, pubLeft), both, true, false, true)
      case Some(k) => InitReport(KeyState(Some(k), Some(k)), both, true, both, false)
  }

  /**
   * After a successful `Init` that generated its keys, every access token it issues with a
   * positive lifetime is accepted until it expires and yields the claims it was issued
   * with; saving the keys, successful or not, does not change that.
   */
  lemma InitGeneratedKeysWork(privatePath: string, publicPath: string, prior: KeyState, load: LoadOutcome,
                              k: nat, saveOk: bool, userID: string, username: string, role: string,
                              permissions: seq<string>, issuer: string, expiryMins: int, now: int, later: int)
    requires !(privatePath != "" && publicPath != "" && load.Loaded?)
    requires now <= later < now + expiryMins * SecondsPerMinute
    ensures var keys := Init(privatePath, publicPath, prior, load, Some(k), saveOk).keys;
      var tok := GenerateAccessToken(keys, userID, username, role, permissions, issuer, expiryMins, now);
      && tok.Success?
      && ValidateToken(keys, tok.value, later).Success?
      && var c := ValidateToken(keys, tok.value, later).value;
         c.userID == userID && c.username == username && c.role == role && c.permissions == permissions
  {
    var keys := Init(privatePath, publicPath, prior, load, Some(k), saveOk).keys;
    IssueThenValidate(keys, userID, username, role, permissions, issuer, expiryMins, now, later);
  }

  /** After a failed `Init` no access token can be issued, whatever its claims. */
  lemma InitFailureBlocksIssuing(privatePath: string, publicPath: string, prior: KeyState, load: LoadOutcome,
                                 saveOk: bool, userID: string, username: string, role: string,
                                 permissions: seq<string>, issuer: string, expiryMins: int, now: int)
    ensures var r := Init(privatePath, publicPath, prior, load, None, saveOk);
      r.failed ==>
        GenerateAccessToken(r.keys, userID, username, role, permissions, issuer, expiryMins, now)
          == Failure(NotInitialized)
  {
  }
}

=== FILE: wrappers.dfy ===
/** Failure-carrying datatypes shared by every module of the model. */
module Wrappers {

  /** A value that may be absent (a Go `nil` pointer, an unset variable, a failed lookup). */
  datatype Option<+T> = None | Some(value: T)

  /** Either a value or the error a Go function would have returned next to it. */
  datatype Result<+T, +E> = Success(value: T) | Failure(error: E)

  /** A Go `error` return with no accompanying value: `nil` or an error. */
  datatype Outcome<+E> = Pass | Fail(error: E)

  /** The elements of a sequence, as a set. */
  function Elems<T>(s: seq<T>): set<T>
  {
    set i | 0 <= i < |s| :: s[i]
  }

  /** No element occurs twice. */
  predicate NoDups<T(==)>(s: seq<T>)
  {
    forall i, j | 0 <= i < j < |s| :: s[i] != s[j]
  }

  lemma ElemsSnoc<T>(s: seq<T>, x: T)
    ensures Elems(s + [x]) == Elems(s) + {x}
  {
    assert (s + [x])[|s|] == x;
    forall y | y in Elems(s)
      ensures y in Elems(s + [x])
    {
      var i :| 0 <= i < |s| && s[i] == y;
      assert (s + [x])[i] == y;
    }
  }

  lemma ElemsEmpty<T>(s: seq<T>)
    ensures Elems(s) == {} <==> s == []
  {
    if |s| > 0 {
      assert s[0] in Elems(s);
    }
  }

  /** A duplicate-free sequence has as many elements as the set of its elements. */
  lemma {:induction false} NoDupsCard<T>(s: seq<T>)
    requires NoDups(s)
    ensures |Elems(s)| == |s|
  {
    if |s| > 0 {
      var init := s[..|s| - 1];
      assert NoDups(init);
      NoDupsCard(init);
      assert Elems(s) == Elems(init) + {s[|s| - 1]};
      assert s[|s| - 1] !in Elems(init);
    }
  }
}
